=== FILE: README.md ===
# ferrux engine core in Dafny

A model of the core of the ferrux 3D engine, a small Rust software renderer. It covers
three groups of logic.

- **The textual mesh format.** A point is three floats separated by single spaces, a
  triangle is three points separated by commas, and a mesh is triangles separated by
  semicolons. Each layer splits its text with Rust's `str::split`, checks the piece count
  and parses the pieces in order. Failures nest through the `From` conversions of the
  error enums: `PointParsingError` inside `TriangleParsingError` inside `GeometryError`.
  `parse_next` is the small token helper. The cube literal of `get_3d_cube` is proved to
  parse to its twelve triangles.
- **The vector and matrix algebra of the renderer.** `f32` values are modelled as `real`.
  This covers the 4×4 matrix and `vector_dot_matrix` with its perspective divide, the
  legacy `multiply_matrix`, and the projection and rotation builders. It also covers
  point and triangle projection, normals, plane anchors, the vertex-sharing triangle, and
  the mesh actor's back-face test and brightness byte. The 3D environment fans
  `draw`/`update` out to its actors.
- **The integer pixel logic.** This covers the `i16` bouncing box and the pixel `World`,
  the two box environments, the RGBA frame fill, the `EngineCanvas` cell grid
  (`push_pixel`, `clear`, `draw_line`, `render`, `resize`) and `EngineConfig`.

Modules follow the source:

| module | models |
|---|---|
| `Wrappers`, `Text`, `Numbers` | `Option`/`Result`; `str::split`; `str::parse` for `f32`, `u32`, `i32` |
| `PointParsingErrors`, `TriangleParsingErrors`, `GeometryErrors` | the three parsing error enums |
| `Parsing`, `ParsingExamples` | the three `try_from` parsers and `parse_next`, and their tests |
| `MeshFormat`, `Cube` | the mesh text written out (the parsers' inverse); `get_3d_cube` |
| `Vector`, `Matrix`, `Builders` | points, `Matrix4`, `vector_dot_matrix`, the matrix builders |
| `Geometry`, `GeometryExamples` | `Triangle3`, the array-backed and the vertex-sharing triangle, and their tests |
| `MeshActors`, `Scene` | `MeshActor` and the 3D `Environment` |
| `Frames`, `Boxes`, `BoxEnvironment`, `CanvasEnvironment`, `World` | RGBA frames, `BouncingBox`, the two box environments, the `World` demo |
| `Canvas`, `Config` | `EngineCanvas` and `EngineConfig` |

Outside inputs are passed in as parameters:

- the platform's `tan`, `sin`, `cos`, `sqrt` and π, as a `MathLib` record;
- the float-token parser, as a `FloatParser`;
- the outcome of reading the environment file;
- whether a GPU adapter was found, and whether the pixel buffer was presented.

Where a lemma needs a value of these functions, it takes it as a hypothesis.
Examples are `tan(π/4) = 1` and `9.79 < sqrt(96) < 9.80`.

Two places where the source disagrees with itself:

- `Projectable::get_projection` is declared with four arguments (matrix, offset, width,
  height) at `src/geometry/projectable.rs:18`, and `Point3` implements it so at
  `src/geometry/vector/point3.rs:28`. `Triangle3`'s implementation at
  `src/geometry/triangle/triangle3.rs:43` takes only the matrix and the offset and passes
  only those two to each vertex. Its own test at `src/geometry/triangle/triangle3.rs:179`
  passes four, and `src/actors/mesh_actor.rs:38` passes two and reads a z from the result.
  The model follows each use:
  - `PointProjection` is the four-argument point projection to the screen, and
    `TriangleProjection` applies it to each vertex, as the triangle test does;
  - `ProjectNdc` and `TriangleNdc` are the two-argument form the mesh actor calls, which
    stays in normalised device coordinates.
- `src/environment/environment.rs:26-30` passes a canvas to `Actor::draw`, whose declared
  signature takes a pixel and coordinates. The model keeps that environment's draw
  abstract over the actor's draw function.

## Model

| member | source | states |
|---|---|---|
| Wrappers.MapErr | src/geometry/util.rs:9 | a success passes through unchanged; an error is replaced by the mapped error |
| Text.Split | src/geometry/mesh.rs:30 | n separators give n + 1 pieces, empty pieces included, and no piece holds the separator |
| Text.JoinSplit | src/geometry/mesh.rs:30 | joining the pieces of a split restores the text exactly |
| Text.SplitJoin | src/geometry/mesh.rs:30 | splitting a join of separator-free pieces gives back the same pieces |
| Text.SplitTrailingSeparator | src/geometry/mesh.rs:30 | a trailing separator adds exactly one empty last piece |
| Numbers.ParseF32 | src/geometry/vector/point3.rs:44-46 | the empty text is `EmptyText`; any other text outside the decimal grammar is `InvalidText` |
| Numbers.ParseU32 | src/geometry/util.rs:32-37 | `u32::from_str`: the empty-text error is reported exactly for the empty text; a success lies in the u32 range, comes from text not starting with `-` and is all digits after an optional `+`; it never reports `NegOverflow` |
| Numbers.ParseI32 | src/geometry/util.rs:18-21 | `i32::from_str`: the empty-text error is reported exactly for the empty text; a success lies in the i32 range and is all digits after an optional sign, negative only after `-`; `NegOverflow` only after `-`, `PosOverflow` only without it |
| Numbers.ScanDigits | src/geometry/util.rs:5-10 | the digit loop of `from_str_radix`: a success means every character was a digit and stays within the limit; a failure is either an invalid digit or the given overflow kind |
| Numbers.ScanByDigitRun | src/geometry/util.rs:5-10 | the leading run of digits decides the loop: its value above the limit is an overflow whatever follows; within the limit, a character after the run is `InvalidDigit`, otherwise the value is returned |
| Numbers.DigitRunDecides | src/geometry/util.rs:5-10 | for a digit run followed by nothing or by a non-digit, `u32`, `i32` and `-`-prefixed `i32` parsing overflow (`PosOverflow`/`NegOverflow`) when the run's value is out of range, so "99999999999a" is an overflow; otherwise trailing text is `InvalidDigit` and no trailing text gives the value |
| Numbers.NatTextRoundTrip | src/geometry/vector/point3.rs:44-46 | the decimal text of n, with or without a leading `-`, parses back to ±n |
| Numbers.IntegerTextRoundTrip | src/geometry/util.rs:5-10 | the decimal text of n reads back as n through `u32` (also after `+`) and `i32` within their ranges, and is `PosOverflow` above them; after `-` it reads as −n through `i32` down to −2^31 and is `NegOverflow` below; `u32` refuses any `-` as an invalid digit |
| PointParsingErrors.FromParseFloatError | src/geometry/vector/point_parsing_error.rs:34-38 | every float failure becomes `InvalidFloat` and never `InvalidAxisNumber` |
| PointParsingErrors.DisplayInjective | src/geometry/vector/point_parsing_error.rs:12-30 | two point errors print the same message iff they are equal |
| TriangleParsingErrors.FromPointError | src/geometry/triangle/triangle_parsing_error.rs:36-40 | a point error is wrapped unchanged as `InvalidPoint(e)` |
| TriangleParsingErrors.DisplayInjective | src/geometry/triangle/triangle_parsing_error.rs:12-32 | two triangle errors, nested point errors included, print the same message iff they are equal |
| GeometryErrors.FromTriangleError | src/geometry/geometry_error.rs:40-47 | `InvalidPoint(_)` becomes `InvalidPoint` and `InvalidPointNumber` becomes `InvalidTriangle`; both keep the whole triangle error |
| GeometryErrors.DisplayStructure | src/geometry/geometry_error.rs:15-23 | both triangle variants print "Invalid triangle: " and then the triangle error's message; `MissingValue`/`WrongNumber` end with the carried line verbatim |
| GeometryErrors.ConvertedDisplayInjective | src/geometry/geometry_error.rs:15-47 | two converted triangle errors print the same message iff the triangle errors are equal |
| Parsing.ParseAll | src/geometry/mesh.rs:38-41 | succeeds iff every item parses, keeping order and count; otherwise it returns the error of the first item that fails |
| Parsing.ParsePoint | src/geometry/vector/point3.rs:37-49 | `InvalidAxisNumber` iff the text does not have exactly two spaces, decided before any float is read; `InvalidFloat` iff there are three pieces and one does not parse; on success, the coordinates are the pieces in order |
| Parsing.ParseTriangle | src/geometry/triangle/triangle3.rs:55-67 | `InvalidPointNumber` iff the text does not have exactly two commas; otherwise the first bad point's error wrapped as `InvalidPoint`, or the three points in order |
| Parsing.ParseTriangleShape | src/geometry/triangle/triangle_shape.rs:33-45 | the array-backed triangle succeeds exactly when `Triangle3` does, with the same points in order, and otherwise fails with the same error |
| Parsing.ParseMeshPiece | src/geometry/mesh.rs:39 | a piece's triangle error is converted by `From`, and is never `InvalidMesh` |
| Parsing.SplitIsEmptyPiece | src/geometry/mesh.rs:32-34 | the split is the single empty piece iff the text is empty |
| Parsing.ParseMesh | src/geometry/mesh.rs:29-44 | `InvalidMesh` iff the text is empty; success iff every `;` piece parses; a mesh has separators + 1 triangles, in text order; otherwise the first bad piece's converted error |
| Parsing.MeshFirstFailure | src/geometry/mesh.rs:38-41 | the first bad piece decides the mesh error, whatever follows it |
| Parsing.TrailingSeparatorRejected | src/geometry/mesh.rs:30-41 | a trailing `;` always fails; when the rest is good, the error is `InvalidTriangle(InvalidPointNumber)` |
| Parsing.ParseNext | src/geometry/util.rs:5-10 | `MissingValue(line)` iff there is no token; `WrongNumber(line)` iff the token does not parse; otherwise the parsed value |
| Parsing.NumberTextThroughParseNext | src/geometry/util.rs:5-10 | a number's decimal text, given as the token, comes back as that number through the `i32`, `u32` and `f32` readers within their ranges, negated after a `-`; a `-` token read as `u32` is `WrongNumber(line)` |
| Parsing.PointOfTokens | src/geometry/vector/point3.rs:44-48 | three good tokens are the point they spell |
| Parsing.TriangleOfPoints | src/geometry/triangle/triangle3.rs:62-66 | three good points are the triangle they spell |
| Parsing.MeshOfTriangles | src/geometry/mesh.rs:38-43 | non-empty text whose pieces are all good triangles is the mesh of those triangles |
| ParsingExamples.ValidPoint | src/geometry/vector/point3.rs:60-63 | "1.0 0 -3.5" is (1, 0, -3.5) for any float parser that reads the test tokens |
| ParsingExamples.ValidPointDecimal | src/geometry/vector/point3.rs:60-63 | the decimal grammar reads "1.0 0 -3.5" as (1, 0, -3.5) |
| ParsingExamples.TwoAxes | src/geometry/vector/point3.rs:67-68 | "0 0" is `InvalidAxisNumber`, whatever the float parser |
| ParsingExamples.FourAxes | src/geometry/vector/point3.rs:69-70 | "0 0 0 0" is `InvalidAxisNumber`, whatever the float parser |
| ParsingExamples.DoubledSpace | src/geometry/vector/point3.rs:38-42 | "0  0 0" splits on spaces into "0", "", "0", "0": the empty piece makes four axes, so `InvalidAxisNumber` |
| ParsingExamples.BadFloatPoint | src/geometry/vector/point3.rs:71-72 | "0 0 a" is `InvalidFloat` |
| ParsingExamples.DecimalReadsTestTokens | src/geometry/vector/point3.rs:44-46 | the decimal grammar reads every test token as Rust does and rejects "a" |
| ParsingExamples.ValidTriangleParse | src/geometry/triangle/triangle3.rs:80-106 | "1.0 0 -3.5,0 1 2,3 5 2" is the three points in text order |
| ParsingExamples.ValidTriangleShape | src/geometry/triangle/triangle_shape.rs:51-57 | the array-backed triangle of the same text stores the same three points in order |
| ParsingExamples.TwoPoints | src/geometry/triangle/triangle3.rs:110-113 | two points are `InvalidPointNumber` for both triangle parsers |
| ParsingExamples.FourPoints | src/geometry/triangle/triangle3.rs:114-117 | four comma pieces are `InvalidPointNumber` for both triangle parsers, because the comma count is checked before any point is read |
| ParsingExamples.BadPointTriangle | src/geometry/triangle/triangle3.rs:118-121 | a bad float in the first point is `InvalidPoint(InvalidFloat)` for both triangle parsers |
| ParsingExamples.ValidMesh | src/geometry/mesh.rs:55-58 | the two-triangle test text is a mesh of exactly those two triangles, in order |
| ParsingExamples.ValidMeshDecimal | src/geometry/mesh.rs:55-58 | the decimal grammar reads the same mesh |
| ParsingExamples.EmptyMesh | src/geometry/mesh.rs:62-65 | "" is `InvalidMesh` |
| ParsingExamples.BadFloatMesh | src/geometry/mesh.rs:66-71 | a bad float surfaces as `InvalidPoint(InvalidPoint(InvalidFloat))` |
| ParsingExamples.CommaFreeMesh | src/geometry/mesh.rs:72-75 | "0 0" is `InvalidTriangle(InvalidPointNumber)` |
| ParsingExamples.ParseNextFloat | src/geometry/util.rs:19 | "1.0" read as f32 is 1.0 |
| ParsingExamples.ParseNextInteger | src/geometry/util.rs:20 | "1" read as i32 is 1 |
| ParsingExamples.ParseNextMissing | src/geometry/util.rs:24-29 | an absent token is `MissingValue` carrying the whole line |
| ParsingExamples.ParseNextWrongNumber | src/geometry/util.rs:32-37 | "-1.0" read as u32 is `WrongNumber` carrying the whole line |
| MeshFormat.PointRoundTrip | src/geometry/vector/point3.rs:37-49 | a point with whole-number coordinates, written as text, parses back to itself |
| MeshFormat.TriangleRoundTrip | src/geometry/triangle/triangle3.rs:55-67 | a written triangle parses back to itself |
| MeshFormat.MeshRoundTrip | src/geometry/mesh.rs:29-44 | a written non-empty mesh parses back to itself: same count, same order |
| Cube.CubeTriangles | src/actors/examples/cube_3d.rs:6-8 | the cube is twelve triangles, each spelled by the corner table |
| Cube.CubePiecesParse | src/actors/examples/cube_3d.rs:6-8 | every `;` piece of the literal is a good triangle, with no `;` inside |
| Cube.CubeParses | src/actors/examples/cube_3d.rs:5-11 | the literal parses, so the `unwrap` never panics, to the twelve triangles of the corner table |
| Cube.CubeShape | src/actors/examples/cube_3d.rs:6-8 | twelve triangles, every coordinate 0 or 1, the first being (0,0,0), (0,1,0), (1,1,0) |
| Cube.Get3dCube | src/actors/examples/cube_3d.rs:4-13 | the actor wraps exactly the mesh the literal parses to |
| Vector.Normalize | src/actors/mesh_actor.rs:30 | no result (Rust's NaN vector) iff the length is zero; otherwise the result scaled by the length is the input |
| Vector.NormalizeUnit | src/geometry/triangle/triangle3.rs:29-33 | where `sqrt` is a square root, a normalised vector has unit length |
| Vector.ApplyOffset | src/actors/mesh_actor.rs:32 | x and y are unchanged; z moves by exactly the offset |
| Vector.Update | src/geometry/vector/point3.rs:20-24 | the point's axes become the tuple's components |
| Vector.UpdateForgetsOldPosition | src/geometry/vector/point3.rs:20-24 | the result does not depend on the old position, and updating twice with the same tuple is updating once |
| Vector.Project | src/geometry/vector/point2.rs:14-18 | NDC −1 maps to 0 and +1 to the full width or height |
| Vector.ProjectAxesIndependent | src/geometry/vector/point2.rs:14-18 | screen x depends only on x and width, screen y only on y and height |
| Vector.ProjectMonotone | src/geometry/vector/point2.rs:14-18 | for a non-negative width, projection keeps the order of x values |
| Matrix.Zero | src/math/matrix4.rs:11-17 | all sixteen entries are 0 |
| Matrix.Index | src/math/matrix4.rs:19-26 | row i, unchanged, for i < 4 |
| Matrix.VectorDotMatrix | src/math/vector_matrix_multiplication.rs:9-24 | the row-vector product with row 3 as a constant term, divided by w when w ≠ 0 and passed through undivided when w = 0 |
| Matrix.MultiplyMatrix | src/geometry/point3.rs:11-24 | the same product, and no result iff w = 0 |
| Matrix.MultiplyMatrixAgrees | src/geometry/point3.rs:17-23 | the legacy product agrees with `vector_dot_matrix` exactly where w ≠ 0 |
| Matrix.ZeroMatrixToOrigin | src/math/vector_matrix_multiplication.rs:34-37 | the zero matrix sends every vector to the origin (the legacy product gives no result) |
| Matrix.IdentityIsNeutral | src/math/vector_matrix_multiplication.rs:10-20 | under the identity, w = 1 and the vector is unchanged |
| Builders.NewProjectionBuilder | src/math/builders/projection_matrix_builder.rs:15-23 | every parameter starts at 0 |
| Builders.ProjectionMatrixBuilder.SetScreenPosition | src/math/builders/projection_matrix_builder.rs:26-29 | sets the screen position and leaves every other field as it was |
| Builders.ProjectionMatrixBuilder.SetViewLimit | src/math/builders/projection_matrix_builder.rs:32-35 | sets the view limit and leaves every other field as it was |
| Builders.ProjectionMatrixBuilder.SetFov | src/math/builders/projection_matrix_builder.rs:38-41 | sets the field of view and leaves every other field as it was |
| Builders.ProjectionMatrixBuilder.SetWidth | src/math/builders/projection_matrix_builder.rs:44-47 | sets the width and leaves every other field as it was |
| Builders.ProjectionMatrixBuilder.SetHeight | src/math/builders/projection_matrix_builder.rs:50-53 | sets the height and leaves every other field as it was |
| Builders.BuildWithPi | src/math/builders/projection_matrix_builder.rs:56-74 | [0][0] is aspect × fovRad, [1][1] is fovRad, [2][2] is limit × distance (a product), [3][2] × distance is −limit × position, [2][3] is 1, and every other entry is 0 |
| Builders.BuildWithPiShape | src/math/builders/projection_matrix_builder.rs:56-74 | the built matrix is exactly the projection layout: aspect × fovRad and fovRad on the diagonal, limit × distance at [2][2], −limit × position / distance at [3][2], 1 at [2][3], zeros elsewhere |
| Builders.Build | src/math/builders/projection_matrix_builder.rs:56-74 | with the platform's π, the matrix has the projection layout with x scale aspect × fovRad, y scale fovRad = 1 / tan(fov / 2 in radians), depth scale limit × distance and depth shift −limit × position / distance |
| Builders.LegacyBuild | src/geometry/matrix4.rs:63-79 | the same layout, with π taken as 3.14159 in fovRad |
| Builders.LegacyBuildIsBuildWithLegacyPi | src/geometry/matrix4.rs:63-79 | the legacy builder is the new one with π taken as 3.14159 |
| Builders.ProjectionDivisorIsDepth | src/math/builders/projection_matrix_builder.rs:59-71 | with [3][3] left at 0, the perspective divisor is the input's z |
| Builders.NewRotationBuilder | src/math/builders/rotation_matrix_builder.rs:11-15 | theta starts at 0 |
| Builders.WithTheta | src/math/builders/rotation_matrix_builder.rs:18-21 | replaces theta |
| Builders.BuildRotation | src/math/builders/rotation_matrix_builder.rs:24-33 | an x-axis rotation by the half angle: [0][0] and [3][3] are 1, the cos/sin block uses θ/2 with [2][1] = −[1][2], and every other entry is 0 |
| Builders.FreshRotationIsIdentity | src/math/builders/rotation_matrix_builder.rs:11-33 | with cos 0 = 1 and sin 0 = 0, a fresh builder yields the identity |
| Builders.RotationPreservesRadius | src/math/builders/rotation_matrix_builder.rs:24-33 | the rotation keeps x and w = 1 and, where cos² + sin² = 1, the distance from the x axis |
| Geometry.NdcOfShape | src/math/vector_matrix_multiplication.rs:9-24 | through any matrix with the projection layout, a point at depth z = p.z + offset lands at (a x / z, f y / z, (c z + d) / z), and at (a x, f y, d) when z = 0 |
| Geometry.NdcThroughBuild | src/actors/mesh_actor.rs:38 | the two-argument projection through a built matrix is that closed form, with a = aspect × fovRad, f = fovRad, c = limit × distance, d = −limit × position / distance |
| Geometry.PointProjectionOfShape | src/geometry/vector/point3.rs:28-31 | through any matrix with the projection layout, a point at nonzero depth z lands on the screen at ((a x / z + 1) width / 2, (f y / z + 1) height / 2) |
| Geometry.PointProjectionThroughBuild | src/geometry/vector/point3.rs:28-31 | the four-argument projection through a built matrix is that screen closed form, with a = aspect × fovRad and f = fovRad |
| Geometry.OffsetIsShiftAlongZ | src/geometry/vector/point3.rs:28-31 | projecting with an offset is projecting the point shifted along z |
| Geometry.RawNormal | src/geometry/triangle/triangle3.rs:29-33 | the cross product of the two edges from vertex 0 is orthogonal to both edges |
| Geometry.Normal | src/geometry/triangle/triangle3.rs:29-33 | no result (NaN) iff the raw normal has length zero; otherwise the result times that length is the raw normal |
| Geometry.WindingFlipsNormal | src/geometry/triangle/triangle3.rs:29-33 | swapping the last two vertices negates the raw normal |
| Geometry.PlainComponent | src/geometry/triangle/triangle3.rs:36-38 | a point of the triangle's plane, namely vertex 0 |
| Geometry.Rotate | src/geometry/triangle/triangle3.rs:19-26 | each vertex is replaced independently by its product with the same matrix |
| Geometry.RotateByIdentity | src/geometry/triangle/triangle3.rs:19-26 | rotating by the identity leaves the triangle unchanged |
| Geometry.TriangleProjectionThroughBuild | src/geometry/triangle/triangle3.rs:179 | through a built matrix, with no vertex at depth zero, each vertex lands at its own screen closed form, in order |
| Geometry.TriangleNdcThroughBuild | src/geometry/triangle/triangle3.rs:42-50 | through a built matrix, each vertex lands at its own NDC closed form, in order |
| Geometry.NewTriangleShape | src/geometry/triangle/triangle_shape.rs:18-26 | the tuples become points 0, 1, 2 in argument order |
| Geometry.NormalRef | src/geometry/triangle/mod.rs:30-34 | the normal of shared vertices is the by-value normal of the vertices they name |
| Geometry.PlainComponentRef | src/geometry/triangle/mod.rs:37-39 | the plane anchor is vertex 0 itself, i.e. its arena index |
| Geometry.SharedVertexSeenByAll | src/geometry/triangle/mod.rs:11 | after a shared vertex is overwritten, every triangle naming it sees the new value and keeps its other vertices |
| GeometryExamples.TestBuilder | src/math/vector_matrix_multiplication.rs:40-55 | the test's builder: near 1, far 2, fov 90, 1×1 |
| GeometryExamples.TestMatrixAtDepthOne | src/math/vector_matrix_multiplication.rs:40-55 | with tan(π/4) = 1, the test matrix maps any vector at depth 1 to (x, y, 0) |
| GeometryExamples.VectorMatrixFixture | src/math/vector_matrix_multiplication.rs:40-55 | (1, 1, 1) maps to (1, 1, 0) |
| GeometryExamples.PointProjectionFixture | src/geometry/vector/point3.rs:76-91 | (1, 1, 0) with offset 1 on a 240×480 screen lands within 0.001 of (240, 480) through the legacy builder, for any tangent within 2·10⁻⁶ of 1 at the legacy half field of view |
| GeometryExamples.TriangleProjectionFixture | src/geometry/triangle/triangle3.rs:153-193 | the test triangle projects to (240, 480), (0, 0), (120, 360) |
| GeometryExamples.NormalFixture | src/geometry/triangle/triangle3.rs:125-149 | the raw normal of (0,0,0), (3,2,1), (1,2,3) is (4, −8, 4); normalised it lies within 0.01 of (0.41, −0.82, 0.41) |
| MeshActors.CastU8 | src/actors/mesh_actor.rs:35 | `f32 as u8`: truncates toward zero and saturates at 0 and 255 |
| MeshActors.CastU8Monotone | src/actors/mesh_actor.rs:35 | a larger value never casts to a smaller byte |
| MeshActors.Brightness | src/actors/mesh_actor.rs:30-35 | 0 when the light has no direction or faces away; 255 when the dot product is at least 1; between, the byte is the dot product × 255 truncated |
| MeshActors.BrightnessMonotone | src/actors/mesh_actor.rs:35 | a surface turned further toward the light is never darker |
| MeshActors.TriangleFill | src/actors/mesh_actor.rs:36-44 | the vertices are the projection with the camera's matrix and offset; the colour is white with the brightness as alpha |
| MeshActors.Draw | src/actors/mesh_actor.rs:25-47 | at most one fill per triangle; nothing is drawn iff no triangle faces the camera; every fill is the fill of a triangle that faces it |
| MeshActors.DrawTriangles | src/actors/mesh_actor.rs:31-47 | at most one fill per triangle; every triangle is filled iff all face the camera; none is filled iff none faces it |
| MeshActors.DrawTrianglesSound | src/actors/mesh_actor.rs:31-46 | every fill comes from a triangle that faces the camera |
| MeshActors.DrawTrianglesConcat | src/actors/mesh_actor.rs:31 | triangles are drawn in mesh order: drawing a concatenation is drawing the parts in turn |
| MeshActors.DrawOne | src/actors/mesh_actor.rs:32-46 | one triangle gives exactly its fill iff it faces the camera, and nothing otherwise |
| MeshActors.MirrorImageCulled | src/actors/mesh_actor.rs:32-34 | of a triangle and its mirror image, at most one is drawn |
| MeshActors.Update | src/actors/mesh_actor.rs:52-69 | the mesh is unchanged whatever the delta |
| Scene.New | src/environment/mod.rs:18-32 | success iff the file was read; the actors are exactly the cube; otherwise `BadFile(file)` |
| Scene.NewIgnoresContent | src/environment/mod.rs:22-31 | the file's contents make no difference |
| Scene.Draw | src/environment/mod.rs:38-42 | nothing is drawn iff no actor draws anything |
| Scene.DrawConcat | src/environment/mod.rs:38-42 | actors draw in list order with the same camera |
| Scene.DrawSingle | src/environment/mod.rs:38-42 | one actor's environment draws exactly what the actor draws |
| Scene.Update | src/environment/mod.rs:45-49 | every actor is updated once, with the same delta, in list order |
| Scene.UpdateLeavesActors | src/environment/mod.rs:45-49 | the environment's update changes nothing, since the actor's does nothing |
| Frames.FillFrame | src/actors/environment.rs:28-33 | each whole 4-byte pixel k becomes the colour chosen for k; trailing bytes are untouched |
| Frames.PaintedPixel | src/actors/environment.rs:28 | pixel i of a painted frame is bytes 4i .. 4i+4 |
| Boxes.AsI16 | src/actors/environment.rs:31 | `usize as i16` keeps the value modulo 2^16, and exactly when it is below 2^15 |
| Boxes.Update | src/actors/example.rs:22-32 | a velocity is negated iff its axis is at or past an edge (and it is nonzero); magnitudes never change; then the box moves by the new velocity |
| Boxes.UpdateKeepsBounded | src/actors/example.rs:22-32 | in the reachable states, update never overflows i16 and leads to a reachable state |
| Boxes.OutsideReturns | src/actors/example.rs:23-31 | a box outside the screen's span is back inside it after one update |
| Boxes.BoundedNearScreen | src/actors/example.rs:22-31 | a reachable box is never further than one maximal step from the screen |
| Boxes.DrawPixel | src/actors/example.rs:34-44 | the box colour iff (x, y) lies in the 64×64 square; otherwise the pixel as it was |
| Boxes.BoundedCanDraw | src/actors/example.rs:38-41 | for a reachable box, the containment test never overflows |
| Boxes.ExampleBoxesBounded | src/actors/environment.rs:12-13 | both starting boxes are reachable states |
| Boxes.UpdateAll | src/actors/environment.rs:21-25 | every box is updated once, in order |
| Boxes.UpdateAllKeepsBounded | src/actors/environment.rs:21-25 | a list of reachable boxes stays reachable after an update |
| BoxEnvironment.New | src/actors/environment.rs:11-19 | the width is stored and the boxes are (24,16,1,1) then (96,32,2,2) |
| BoxEnvironment.Update | src/actors/environment.rs:21-25 | the width is kept and each box is updated once, in order |
| BoxEnvironment.PaintIff | src/actors/environment.rs:30-32 | a pixel gets the box colour iff some box contains it, and is left as it was otherwise |
| BoxEnvironment.NewDrawable | src/actors/environment.rs:27-34 | the fresh environment draws on any frame without overflow |
| BoxEnvironment.Draw | src/actors/environment.rs:27-34 | pixel i, at (i % width, i / width), is the box colour iff some box contains it, else transparent black; trailing bytes are untouched |
| CanvasEnvironment.New | src/environment/environment.rs:11-18 | the boxes are (24,16,1,1) then (96,32,2,2) |
| CanvasEnvironment.Update | src/environment/environment.rs:20-24 | each box is updated once, in order |
| CanvasEnvironment.Draw | src/environment/environment.rs:26-30 | no actors leave the canvas as it was; otherwise the last actor draws on the canvas the others produced |
| CanvasEnvironment.DrawSnoc | src/environment/environment.rs:26-30 | a box at the end of the list draws last, on the canvas the others produced |
| CanvasEnvironment.DrawConcat | src/environment/environment.rs:26-30 | drawing a concatenation draws the first list, then the second on the result |
| CanvasEnvironment.DrawNew | src/environment/environment.rs:11-30 | the fresh environment draws the first box, then the second |
| World.New | src/engine/rust_3d_engine.rs:89-96 | the box at (24, 16) with velocity (1, 1), a reachable state |
| World.Update | src/engine/rust_3d_engine.rs:98-108 | the same bounce rule as the bouncing box, and it keeps the state reachable |
| World.UpdateKeepsBoundedIfBounded | src/engine/rust_3d_engine.rs:98-108 | a reachable world stays reachable |
| World.Draw | src/engine/rust_3d_engine.rs:110-128 | every whole pixel is the box colour inside the square and the background outside; trailing bytes are untouched |
| World.CoordinatesExact | src/engine/rust_3d_engine.rs:112-113 | up to 960 × 2^15 pixels, pixel i is at (i % 960, i / 960), with no wrap in the cast |
| Canvas.BlankGrid | src/engine/engine_canvas.rs:79 | a width × height grid of blank cells |
| Canvas.CanvasBuilder | src/engine/engine_canvas.rs:45-51 | the canvas's builder: position 0.1, limit 1000, fov 90, the window's size |
| Canvas.New | src/engine/engine_canvas.rs:31-61 | success iff an adapter exists, else `AdapterNotFound`; the grid is blank and window-sized; the offset is 3.0; the matrix is the legacy build |
| Canvas.Clear | src/engine/engine_canvas.rs:78-80 | every cell is blank and no other field changes |
| Canvas.PushPixel | src/engine/engine_canvas.rs:82-86 | cell (x, y) turns white iff it is on the grid; nothing else changes |
| Canvas.AsUsize | src/engine/engine_canvas.rs:96 | `isize as usize` keeps the value modulo 2^64; a negative value becomes at least 2^63 |
| Canvas.DrawLine | src/engine/engine_canvas.rs:94-98 | only the grid changes, and the canvas stays well formed |
| Canvas.DrawLineIff | src/engine/engine_canvas.rs:94-98 | a cell is white afterwards iff it was before or some point casts onto it |
| Canvas.DrawLineOnGrid | src/engine/engine_canvas.rs:94-98 | on a grid of at most 2^63 cells per side, a cell turns white iff it is one of the points; negative points are dropped |
| Canvas.CellOnGrid | src/engine/engine_canvas.rs:109 | pixel i of a frame no larger than the grid indexes an existing cell |
| Canvas.Render | src/engine/engine_canvas.rs:105-123 | pixel i is white iff cell (i % width, i / width) is white, else transparent black; trailing bytes are untouched; the grid is then cleared; the result is Ok iff presentation succeeded, else `Rendering` |
| Canvas.Resize | src/engine/engine_canvas.rs:130-135 | the new shape with every cell blank; the matrix and offset are kept |
| Config.EngineConfig.SetTitle | src/engine/engine_config.rs:21-24 | sets the title and leaves every other field as it was |
| Config.EngineConfig.SetWidth | src/engine/engine_config.rs:26-29 | sets the width and leaves every other field as it was |
| Config.EngineConfig.SetHeight | src/engine/engine_config.rs:31-34 | sets the height and leaves every other field as it was |
| Config.EngineConfig.SetFov | src/engine/engine_config.rs:36-39 | sets the fov and leaves every other field as it was |
| Config.EngineConfig.SetScreenPosition | src/engine/engine_config.rs:41-44 | sets the screen position and leaves every other field as it was |
| Config.EngineConfig.SetViewLimit | src/engine/engine_config.rs:46-49 | sets the view limit and leaves every other field as it was |
| Config.EngineConfig.SetZOffset | src/engine/engine_config.rs:51-54 | sets the z offset and leaves every other field as it was |
| Config.Default | src/engine/engine_config.rs:57-68 | "Rust 3D Engine", 960×640, fov 90, position 0.1, limit 1000, offset 3.0 |
| Config.LastSetWins | src/engine/engine_config.rs:21-54 | of two calls to the same setter, the last one wins |
| Config.SettersCommute | src/engine/engine_config.rs:21-54 | setters of different fields commute |
| Config.SetSameIsIdentity | src/engine/engine_config.rs:21-54 | setting a field to its current value changes nothing |

## Left out

- The window, the event loop and the GPU: `src/engine/rust_engine.rs`,
  `src/engine/engine_loop.rs`, `src/engine/engine_renderer.rs`, `src/main.rs` and the
  `Rust3DEngine` struct. This is winit and pixels/wgpu plumbing with wall-clock deltas. A
  delta is a plain parameter where an update takes one.
- `src/engine/engine_camera.rs`: getters around an external projection builder.
  `MeshActors.Camera` is an abstract record of position, offset, light and matrix.
- `Canvas.DrawLine`: Bresenham's iterator is foreign code, so the line is any sequence of
  points. Nothing is claimed about which cells a real segment covers or whether its end
  points are included.
- `MeshActors.DrawTriangles`: `fill_triangle` is foreign code, so drawing is a trace of
  `Fill` records rather than rasterised pixels.
- `Numbers.ParseF32`: no rounding to `f32`, no `inf`/`NaN`/`infinity` spellings and no
  digit-count limits. A decimal text is parsed to its exact value.
- `Vector.Normalize`: the NaN vector Rust computes for a zero-length vector is `None`. The
  back-face comparison with NaN is false, so such a triangle is never drawn, and NaN cast
  to `u8` is 0.
- Floating point in general: all arithmetic is exact `real` arithmetic, and the tests'
  0.001 tolerances become exact equalities, except in `GeometryExamples.PointProjectionFixture`,
  whose legacy π keeps the tangent away from 1. Overflow to infinity is not modelled.
- `Vector.Cross`, `Vector.Dot`, `Vector.Module`, `Vector.Sub` and `Vector.Normalize`: the
  `Point3` implementations of these operations are not part of this model, since
  `src/geometry/vector/ops.rs` and `src/geometry/vector/vector.rs` declare only the traits.
  The model uses the textbook formulas.
- `Builders.BuildWithPi`: requires a nonzero height, distance and tangent, where Rust would
  store infinities or NaN. `Canvas.New` inherits this requirement when an adapter is found.
- `GeometryExamples.NormalFixture`: takes `9.79 < sqrt(96) < 9.80` as a hypothesis about
  the platform's `sqrt`, since `sqrt` is a parameter.
- `GeometryExamples.VectorMatrixFixture`: the test in `src/math/vector_matrix_multiplication.rs`
  builds its matrix with an external crate. The model uses the engine's own builder with
  the same parameters and assumes `tan(π/4) = 1`.
- `Boxes.Update`: `i16` overflow panics in a debug build, so the model requires the absence
  of overflow rather than modelling a release build's wrap-around. `Boxes.UpdateKeepsBounded`
  proves that the reachable states never overflow.
- `BoxEnvironment.Draw`: requires that no containment test overflows `i16`. This always
  holds for reachable boxes (`Boxes.BoundedCanDraw`). `World.Draw` has the same
  requirement. It also requires `width > 0` whenever the frame has a pixel, because
  `src/actors/environment.rs:31` computes `i % width`, which panics for a zero width.
- `Canvas.Render`: requires the frame to have no more pixels than the grid has cells,
  because Rust would panic indexing past the grid.
- The rotation in `MeshActor::update` and the arena's vertex rotation are commented out in
  the source, so update is modelled as doing nothing.
- `translate` is not defined anywhere in the crate. Like `update`, it is modelled as
  replacing the position.
- The cube literal is held as its twelve `;` pieces joined by `Join`. This is the text left
  once the `\`-continuations drop the newlines and the tabs that follow them.
- `Environment::new` reads a file: the outcome of the read is a parameter.
- Actors are held as concrete `BouncingBox` and `MeshActor` values rather than trait
  objects, since each environment only ever holds the one kind.
- `src/engine/engine_error.rs` and `src/environment/error.rs` hold only messages. Their
  variants are modelled, their text is not.
- `src/actors/examples/triangle_2d.rs` (a demo), `src/geometry/triangle.rs` (superseded by
  `triangle_shape.rs`) and the trait-only and re-export modules carry no logic of their
  own.
- Logging (`info!`, `error!`, and the two `println!` calls at `src/geometry/matrix4.rs:67`
  and `:69`) has no effect on results and is not modelled.
- `RotationAxis` and the `in_axis`/`with_speed` builder calls appear only in commented-out
  code and are not defined anywhere in the crate, so only the x-axis rotation is modelled.

=== FILE: actors.dfy ===
/** `MeshActor`: a mesh that draws itself as a trace of `fill_triangle` calls, culling the
    triangles that face away from the camera and shading the rest by the light direction. */
module MeshActors {
  import opened Wrappers
  import opened Vector
  import opened Matrix
  import opened Geometry
  import opened Frames

  /** The camera as the actor reads it: position, z offset, light direction and the
      projection matrix. */
  datatype Camera = Camera(position: Point3, offset: real, light: Point3, matrix: Matrix4)

  /** One `fill_triangle` call on the viewport: three projected vertices and an RGBA colour. */
  datatype Fill = Fill(a: Point3, b: Point3, c: Point3, color: seq<Byte>)

  datatype MeshActor = MeshActor(mesh: Mesh)

  /** Rust's `f32 as u8`: the value rounded toward zero and saturated to [0, 255]. */
  function CastU8(x: real): (b: Byte)
    ensures 0.0 <= x < 256.0 ==> b as real <= x < b as real + 1.0
    ensures x < 1.0 ==> b == 0
    ensures x >= 255.0 ==> b == 255
  {
    if x <= 0.0 then 0 else if x >= 255.0 then 255 else x.Floor
  }

  /** A larger value never casts to a smaller byte. */
  lemma CastU8Monotone(x: real, y: real)
    requires x <= y
    ensures CastU8(x) <= CastU8(y)
  {
  }

  /** The back-face test: a triangle is drawn iff its normal points against the ray from the
      camera to its plane anchor pushed along z by the offset. A degenerate triangle's NaN
      normal compares false, so it is never drawn. */
  predicate Faces(t: Triangle3, cam: Camera, lib: MathLib)
  {
    match Normal(t, lib)
    case None => false
    case Some(n) => Dot(n, Sub(ApplyOffset(PlainComponent(t), cam.offset), cam.position)) < 0.0
  }

  /** The alpha byte: the normalised light against the normal, times 255, cast to `u8`. A light
      of length zero normalises to NaN, which casts to 0. */
  function Brightness(light: Option<Point3>, n: Point3): (b: Byte)
    ensures light.None? ==> b == 0
    ensures light.Some? && Dot(light.value, n) <= 0.0 ==> b == 0
    ensures light.Some? && Dot(light.value, n) >= 1.0 ==> b == 255
    ensures light.Some? && 0.0 <= Dot(light.value, n) < 1.0 ==> b as real <= Dot(light.value, n) * 255.0 < b as real + 1.0
  {
    match light
    case None => 0
    case Some(l) => CastU8(Dot(l, n) * 255.0)
  }

  /** A normal closer to the light is never shaded darker. */
  lemma BrightnessMonotone(l: Point3, n: Point3, n': Point3)
    requires Dot(l, n) <= Dot(l, n')
    ensures Brightness(Some(l), n) <= Brightness(Some(l), n')
  {
    assert Dot(l, n) * 255.0 <= Dot(l, n') * 255.0;
    CastU8Monotone(Dot(l, n) * 255.0, Dot(l, n') * 255.0);
  }

  /** The call a facing triangle produces: its vertices through the camera's matrix and
      offset, painted white with the brightness as alpha. */
  function TriangleFill(t: Triangle3, cam: Camera, lib: MathLib): (f: Fill)
    requires Faces(t, cam, lib)
    ensures Triangle3(f.a, f.b, f.c) == TriangleNdc(t, cam.matrix, cam.offset)
    ensures |f.color| == 4 && f.color[..3] == [255, 255, 255]
    ensures f.color[3] == Brightness(Normalize(cam.light, lib), Normal(t, lib).value)
  {
    var p := TriangleNdc(t, cam.matrix, cam.offset);
    Fill(p.v0, p.v1, p.v2, [255, 255, 255, Brightness(Normalize(cam.light, lib), Normal(t, lib).value)])
  }

  /** `draw` over a run of triangles: one fill per facing triangle, in mesh order. */
  function DrawTriangles(ts: seq<Triangle3>, cam: Camera, lib: MathLib): (r: seq<Fill>)
    ensures |r| <= |ts|
    ensures |r| == |ts| <==> forall i :: 0 <= i < |ts| ==> Faces(ts[i], cam, lib)
    ensures r == [] <==> forall i :: 0 <= i < |ts| ==> !Faces(ts[i], cam, lib)
    decreases |ts|
  {
    if |ts| == 0 then []
    else
      var rest := DrawTriangles(ts[1..], cam, lib);
      assert forall i :: 1 <= i < |ts| ==> ts[i] == ts[1..][i - 1];
      if Faces(ts[0], cam, lib) then [TriangleFill(ts[0], cam, lib)] + rest else rest
  }

  /** The fill is the one some triangle of the run produces by facing the camera. */
  predicate FillOfFacing(f: Fill, ts: seq<Triangle3>, cam: Camera, lib: MathLib)
  {
    exists i :: 0 <= i < |ts| && Faces(ts[i], cam, lib) && f == TriangleFill(ts[i], cam, lib)
  }

  /** Every fill in the trace is the fill of some triangle of the run that faces the camera. */
  lemma {:induction false} DrawTrianglesSound(ts: seq<Triangle3>, cam: Camera, lib: MathLib)
    ensures forall f :: f in DrawTriangles(ts, cam, lib) ==> FillOfFacing(f, ts, cam, lib)
    decreases |ts|
  {
    if |ts| > 0 {
      var rest := DrawTriangles(ts[1..], cam, lib);
      var head := if Faces(ts[0], cam, lib) then [TriangleFill(ts[0], cam, lib)] else [];
      assert DrawTriangles(ts, cam, lib) == head + rest;
      DrawTrianglesSound(ts[1..], cam, lib);
      forall f | f in head + rest
        ensures FillOfFacing(f, ts, cam, lib)
      {
        if f in head {
          assert Faces(ts[0], cam, lib) && f == TriangleFill(ts[0], cam, lib);
        } else {
          assert FillOfFacing(f, ts[1..], cam, lib);
          var i :| 0 <= i < |ts[1..]| && Faces(ts[1..][i], cam, lib) && f == TriangleFill(ts[1..][i], cam, lib);
          assert ts[1..][i] == ts[i + 1];
        }
      }
    }
  }

  /** `MeshActor::draw`: the fills of the mesh's triangles; the mesh itself is not touched. */
  function Draw(actor: MeshActor, cam: Camera, lib: MathLib): (r: seq<Fill>)
    ensures |r| <= |actor.mesh.triangles|
    ensures r == [] <==> forall i :: 0 <= i < |actor.mesh.triangles| ==> !Faces(actor.mesh.triangles[i], cam, lib)
    ensures forall f :: f in r ==> FillOfFacing(f, actor.mesh.triangles, cam, lib)
  {
    DrawTrianglesSound(actor.mesh.triangles, cam, lib);
    DrawTriangles(actor.mesh.triangles, cam, lib)
  }

  /** `MeshActor::update`: the rotation it once applied is commented out, so the actor is
      returned as it was, whatever the delta. */
  function Update(actor: MeshActor, delta: nat): (r: MeshActor)
    ensures r.mesh == actor.mesh
  {
    actor
  }

  /** Drawing two runs of triangles one after the other gives the two traces in that order. */
  lemma {:induction false} DrawTrianglesConcat(a: seq<Triangle3>, b: seq<Triangle3>, cam: Camera, lib: MathLib)
    ensures DrawTriangles(a + b, cam, lib) == DrawTriangles(a, cam, lib) + DrawTriangles(b, cam, lib)
    decreases |a|
  {
    if |a| > 0 {
      DrawConsOfConcat(a, b, cam, lib);
      DrawCons(a, cam, lib);
      DrawTrianglesConcat(a[1..], b, cam, lib);
      RegroupTrace(DrawTriangles(a + b, cam, lib), Head(a[0], cam, lib), DrawTriangles(a[1..] + b, cam, lib),
        DrawTriangles(a[1..], cam, lib), DrawTriangles(b, cam, lib), DrawTriangles(a, cam, lib));
    } else {
      assert a + b == b;
    }
  }

  /** What the first triangle of a run contributes to the trace. */
  function Head(t: Triangle3, cam: Camera, lib: MathLib): seq<Fill>
  {
    if Faces(t, cam, lib) then [TriangleFill(t, cam, lib)] else []
  }

  /** A non-empty run draws its first triangle, then the rest. */
  lemma DrawCons(ts: seq<Triangle3>, cam: Camera, lib: MathLib)
    requires |ts| > 0
    ensures DrawTriangles(ts, cam, lib) == Head(ts[0], cam, lib) + DrawTriangles(ts[1..], cam, lib)
  {
  }

  /** The first triangle of `a + b` is that of `a`, and the rest of `a + b` is the rest of `a`, then `b`. */
  lemma DrawConsOfConcat(a: seq<Triangle3>, b: seq<Triangle3>, cam: Camera, lib: MathLib)
    requires |a| > 0
    ensures DrawTriangles(a + b, cam, lib) == Head(a[0], cam, lib) + DrawTriangles(a[1..] + b, cam, lib)
  {
    assert (a + b)[0] == a[0];
    assert (a + b)[1..] == a[1..] + b;
    DrawCons(a + b, cam, lib);
  }

  /** Regrouping a head in front of two traces. */
  lemma RegroupTrace(whole: seq<Fill>, h: seq<Fill>, tail: seq<Fill>, x: seq<Fill>, y: seq<Fill>, first: seq<Fill>)
    requires whole == h + tail && tail == x + y && first == h + x
    ensures whole == first + y
  {
  }

  /** A single triangle is drawn as exactly one fill when it faces the camera, and not at all
      otherwise. */
  lemma DrawOne(t: Triangle3, cam: Camera, lib: MathLib)
    ensures Faces(t, cam, lib) ==> DrawTriangles([t], cam, lib) == [TriangleFill(t, cam, lib)]
    ensures !Faces(t, cam, lib) ==> DrawTriangles([t], cam, lib) == []
  {
    assert [t][1..] == [];
  }

  /** Of a triangle and its mirror image (the last two vertices swapped), at most one is drawn:
      reversing the winding reverses the normal, which flips the sign of the back-face test. */
  lemma MirrorImageCulled(t: Triangle3, cam: Camera, lib: MathLib)
    requires Faces(t, cam, lib)
    ensures !Faces(Triangle3(t.v0, t.v2, t.v1), cam, lib)
  {
    var u := Triangle3(t.v0, t.v2, t.v1);
    var v := RawNormal(t);
    WindingFlipsNormal(t);
    assert Dot(RawNormal(u), RawNormal(u)) == Dot(v, v);
    assert Module(RawNormal(u), lib) == Module(v, lib);
    var n := Normal(t, lib).value;
    var m := Module(v, lib);
    assert Normal(u, lib) == Some(Scale(n, -1.0)) by {
      assert Normal(u, lib).Some?;
      var n' := Normal(u, lib).value;
      assert Scale(n', m) == Scale(v, -1.0);
      NegatedScale(n, n', v, m);
    }
    var d := Sub(ApplyOffset(PlainComponent(t), cam.offset), cam.position);
    assert Dot(Scale(n, -1.0), d) == -Dot(n, d);
  }

  /** Two vectors scaled by the same nonzero length to opposite results are opposite. */
  lemma NegatedScale(n: Point3, n': Point3, v: Point3, m: real)
    requires m != 0.0
    requires Scale(n, m) == v && Scale(n', m) == Scale(v, -1.0)
    ensures n' == Scale(n, -1.0)
  {
    assert n'.x * m == -(n.x * m) && n'.y * m == -(n.y * m) && n'.z * m == -(n.z * m);
    CancelFactor(n'.x, -n.x, m);
    CancelFactor(n'.y, -n.y, m);
    CancelFactor(n'.z, -n.z, m);
  }

  lemma CancelFactor(a: real, b: real, m: real)
    requires m != 0.0 && a * m == b * m
    ensures a == b
  {
    assert (a - b) * m == 0.0;
  }
}

=== FILE: box_environment.dfy ===
/** The pixel-compositing `Environment` of the actors module: a screen width and a list of
    bouncing boxes, each drawn into every pixel of the frame in list order. */
module BoxEnvironment {
  import opened Frames
  import opened Boxes

  datatype Environment = Environment(width: nat, actors: seq<BouncingBox>)

  /** `Environment::new`: the given width and the two example boxes, in play. */
  function New(width: nat): (e: Environment)
    ensures e.width == width
    ensures |e.actors| == 2 && e.actors[0] == BouncingBox(24, 16, 1, 1) && e.actors[1] == BouncingBox(96, 32, 2, 2)
    ensures AllBounded(e.actors)
  {
    ExampleBoxesBounded();
    Environment(width, ExampleBoxes)
  }

  /** `update`: every actor updated once, in order; the width is kept. */
  function Update(e: Environment): (r: Environment)
    requires AllNoOverflow(e.actors)
    ensures r.width == e.width && |r.actors| == |e.actors|
    ensures forall i :: 0 <= i < |e.actors| ==> r.actors[i] == Boxes.Update(e.actors[i])
  {
    Environment(e.width, UpdateAll(e.actors))
  }

  /** The coordinates `draw` gives pixel `i`: column and row on a screen `width` wide, each
      cast to `i16`. */
  function Coordinates(i: nat, width: nat): (I16, I16)
    requires width > 0
  {
    (AsI16(i % width), AsI16(i / width))
  }

  predicate AllCanDraw(actors: seq<BouncingBox>, x: int, y: int)
  {
    forall a :: 0 <= a < |actors| ==> CanDraw(actors[a], x, y)
  }

  /** The actors drawn one after the other into one pixel. */
  function Paint(actors: seq<BouncingBox>, pixel: Rgba, x: I16, y: I16): Rgba
    requires AllCanDraw(actors, x, y)
    decreases |actors|
  {
    if |actors| == 0 then pixel
    else Paint(actors[1..], DrawPixel(actors[0], pixel, x, y), x, y)
  }

  /** A pixel ends up in the box colour exactly when some actor's square holds it, and is
      left as it was otherwise. */
  lemma {:induction false} PaintIff(actors: seq<BouncingBox>, pixel: Rgba, x: I16, y: I16)
    requires AllCanDraw(actors, x, y)
    ensures (exists a :: 0 <= a < |actors| && Inside(actors[a], x, y)) ==> Paint(actors, pixel, x, y) == BoxColor
    ensures (forall a :: 0 <= a < |actors| ==> !Inside(actors[a], x, y)) ==> Paint(actors, pixel, x, y) == pixel
    decreases |actors|
  {
    if |actors| > 0 {
      var rest := actors[1..];
      assert forall a :: 1 <= a < |actors| ==> actors[a] == rest[a - 1];
      var p := DrawPixel(actors[0], pixel, x, y);
      PaintIff(rest, p, x, y);
      if Inside(actors[0], x, y) {
        PaintIff(rest, BoxColor, x, y);
      } else if exists a :: 0 <= a < |actors| && Inside(actors[a], x, y) {
        var a :| 0 <= a < |actors| && Inside(actors[a], x, y);
        assert Inside(rest[a - 1], x, y);
      }
    }
  }

  /** Every pixel of the frame can be drawn: the width divides, and every actor's test stays
      inside `i16` at that pixel's coordinates. */
  predicate Drawable(e: Environment, frame: seq<Byte>)
  {
    Pixels(frame) > 0 ==>
      && e.width > 0
      && forall i :: 0 <= i < Pixels(frame) ==>
           AllCanDraw(e.actors, Coordinates(i, e.width).0, Coordinates(i, e.width).1)
  }

  /** The boxes `new` creates can draw every frame of a screen with a width. */
  lemma NewDrawable(width: nat, frame: seq<Byte>)
    requires width > 0
    ensures Drawable(New(width), frame)
  {
    var e := New(width);
    forall i, a | 0 <= i < Pixels(frame) && 0 <= a < |e.actors|
      ensures CanDraw(e.actors[a], Coordinates(i, width).0, Coordinates(i, width).1)
    {
      BoundedCanDraw(e.actors[a], Coordinates(i, width).0, Coordinates(i, width).1);
    }
  }

  /** The colour `draw` leaves in pixel `i`. */
  function PixelColor(e: Environment, i: nat): Rgba
    requires e.width > 0 && AllCanDraw(e.actors, Coordinates(i, e.width).0, Coordinates(i, e.width).1)
  {
    var (x, y) := Coordinates(i, e.width);
    Paint(e.actors, Transparent, x, y)
  }

  /** `draw`: every whole pixel is reset to transparent black and then drawn by each actor in
      order; so it is the box colour when some box holds its coordinates and transparent
      otherwise. Trailing bytes that do not fill a pixel are not touched. */
  method Draw(e: Environment, frame: seq<Byte>) returns (out: seq<Byte>)
    requires Drawable(e, frame)
    ensures |out| == |frame|
    ensures forall i :: 0 <= i < Pixels(frame) ==>
      var (x, y) := Coordinates(i, e.width);
      out[4 * i..4 * i + 4] == if exists a :: 0 <= a < |e.actors| && Inside(e.actors[a], x, y) then BoxColor else Transparent
    ensures out[4 * Pixels(frame)..] == frame[4 * Pixels(frame)..]
  {
    if Pixels(frame) == 0 {
      out := frame;
      return;
    }
    var pixel := (i: nat) requires e.width > 0 && AllCanDraw(e.actors, Coordinates(i, e.width).0, Coordinates(i, e.width).1) => PixelColor(e, i);
    out := FillFrame(frame, pixel);
    forall i | 0 <= i < Pixels(frame)
      ensures var (x, y) := Coordinates(i, e.width);
        out[4 * i..4 * i + 4] == if exists a :: 0 <= a < |e.actors| && Inside(e.actors[a], x, y) then BoxColor else Transparent
    {
      PaintedPixel(frame, out, pixel, i);
      var (x, y) := Coordinates(i, e.width);
      PaintIff(e.actors, Transparent, x, y);
    }
  }
}

=== FILE: boxes.dfy ===
/** `BouncingBox`: a 64-pixel square moving across a 960×640 screen in `i16` arithmetic,
    reversing a velocity component whenever the box touches or crosses that axis's edge. */
module Boxes {
  import opened Frames

  const MinI16: int := -0x8000
  const MaxI16: int := 0x7fff

  type I16 = x: int | -0x8000 <= x < 0x8000

  /** Rust's `as i16` on an unsigned value: the low 16 bits read in two's complement. */
  function AsI16(n: nat): (r: I16)
    ensures (n - r) % 0x1_0000 == 0
    ensures n < 0x8000 ==> r == n
  {
    var m := n % 0x1_0000;
    if m < 0x8000 then m else m - 0x1_0000
  }

  const BoxSize: int := 64
  const ScreenWidth: int := 960
  const ScreenHeight: int := 640

  const BoxColor: Rgba := [0x5e, 0x48, 0xe8, 0xff]

  /** The box's top-left corner and its velocity, in pixels per update. */
  datatype BouncingBox = BouncingBox(x: I16, y: I16, vx: I16, vy: I16)

  /** The edge test on one axis: the box is at or before 0, or its far side is past the
      screen's extent. */
  predicate Bounces(pos: int, extent: int)
  {
    pos <= 0 || pos + BoxSize > extent
  }

  /** One axis of `update` stays inside `i16`: the edge sum (evaluated only when the position
      is positive), the negation when the box bounces, and the move. Rust panics on each of
      these overflows in a debug build. */
  predicate AxisNoOverflow(pos: int, v: int, extent: int)
  {
    && (pos > 0 ==> pos + BoxSize <= MaxI16)
    && (Bounces(pos, extent) ==> v != MinI16)
    && MinI16 <= pos + (if Bounces(pos, extent) then -v else v) <= MaxI16
  }

  predicate NoOverflow(b: BouncingBox)
  {
    AxisNoOverflow(b.x, b.vx, ScreenWidth) && AxisNoOverflow(b.y, b.vy, ScreenHeight)
  }

  /** `update`: each velocity component is negated when the box is at that axis's edge, then
      the box moves by the velocity. */
  function Update(b: BouncingBox): (r: BouncingBox)
    requires NoOverflow(b)
    ensures r.vx == b.vx || r.vx == -(b.vx as int)
    ensures r.vy == b.vy || r.vy == -(b.vy as int)
    ensures r.vx != b.vx <==> Bounces(b.x, ScreenWidth) && b.vx != 0
    ensures r.vy != b.vy <==> Bounces(b.y, ScreenHeight) && b.vy != 0
    ensures r.x == b.x + r.vx && r.y == b.y + r.vy
  {
    var vx := if Bounces(b.x, ScreenWidth) then -b.vx else b.vx;
    var vy := if Bounces(b.y, ScreenHeight) then -b.vy else b.vy;
    BouncingBox(b.x + vx, b.y + vy, vx, vy)
  }

  // A box in play stays in play.

  /** The fastest speed the invariant allows; it keeps every sum inside `i16`. */
  const MaxSpeed: int := 0x4000

  /** One axis is in play: with the box's position free in (0, room], or else just outside
      it by the one step it last took, moving away, from a position inside. */
  predicate InPlay(pos: int, v: int, room: int)
  {
    && -MaxSpeed <= v <= MaxSpeed
    && (pos <= 0 ==> v < 0 && 0 < pos - v <= room)
    && (pos > room ==> v > 0 && 0 < pos - v <= room)
  }

  predicate Bounded(b: BouncingBox)
  {
    InPlay(b.x, b.vx, ScreenWidth - BoxSize) && InPlay(b.y, b.vy, ScreenHeight - BoxSize)
  }

  /** A box in play cannot overflow, and after an update it is still in play. */
  lemma UpdateKeepsBounded(b: BouncingBox)
    requires Bounded(b)
    ensures NoOverflow(b)
    ensures Bounded(Update(b))
  {
  }

  /** A box that has left the play area on an axis is back inside it after one update. */
  lemma OutsideReturns(b: BouncingBox)
    requires Bounded(b)
    ensures !(0 < b.x <= ScreenWidth - BoxSize) ==> 0 < Update(b).x <= ScreenWidth - BoxSize
    ensures !(0 < b.y <= ScreenHeight - BoxSize) ==> 0 < Update(b).y <= ScreenHeight - BoxSize
  {
  }

  /** A box in play is never more than one step away from the play area. */
  lemma BoundedNearScreen(b: BouncingBox)
    requires Bounded(b)
    ensures -MaxSpeed < b.x <= ScreenWidth - BoxSize + MaxSpeed
    ensures -MaxSpeed < b.y <= ScreenHeight - BoxSize + MaxSpeed
  {
  }

  /** The pixel (x, y) lies in the box's 64×64 square. */
  predicate Inside(b: BouncingBox, x: int, y: int)
  {
    b.x <= x < b.x + BoxSize && b.y <= y < b.y + BoxSize
  }

  /** The containment test of `draw` stays inside `i16`: each edge sum is evaluated only
      after the comparisons before it have passed. */
  predicate CanDraw(b: BouncingBox, x: int, y: int)
  {
    && (x >= b.x ==> b.x + BoxSize <= MaxI16)
    && (x >= b.x && x < b.x + BoxSize && y >= b.y ==> b.y + BoxSize <= MaxI16)
  }

  /** `draw`: the pixel becomes the box colour when (x, y) is in the box, and is left as it
      was otherwise. */
  function DrawPixel(b: BouncingBox, pixel: Rgba, x: I16, y: I16): (r: Rgba)
    requires CanDraw(b, x, y)
    ensures Inside(b, x, y) ==> r == BoxColor
    ensures !Inside(b, x, y) ==> r == pixel
  {
    if x >= b.x && x < b.x + BoxSize && y >= b.y && y < b.y + BoxSize then BoxColor else pixel
  }

  /** A box in play can draw at every pixel. */
  lemma BoundedCanDraw(b: BouncingBox, x: int, y: int)
    requires Bounded(b)
    ensures CanDraw(b, x, y)
  {
  }

  // Lists of boxes, as the environments hold them.

  /** The two boxes the environments start with, in order. */
  const ExampleBoxes: seq<BouncingBox> := [BouncingBox(24, 16, 1, 1), BouncingBox(96, 32, 2, 2)]

  predicate AllNoOverflow(actors: seq<BouncingBox>)
  {
    forall i :: 0 <= i < |actors| ==> NoOverflow(actors[i])
  }

  predicate AllBounded(actors: seq<BouncingBox>)
  {
    forall i :: 0 <= i < |actors| ==> Bounded(actors[i])
  }

  /** The example boxes start in play. */
  lemma ExampleBoxesBounded()
    ensures AllBounded(ExampleBoxes)
  {
  }

  /** Every box updated once, in order. */
  function UpdateAll(actors: seq<BouncingBox>): (r: seq<BouncingBox>)
    requires AllNoOverflow(actors)
    ensures |r| == |actors|
    ensures forall i :: 0 <= i < |actors| ==> r[i] == Update(actors[i])
  {
    seq(|actors|, i requires 0 <= i < |actors| => Update(actors[i]))
  }

  /** Boxes in play can always be updated together, and stay in play. */
  lemma UpdateAllKeepsBounded(actors: seq<BouncingBox>)
    requires AllBounded(actors)
    ensures AllNoOverflow(actors)
    ensures AllBounded(UpdateAll(actors))
  {
    forall i | 0 <= i < |actors| ensures NoOverflow(actors[i]) {
      UpdateKeepsBounded(actors[i]);
    }
    forall i | 0 <= i < |actors| ensures Bounded(UpdateAll(actors)[i]) {
      UpdateKeepsBounded(actors[i]);
    }
  }
}

=== FILE: builders.dfy ===
/** The projection-matrix builders (`ProjectionMatrixBuilder` and the legacy `MatrixBuilder`,
    which share one layout) and the rotation-matrix builder about the x axis. */
module Builders {
  import opened Vector
  import opened Matrix

  /** π as the legacy `MatrixBuilder` writes it. */
  const LegacyPi: real := 3.14159

  /** Builder parameters; `width` and `height` are `usize`. */
  datatype ProjectionMatrixBuilder = ProjectionMatrixBuilder(
    screenPosition: real, viewLimit: real, fov: real, width: nat, height: nat)
  {
    function SetScreenPosition(position: real): (r: ProjectionMatrixBuilder)
      ensures r.screenPosition == position
      ensures r.(screenPosition := screenPosition) == this
    {
      this.(screenPosition := position)
    }

    function SetViewLimit(limit: real): (r: ProjectionMatrixBuilder)
      ensures r.viewLimit == limit
      ensures r.(viewLimit := viewLimit) == this
    {
      this.(viewLimit := limit)
    }

    function SetFov(degrees: real): (r: ProjectionMatrixBuilder)
      ensures r.fov == degrees
      ensures r.(fov := fov) == this
    {
      this.(fov := degrees)
    }

    function SetWidth(w: nat): (r: ProjectionMatrixBuilder)
      ensures r.width == w
      ensures r.(width := width) == this
    {
      this.(width := w)
    }

    function SetHeight(h: nat): (r: ProjectionMatrixBuilder)
      ensures r.height == h
      ensures r.(height := height) == this
    {
      this.(height := h)
    }

    /** `view_limit - screen_position`. */
    function Distance(): real
    {
      viewLimit - screenPosition
    }
  }

  /** `ProjectionMatrixBuilder::new()` and `MatrixBuilder::new()`: every parameter zero. */
  function NewProjectionBuilder(): (r: ProjectionMatrixBuilder)
    ensures r.screenPosition == 0.0 && r.viewLimit == 0.0 && r.fov == 0.0
    ensures r.width == 0 && r.height == 0
  {
    ProjectionMatrixBuilder(0.0, 0.0, 0.0, 0, 0)
  }

  /** The half field of view in radians, `fov * 0.5 / 180 * π`. */
  function HalfFovRadians(fov: real, pi: real): real
  {
    fov * 0.5 / 180.0 * pi
  }

  /** `1 / tan(fov / 2)`. */
  function FovRad(fov: real, pi: real, tan: real -> real): real
    requires tan(HalfFovRadians(fov, pi)) != 0.0
  {
    1.0 / tan(HalfFovRadians(fov, pi))
  }

  /** The builder validates nothing; the model requires what keeps every entry finite:
      a non-zero height, a non-zero distance and a non-zero tangent. */
  predicate CanBuild(b: ProjectionMatrixBuilder, pi: real, tan: real -> real)
  {
    b.height > 0 && b.Distance() != 0.0 && tan(HalfFovRadians(b.fov, pi)) != 0.0
  }

  predicate IsProjectionEntry(i: nat, j: nat)
  {
    (i, j) == (0, 0) || (i, j) == (1, 1) || (i, j) == (2, 2) || (i, j) == (3, 2) || (i, j) == (2, 3)
  }

  /** `build` with a given π: starts from the zero matrix and sets five entries. */
  function BuildWithPi(b: ProjectionMatrixBuilder, pi: real, tan: real -> real): (r: Matrix4)
    requires CanBuild(b, pi, tan)
    ensures r[0][0] == (b.width as real / b.height as real) * FovRad(b.fov, pi, tan)
    ensures r[1][1] == FovRad(b.fov, pi, tan)
    ensures r[2][2] == b.viewLimit * b.Distance()
    ensures r[3][2] * b.Distance() == -b.viewLimit * b.screenPosition
    ensures r[2][3] == 1.0
    ensures forall i, j :: 0 <= i < Size && 0 <= j < Size && !IsProjectionEntry(i, j) ==> r[i][j] == 0.0
  {
    var aspect := b.width as real / b.height as real;
    var fovRad := FovRad(b.fov, pi, tan);
    var distance := b.Distance();
    var m := Zero();
    var m := Set(m, 0, 0, aspect * fovRad);
    var m := Set(m, 1, 1, fovRad);
    var m := Set(m, 2, 2, b.viewLimit * distance);
    var m := Set(m, 3, 2, (-b.viewLimit * b.screenPosition) / distance);
    Set(m, 2, 3, 1.0)
  }

  /** The aspect ratio `width / height` as `f32`. */
  function Aspect(b: ProjectionMatrixBuilder): real
    requires b.height > 0
  {
    b.width as real / b.height as real
  }

  /** The `[0][0]` entry, `aspect * fov_rad`. */
  function XScale(b: ProjectionMatrixBuilder, pi: real, tan: real -> real): real
    requires b.height > 0 && tan(HalfFovRadians(b.fov, pi)) != 0.0
  {
    Aspect(b) * FovRad(b.fov, pi, tan)
  }

  /** The `[2][2]` entry, `view_limit * distance`. */
  function DepthScale(b: ProjectionMatrixBuilder): real
  {
    b.viewLimit * b.Distance()
  }

  /** The `[3][2]` entry, `-view_limit * screen_position / distance`. */
  function DepthShift(b: ProjectionMatrixBuilder): real
    requires b.Distance() != 0.0
  {
    (-b.viewLimit * b.screenPosition) / b.Distance()
  }

  /** A matrix laid out as `build` lays it out, with entries `a`, `f`, `c` and `d`; every
      other entry but `[2][3] = 1` is zero. */
  predicate ProjectionShaped(m: Matrix4, a: real, f: real, c: real, d: real)
  {
    m[0] == [a, 0.0, 0.0, 0.0] && m[1] == [0.0, f, 0.0, 0.0] && m[2] == [0.0, 0.0, c, 1.0] && m[3] == [0.0, 0.0, d, 0.0]
  }

  /** The built matrix row by row. */
  lemma BuildWithPiShape(b: ProjectionMatrixBuilder, pi: real, tan: real -> real)
    requires CanBuild(b, pi, tan)
    ensures ProjectionShaped(BuildWithPi(b, pi, tan), XScale(b, pi, tan), FovRad(b.fov, pi, tan), DepthScale(b), DepthShift(b))
  {
    var m := BuildWithPi(b, pi, tan);
    assert !IsProjectionEntry(0, 1) && !IsProjectionEntry(0, 2) && !IsProjectionEntry(0, 3);
    assert !IsProjectionEntry(1, 0) && !IsProjectionEntry(1, 2) && !IsProjectionEntry(1, 3);
    assert !IsProjectionEntry(2, 0) && !IsProjectionEntry(2, 1);
    assert !IsProjectionEntry(3, 0) && !IsProjectionEntry(3, 1) && !IsProjectionEntry(3, 3);
    DivideBack(m[3][2], b.Distance(), -b.viewLimit * b.screenPosition);
    assert m[0] == [XScale(b, pi, tan), 0.0, 0.0, 0.0] by {
      assert m[0][0] == XScale(b, pi, tan) && m[0][1] == 0.0 && m[0][2] == 0.0 && m[0][3] == 0.0;
    }
    assert m[1] == [0.0, FovRad(b.fov, pi, tan), 0.0, 0.0] by {
      assert m[1][1] == FovRad(b.fov, pi, tan) && m[1][0] == 0.0 && m[1][2] == 0.0 && m[1][3] == 0.0;
    }
    assert m[2] == [0.0, 0.0, DepthScale(b), 1.0] by {
      assert m[2][0] == 0.0 && m[2][1] == 0.0 && m[2][2] == DepthScale(b) && m[2][3] == 1.0;
    }
    assert m[3] == [0.0, 0.0, DepthShift(b), 0.0] by {
      assert m[3][2] == DepthShift(b) && m[3][0] == 0.0 && m[3][1] == 0.0 && m[3][3] == 0.0;
    }
  }

  /** `ProjectionMatrixBuilder::build`, with the platform's π: all sixteen entries. */
  function Build(b: ProjectionMatrixBuilder, lib: MathLib): (r: Matrix4)
    requires CanBuild(b, lib.pi, lib.tan)
    ensures ProjectionShaped(r, XScale(b, lib.pi, lib.tan), FovRad(b.fov, lib.pi, lib.tan), DepthScale(b), DepthShift(b))
  {
    BuildWithPiShape(b, lib.pi, lib.tan);
    BuildWithPi(b, lib.pi, lib.tan)
  }

  /** The legacy `MatrixBuilder::build`, with π written as 3.14159: all sixteen entries. */
  function LegacyBuild(b: ProjectionMatrixBuilder, lib: MathLib): (r: Matrix4)
    requires CanBuild(b, LegacyPi, lib.tan)
    ensures ProjectionShaped(r, XScale(b, LegacyPi, lib.tan), FovRad(b.fov, LegacyPi, lib.tan), DepthScale(b), DepthShift(b))
  {
    BuildWithPiShape(b, LegacyPi, lib.tan);
    BuildWithPi(b, LegacyPi, lib.tan)
  }

  /** A factor that multiplies back to `num` is the quotient. */
  lemma DivideBack(r: real, w: real, num: real)
    requires w != 0.0 && r * w == num
    ensures r == num / w
  {
  }

  /** The two builders differ only in the π they feed to the tangent. */
  lemma LegacyBuildIsBuildWithLegacyPi(b: ProjectionMatrixBuilder, lib: MathLib)
    requires CanBuild(b, LegacyPi, lib.tan)
    ensures LegacyBuild(b, lib) == Build(b, lib.(pi := LegacyPi))
  {
  }

  /** `[3][3]` stays zero, so `w` is the input's z times `[2][3] = 1`: the divisor of the
      perspective divide is the depth itself. */
  lemma ProjectionDivisorIsDepth(b: ProjectionMatrixBuilder, lib: MathLib, v: Point3)
    requires CanBuild(b, lib.pi, lib.tan)
    ensures W(v, Build(b, lib)) == v.z
  {
    var m := Build(b, lib);
    assert m[0][3] == 0.0 && m[1][3] == 0.0 && m[3][3] == 0.0;
  }

  /** Rotation builder: only the angle `theta`. */
  datatype RotationMatrixBuilder = RotationMatrixBuilder(theta: real)
  {
    function WithTheta(t: real): (r: RotationMatrixBuilder)
      ensures r.theta == t
    {
      this.(theta := t)
    }
  }

  function NewRotationBuilder(): (r: RotationMatrixBuilder)
    ensures r.theta == 0.0
  {
    RotationMatrixBuilder(0.0)
  }

  predicate IsRotationEntry(i: nat, j: nat)
  {
    (i, j) == (0, 0) || (i, j) == (1, 1) || (i, j) == (1, 2) || (i, j) == (2, 1) || (i, j) == (2, 2) || (i, j) == (3, 3)
  }

  /** `RotationMatrixBuilder::build`: a rotation about the x axis by the half angle `theta / 2`. */
  function BuildRotation(b: RotationMatrixBuilder, lib: MathLib): (r: Matrix4)
    ensures r[0][0] == 1.0 && r[3][3] == 1.0
    ensures r[1][1] == lib.cos(b.theta * 0.5) && r[2][2] == lib.cos(b.theta * 0.5)
    ensures r[1][2] == lib.sin(b.theta * 0.5) && r[2][1] == -r[1][2]
    ensures forall i, j :: 0 <= i < Size && 0 <= j < Size && !IsRotationEntry(i, j) ==> r[i][j] == 0.0
  {
    var half := b.theta * 0.5;
    var m := Zero();
    var m := Set(m, 0, 0, 1.0);
    var m := Set(m, 1, 1, lib.cos(half));
    var m := Set(m, 1, 2, lib.sin(half));
    var m := Set(m, 2, 1, -lib.sin(half));
    var m := Set(m, 2, 2, lib.cos(half));
    Set(m, 3, 3, 1.0)
  }

  /** With `cos 0 = 1` and `sin 0 = 0`, a fresh rotation builder yields the identity. */
  lemma FreshRotationIsIdentity(lib: MathLib)
    requires lib.cos(0.0) == 1.0 && lib.sin(0.0) == 0.0
    ensures BuildRotation(NewRotationBuilder(), lib) == Identity()
  {
    var r := BuildRotation(NewRotationBuilder(), lib);
    forall i | 0 <= i < Size
      ensures r[i] == Identity()[i]
    {
      assert forall j :: 0 <= j < Size ==> r[i][j] == Identity()[i][j];
    }
  }

  /** A rotation keeps x, keeps `w = 1`, and, where `cos² + sin² = 1`, keeps the distance
      from the x axis. */
  lemma RotationPreservesRadius(b: RotationMatrixBuilder, lib: MathLib, v: Point3)
    requires lib.cos(b.theta * 0.5) * lib.cos(b.theta * 0.5) + lib.sin(b.theta * 0.5) * lib.sin(b.theta * 0.5) == 1.0
    ensures W(v, BuildRotation(b, lib)) == 1.0
    ensures VectorDotMatrix(v, BuildRotation(b, lib)).x == v.x
    ensures var r := VectorDotMatrix(v, BuildRotation(b, lib)); r.y * r.y + r.z * r.z == v.y * v.y + v.z * v.z
  {
    var m := BuildRotation(b, lib);
    var c := lib.cos(b.theta * 0.5);
    var s := lib.sin(b.theta * 0.5);
    assert W(v, m) == 1.0;
    var r := VectorDotMatrix(v, m);
    assert r.y == v.y * c - v.z * s;
    assert r.z == v.y * s + v.z * c;
    calc {
      r.y * r.y + r.z * r.z;
      (v.y * c - v.z * s) * (v.y * c - v.z * s) + (v.y * s + v.z * c) * (v.y * s + v.z * c);
      v.y * v.y * (c * c + s * s) + v.z * v.z * (c * c + s * s);
      v.y * v.y + v.z * v.z;
    }
  }
}

=== FILE: canvas.dfy ===
/** `EngineCanvas`: a width × height grid of blank or white cells that lines are pushed into,
    and that `render` copies into an RGBA frame before clearing it. The grid is indexed
    column first, `grid[x][y]`. */
module Canvas {
  import opened Wrappers
  import opened Vector
  import opened Matrix
  import opened Builders
  import opened Frames

  datatype Pixel = Blank | White

  /** The errors the engine reports. */
  datatype EngineError = AdapterNotFound | CloseInvocation | Rendering

  const DefaultOffset: real := 3.0

  const WhiteRgba: Rgba := [0xff, 0xff, 0xff, 0xff]

  datatype EngineCanvas = EngineCanvas(
    grid: seq<seq<Pixel>>, matrix: Matrix4, width: nat, height: nat, zOffset: real)

  /** The grid has `width` columns of `height` cells each. */
  predicate Valid(c: EngineCanvas)
  {
    |c.grid| == c.width && forall x :: 0 <= x < |c.grid| ==> |c.grid[x]| == c.height
  }

  /** A grid of the given shape with every cell blank. */
  function BlankGrid(width: nat, height: nat): (g: seq<seq<Pixel>>)
    ensures |g| == width
    ensures forall x :: 0 <= x < width ==> |g[x]| == height
    ensures forall x, y :: 0 <= x < width && 0 <= y < height ==> g[x][y] == Blank
  {
    seq(width, _ => seq(height, _ => Blank))
  }

  /** The builder `new` configures: near plane 0.1, far plane 1000, a 90-degree field of view
      and the window's size. */
  function CanvasBuilder(width: nat, height: nat): (b: ProjectionMatrixBuilder)
    ensures b == ProjectionMatrixBuilder(0.1, 1000.0, 90.0, width, height)
  {
    NewProjectionBuilder().SetScreenPosition(0.1).SetViewLimit(1000.0).SetFov(90.0).SetWidth(width).SetHeight(height)
  }

  /** `EngineCanvas::new` on a window of the given size; `adapter` says whether the pixel
      buffer found a GPU adapter. */
  function New(width: nat, height: nat, adapter: bool, lib: MathLib): (r: Result<EngineCanvas, EngineError>)
    requires adapter ==> CanBuild(CanvasBuilder(width, height), LegacyPi, lib.tan)
    ensures r.Ok? <==> adapter
    ensures r.Err? ==> r.error == AdapterNotFound
    ensures r.Ok? ==> Valid(r.value) && r.value.width == width && r.value.height == height
    ensures r.Ok? ==> forall x, y :: 0 <= x < width && 0 <= y < height ==> r.value.grid[x][y] == Blank
    ensures r.Ok? ==> r.value.zOffset == DefaultOffset
    ensures r.Ok? ==> r.value.matrix == LegacyBuild(CanvasBuilder(width, height), lib)
  {
    if !adapter then Err(AdapterNotFound)
    else Ok(EngineCanvas(BlankGrid(width, height), LegacyBuild(CanvasBuilder(width, height), lib), width, height, DefaultOffset))
  }

  /** `clear`: a blank grid of the current shape; nothing else changes. */
  function Clear(c: EngineCanvas): (r: EngineCanvas)
    ensures Valid(r)
    ensures r.(grid := c.grid) == c
    ensures forall x, y :: 0 <= x < c.width && 0 <= y < c.height ==> r.grid[x][y] == Blank
  {
    c.(grid := BlankGrid(c.width, c.height))
  }

  /** `push_pixel`: cell (x, y) turns white when it is on the grid; a point off the grid
      is dropped. No other cell and no other field changes. */
  function PushPixel(c: EngineCanvas, x: nat, y: nat): (r: EngineCanvas)
    requires Valid(c)
    ensures Valid(r)
    ensures r.(grid := c.grid) == c
    ensures !(x < c.width && y < c.height) ==> r == c
    ensures forall i, j :: 0 <= i < c.width && 0 <= j < c.height ==>
      (r.grid[i][j] == White <==> c.grid[i][j] == White || (i == x && j == y))
  {
    if x < c.width && y < c.height then c.(grid := c.grid[x := c.grid[x][y := White]])
    else c
  }

  const IsizeBound: int := 0x8000_0000_0000_0000
  const UsizeModulus: int := 0x1_0000_0000_0000_0000

  /** Rust's `isize as usize`: a negative value wraps to 2^64 plus itself. */
  function AsUsize(v: int): (r: nat)
    requires -IsizeBound <= v < IsizeBound
    ensures r < UsizeModulus
    ensures (r - v) % UsizeModulus == 0
    ensures v < 0 ==> r >= IsizeBound
  {
    if v < 0 then v + UsizeModulus else v
  }

  /** A point of a line, as Bresenham's iterator yields it. */
  type Point = (int, int)

  predicate IsizePoint(p: Point)
  {
    -IsizeBound <= p.0 < IsizeBound && -IsizeBound <= p.1 < IsizeBound
  }

  /** `draw_line` over the points the line iterator yields between its two ends: each one is
      cast to `usize` and pushed, in order. */
  function DrawLine(c: EngineCanvas, points: seq<Point>): (r: EngineCanvas)
    requires Valid(c)
    requires forall k :: 0 <= k < |points| ==> IsizePoint(points[k])
    ensures Valid(r)
    ensures r.(grid := c.grid) == c
    decreases |points|
  {
    if |points| == 0 then c
    else
      assert IsizePoint(points[0]);
      assert forall k :: 1 <= k < |points| ==> points[1..][k - 1] == points[k];
      DrawLine(PushPixel(c, AsUsize(points[0].0), AsUsize(points[0].1)), points[1..])
  }

  /** After a line, a cell is white exactly when it was before or some point of the line
      casts onto it. */
  lemma {:induction false} DrawLineIff(c: EngineCanvas, points: seq<Point>, i: nat, j: nat)
    requires Valid(c)
    requires forall k :: 0 <= k < |points| ==> IsizePoint(points[k])
    requires i < c.width && j < c.height
    ensures DrawLine(c, points).grid[i][j] == White <==>
      c.grid[i][j] == White || exists k :: 0 <= k < |points| && AsUsize(points[k].0) == i && AsUsize(points[k].1) == j
    decreases |points|
  {
    if |points| > 0 {
      var rest := points[1..];
      assert forall k :: 1 <= k < |points| ==> points[k] == rest[k - 1];
      var c' := PushPixel(c, AsUsize(points[0].0), AsUsize(points[0].1));
      DrawLineIff(c', rest, i, j);
      if exists k :: 0 <= k < |points| && AsUsize(points[k].0) == i && AsUsize(points[k].1) == j {
        var k :| 0 <= k < |points| && AsUsize(points[k].0) == i && AsUsize(points[k].1) == j;
        if k > 0 {
          assert AsUsize(rest[k - 1].0) == i && AsUsize(rest[k - 1].1) == j;
        }
      }
    }
  }

  /** On a grid narrower and shorter than 2^63, a cell is white after a line exactly when it
      was before or the line passes through it: points with a negative coordinate wrap past
      the grid and are dropped. */
  lemma DrawLineOnGrid(c: EngineCanvas, points: seq<Point>, i: nat, j: nat)
    requires Valid(c) && c.width <= IsizeBound && c.height <= IsizeBound
    requires forall k :: 0 <= k < |points| ==> IsizePoint(points[k])
    requires i < c.width && j < c.height
    ensures DrawLine(c, points).grid[i][j] == White <==>
      c.grid[i][j] == White || exists k :: 0 <= k < |points| && points[k] == (i, j)
  {
    DrawLineIff(c, points, i, j);
    if exists k :: 0 <= k < |points| && AsUsize(points[k].0) == i && AsUsize(points[k].1) == j {
      var k :| 0 <= k < |points| && AsUsize(points[k].0) == i && AsUsize(points[k].1) == j;
      assert points[k] == (i, j);
    }
  }

  /** A whole pixel of the frame falls on the grid when its index is below width × height. */
  lemma CellOnGrid(i: nat, width: nat, height: nat)
    requires width > 0 && i < width * height
    ensures i % width < width && i / width < height
  {
    var q := i / width;
    assert q * width <= i;
    MulLess(q, height, width, i);
  }

  /** A multiple of `w` that does not pass `i < h * w` has a factor below `h`. */
  lemma MulLess(q: nat, h: nat, w: nat, i: nat)
    requires w > 0 && q * w <= i < h * w
    ensures q < h
  {
    if q >= h {
      MulMonotone(h, q, w);
    }
  }

  lemma MulMonotone(a: nat, b: nat, w: nat)
    requires a <= b
    ensures a * w <= b * w
  {
  }

  /** The frame can be filled from the grid: every whole pixel has a cell, and the width
      divides. */
  predicate Renderable(c: EngineCanvas, frame: seq<Byte>)
  {
    Valid(c) && (Pixels(frame) > 0 ==> c.width > 0 && Pixels(frame) <= c.width * c.height)
  }

  /** The colour of pixel `i`: white over a white cell, transparent black otherwise. */
  function CellColor(c: EngineCanvas, i: nat): Rgba
    requires Valid(c) && c.width > 0 && i < c.width * c.height
  {
    CellOnGrid(i, c.width, c.height);
    if c.grid[i % c.width][i / c.width] == White then WhiteRgba else Transparent
  }

  /** `render`: pixel `i` of the frame shows cell (i % width, i / width), white or
      transparent black; trailing bytes are not touched; then the grid is cleared. The
      outcome is the pixel buffer's presentation, `presented`, with its failure reported as
      `Rendering`. */
  method Render(c: EngineCanvas, frame: seq<Byte>, presented: bool)
      returns (out: seq<Byte>, r: EngineCanvas, outcome: Result<(), EngineError>)
    requires Renderable(c, frame)
    ensures |out| == |frame|
    ensures forall i :: 0 <= i < Pixels(frame) ==>
      i % c.width < c.width && i / c.width < c.height &&
      out[4 * i..4 * i + 4] == if c.grid[i % c.width][i / c.width] == White then WhiteRgba else Transparent
    ensures out[4 * Pixels(frame)..] == frame[4 * Pixels(frame)..]
    ensures r == Clear(c)
    ensures outcome.Ok? <==> presented
    ensures outcome.Err? ==> outcome.error == Rendering
  {
    if Pixels(frame) == 0 {
      out := frame;
    } else {
      var pixel := (i: nat) requires Valid(c) && c.width > 0 && i < c.width * c.height => CellColor(c, i);
      out := FillFrame(frame, pixel);
      forall i | 0 <= i < Pixels(frame)
        ensures i % c.width < c.width && i / c.width < c.height &&
          out[4 * i..4 * i + 4] == if c.grid[i % c.width][i / c.width] == White then WhiteRgba else Transparent
      {
        CellOnGrid(i, c.width, c.height);
        PaintedPixel(frame, out, pixel, i);
      }
    }
    r := Clear(c);
    outcome := if presented then Ok(()) else Err(Rendering);
  }

  /** `resize`: the new shape, every cell blank; the projection matrix and the offset are
      kept, since nothing rebuilds them. */
  function Resize(c: EngineCanvas, width: nat, height: nat): (r: EngineCanvas)
    ensures Valid(r)
    ensures r.width == width && r.height == height
    ensures r.matrix == c.matrix && r.zOffset == c.zOffset
    ensures forall x, y :: 0 <= x < width && 0 <= y < height ==> r.grid[x][y] == Blank
  {
    Clear(c.(width := width, height := height))
  }
}

=== FILE: canvas_environment.dfy ===
/** The canvas-drawing `Environment`: a list of bouncing boxes that each draw themselves onto
    a shared canvas. How a box draws onto a canvas is not visible, so it is a parameter:
    any function from an actor and a canvas to the canvas afterwards. */
module CanvasEnvironment {
  import opened Boxes

  /** The environment holds nothing but its actors. */
  datatype Environment = Environment(actors: seq<BouncingBox>)

  /** `Environment::new`: the two example boxes, in play. */
  function New(): (e: Environment)
    ensures |e.actors| == 2 && e.actors[0] == BouncingBox(24, 16, 1, 1) && e.actors[1] == BouncingBox(96, 32, 2, 2)
    ensures AllBounded(e.actors)
  {
    ExampleBoxesBounded();
    Environment(ExampleBoxes)
  }

  /** `update`: every actor updated once, in order. */
  function Update(e: Environment): (r: Environment)
    requires AllNoOverflow(e.actors)
    ensures |r.actors| == |e.actors|
    ensures forall i :: 0 <= i < |e.actors| ==> r.actors[i] == Boxes.Update(e.actors[i])
  {
    Environment(UpdateAll(e.actors))
  }

  /** `draw`: the canvas handed from each actor to the next, in list order. */
  function Draw<C>(actors: seq<BouncingBox>, canvas: C, draw: (BouncingBox, C) -> C): (r: C)
    ensures |actors| == 0 ==> r == canvas
    ensures |actors| > 0 ==> r == draw(actors[|actors| - 1], Draw(actors[..|actors| - 1], canvas, draw))
    decreases |actors|
  {
    if |actors| == 0 then canvas
    else
      var rest := Draw(actors[1..], draw(actors[0], canvas), draw);
      assert |actors| == 1 ==> actors[..0] == [] && actors[1..] == [];
      assert |actors| > 1 ==> actors[..|actors| - 1][0] == actors[0] && actors[..|actors| - 1][1..] == actors[1..][..|actors| - 2];
      rest
  }

  /** Drawing a list and then one more actor is drawing the longer list: the last actor in
      the list draws last, over everything before it. */
  lemma {:induction false} DrawSnoc<C>(actors: seq<BouncingBox>, a: BouncingBox, canvas: C, draw: (BouncingBox, C) -> C)
    ensures Draw(actors + [a], canvas, draw) == draw(a, Draw(actors, canvas, draw))
    decreases |actors|
  {
    if |actors| == 0 {
      assert actors + [a] == [a];
      assert [a][1..] == [];
    } else {
      assert (actors + [a])[1..] == actors[1..] + [a];
      DrawSnoc(actors[1..], a, draw(actors[0], canvas), draw);
    }
  }

  /** Drawing two lists one after the other is drawing their concatenation. */
  lemma {:induction false} DrawConcat<C>(a: seq<BouncingBox>, b: seq<BouncingBox>, canvas: C, draw: (BouncingBox, C) -> C)
    ensures Draw(a + b, canvas, draw) == Draw(b, Draw(a, canvas, draw), draw)
    decreases |a|
  {
    if |a| == 0 {
      assert a + b == b;
    } else {
      assert (a + b)[1..] == a[1..] + b;
      DrawConcat(a[1..], b, draw(a[0], canvas), draw);
    }
  }

  /** The environment `new` creates draws its first box, then its second. */
  lemma DrawNew<C>(canvas: C, draw: (BouncingBox, C) -> C)
    ensures Draw(New().actors, canvas, draw) ==
      draw(BouncingBox(96, 32, 2, 2), draw(BouncingBox(24, 16, 1, 1), canvas))
  {
    var e := New();
    DrawSnoc([e.actors[0]], e.actors[1], canvas, draw);
    assert [e.actors[0]] + [e.actors[1]] == e.actors;
    assert [e.actors[0]][1..] == [];
  }
}

=== FILE: config.dfy ===
/** `EngineConfig`: the engine's window title, size and camera parameters, with defaults and
    chainable setters that validate nothing. */
module Config {

  /** An unsigned 32-bit width or height. */
  type U32 = n: int | 0 <= n < 0x1_0000_0000

  datatype EngineConfig = EngineConfig(
    title: string, width: U32, height: U32, fov: real,
    screenPosition: real, viewLimit: real, zOffset: real)
  {
    function SetTitle(t: string): (r: EngineConfig)
      ensures r.title == t && r.(title := title) == this
    {
      this.(title := t)
    }

    function SetWidth(w: U32): (r: EngineConfig)
      ensures r.width == w && r.(width := width) == this
    {
      this.(width := w)
    }

    function SetHeight(h: U32): (r: EngineConfig)
      ensures r.height == h && r.(height := height) == this
    {
      this.(height := h)
    }

    function SetFov(f: real): (r: EngineConfig)
      ensures r.fov == f && r.(fov := fov) == this
    {
      this.(fov := f)
    }

    function SetScreenPosition(p: real): (r: EngineConfig)
      ensures r.screenPosition == p && r.(screenPosition := screenPosition) == this
    {
      this.(screenPosition := p)
    }

    function SetViewLimit(l: real): (r: EngineConfig)
      ensures r.viewLimit == l && r.(viewLimit := viewLimit) == this
    {
      this.(viewLimit := l)
    }

    function SetZOffset(z: real): (r: EngineConfig)
      ensures r.zOffset == z && r.(zOffset := zOffset) == this
    {
      this.(zOffset := z)
    }
  }

  const DefaultTitle: string := "Rust 3D Engine"

  /** `EngineConfig::default`. */
  function Default(): (c: EngineConfig)
    ensures c.title == DefaultTitle && c.width == 960 && c.height == 640
    ensures c.fov == 90.0 && c.screenPosition == 0.1 && c.viewLimit == 1000.0 && c.zOffset == 3.0
  {
    EngineConfig(DefaultTitle, 960, 640, 90.0, 0.1, 1000.0, 3.0)
  }

  /** Setting the same field twice keeps only the last value. */
  lemma LastSetWins(c: EngineConfig, w1: U32, w2: U32, f1: real, f2: real, t1: string, t2: string)
    ensures c.SetWidth(w1).SetWidth(w2) == c.SetWidth(w2)
    ensures c.SetFov(f1).SetFov(f2) == c.SetFov(f2)
    ensures c.SetTitle(t1).SetTitle(t2) == c.SetTitle(t2)
  {
  }

  /** Setters of different fields commute. */
  lemma SettersCommute(c: EngineConfig, w: U32, h: U32, z: real)
    ensures c.SetWidth(w).SetHeight(h) == c.SetHeight(h).SetWidth(w)
    ensures c.SetWidth(w).SetZOffset(z) == c.SetZOffset(z).SetWidth(w)
  {
  }

  /** Setting a field to the value it already holds changes nothing. */
  lemma SetSameIsIdentity(c: EngineConfig)
    ensures c.SetWidth(c.width) == c && c.SetHeight(c.height) == c && c.SetTitle(c.title) == c
  {
  }
}

=== FILE: cube.dfy ===
/** `get_3d_cube`: the unit cube of the demo, a mesh literal parsed when the actor is made. */
module Cube {
  import opened Wrappers
  import opened Text
  import opened Numbers
  import opened Vector
  import opened Geometry
  import opened Parsing
  import opened MeshFormat
  import opened MeshActors

  /** The cube literal, cut at its `;` separators. The Rust literal runs over three source
      lines joined by `\`-continuations, which drop the newline and the tabs after it, so
      the text parsed is exactly these twelve pieces joined by `;`. */
  const CubePieces: seq<string> := [
    "0 0 0,0 1 0,1 1 0", "0 0 0,1 1 0,1 0 0", "1 0 0,1 1 0,1 1 1", "1 0 0,1 1 1,1 0 1",
    "1 0 1,1 1 1,0 1 1", "1 0 1,0 1 1,0 0 1", "0 0 1,0 1 1,0 1 0", "0 0 1,0 1 0,0 0 0",
    "0 1 0,0 1 1,1 1 1", "0 1 0,1 1 1,1 1 0", "1 0 1,0 0 1,0 0 0", "1 0 1,0 0 0,1 0 0"]

  /** The cube literal as `get_3d_cube` passes it to `Mesh::try_from`. */
  function CubeText(): string
  {
    Join(CubePieces, ';')
  }

  /** Which of a corner's coordinates are 1 (the others are 0). */
  type Bits = (bool, bool, bool)

  /** A corner of the unit cube. */
  function CornerOf(a: Bits): Point3
  {
    Point3(if a.0 then 1.0 else 0.0, if a.1 then 1.0 else 0.0, if a.2 then 1.0 else 0.0)
  }

  const O: bool := false
  const I: bool := true

  /** The corners of the twelve triangles the literal spells, two per face, in its order. */
  const CubeCorners: seq<(Bits, Bits, Bits)> := [
    ((O, O, O), (O, I, O), (I, I, O)), ((O, O, O), (I, I, O), (I, O, O)),
    ((I, O, O), (I, I, O), (I, I, I)), ((I, O, O), (I, I, I), (I, O, I)),
    ((I, O, I), (I, I, I), (O, I, I)), ((I, O, I), (O, I, I), (O, O, I)),
    ((O, O, I), (O, I, I), (O, I, O)), ((O, O, I), (O, I, O), (O, O, O)),
    ((O, I, O), (O, I, I), (I, I, I)), ((O, I, O), (I, I, I), (I, I, O)),
    ((I, O, I), (O, O, I), (O, O, O)), ((I, O, I), (O, O, O), (I, O, O))]

  function CornerTriangle(c: (Bits, Bits, Bits)): Triangle3
  {
    Triangle3(CornerOf(c.0), CornerOf(c.1), CornerOf(c.2))
  }

  /** The triangles of the cube, in the order of the literal. */
  function CubeTriangles(): (ts: seq<Triangle3>)
    ensures |ts| == |CubeCorners| == 12
    ensures forall i :: 0 <= i < |ts| ==> ts[i] == CornerTriangle(CubeCorners[i])
  {
    seq(|CubeCorners|, i requires 0 <= i < |CubeCorners| => CornerTriangle(CubeCorners[i]))
  }

  function Digit(b: bool): char
  {
    if b then '1' else '0'
  }

  /** The text of a corner: its three digits separated by spaces. */
  function CornerLiteral(a: Bits): string
  {
    [Digit(a.0), ' ', Digit(a.1), ' ', Digit(a.2)]
  }

  /** The text of a triangle of corners: the three corner texts separated by commas. */
  function TriangleLiteral(c: (Bits, Bits, Bits)): string
  {
    CornerLiteral(c.0) + "," + CornerLiteral(c.1) + "," + CornerLiteral(c.2)
  }

  /** A corner's coordinates are whole numbers. */
  lemma CornerIntegral(a: Bits)
    ensures IntegralPoint(CornerOf(a))
  {
    assert Integral(0.0) && Integral(1.0);
  }

  /** 0 and 1 are written as single digits. */
  lemma BitCoordText(b: bool)
    ensures CoordText(if b then 1.0 else 0.0) == [Digit(b)]
  {
    if b {
      assert NatText(1) == "1";
    } else {
      assert NatText(0) == "0";
    }
  }

  /** A corner is written as its three digits separated by spaces. */
  lemma CornerText(a: Bits)
    ensures PointText(CornerOf(a)) == CornerLiteral(a)
  {
    var p := CornerOf(a);
    BitCoordText(a.0);
    BitCoordText(a.1);
    BitCoordText(a.2);
    Join3(CoordText(p.x), CoordText(p.y), CoordText(p.z), ' ');
    assert PointText(p) == [Digit(a.0)] + [' '] + [Digit(a.1)] + [' '] + [Digit(a.2)];
    FiveChars(Digit(a.0), ' ', Digit(a.1), ' ', Digit(a.2));
  }

  lemma FiveChars(c0: char, c1: char, c2: char, c3: char, c4: char)
    ensures [c0] + [c1] + [c2] + [c3] + [c4] == [c0, c1, c2, c3, c4]
  {
  }

  /** A triangle is written as its three points separated by commas. */
  lemma TriangleTextShape(t: Triangle3)
    ensures TriangleText(t) == PointText(t.v0) + "," + PointText(t.v1) + "," + PointText(t.v2)
  {
    Join3(PointText(t.v0), PointText(t.v1), PointText(t.v2), ',');
  }

  /** A triangle of corners is written as the corners' digits. */
  lemma CornerTriangleText(c: (Bits, Bits, Bits))
    ensures TriangleText(CornerTriangle(c)) == TriangleLiteral(c)
  {
    CornerText(c.0);
    CornerText(c.1);
    CornerText(c.2);
    TriangleTextShape(CornerTriangle(c));
  }

  /** The text of a triangle of corners parses back to that triangle, and holds no `;`. */
  lemma CornerTriangleParses(c: (Bits, Bits, Bits))
    ensures ParseTriangle(TriangleLiteral(c), ParseF32) == Ok(CornerTriangle(c))
    ensures ';' !in TriangleLiteral(c)
  {
    var t := CornerTriangle(c);
    CornerTriangleText(c);
    assert ParseTriangle(TriangleText(t), ParseF32) == Ok(t) by {
      CornerIntegral(c.0);
      CornerIntegral(c.1);
      CornerIntegral(c.2);
      TriangleRoundTrip(t);
    }
    assert ';' !in TriangleText(t) by {
      TriangleAvoids(t, ';');
    }
  }

  // The pieces of the literal spell the corner table, three pieces at a time.

  lemma PiecesSpellFirstFace()
    ensures forall i :: 0 <= i < 3 ==> CubePieces[i] == TriangleLiteral(CubeCorners[i])
  {
    assert CubePieces[0] == TriangleLiteral(CubeCorners[0]);
    assert CubePieces[1] == TriangleLiteral(CubeCorners[1]);
    assert CubePieces[2] == TriangleLiteral(CubeCorners[2]);
  }

  lemma PiecesSpellSecondFace()
    ensures forall i :: 3 <= i < 6 ==> CubePieces[i] == TriangleLiteral(CubeCorners[i])
  {
    assert CubePieces[3] == TriangleLiteral(CubeCorners[3]);
    assert CubePieces[4] == TriangleLiteral(CubeCorners[4]);
    assert CubePieces[5] == TriangleLiteral(CubeCorners[5]);
  }

  lemma PiecesSpellThirdFace()
    ensures forall i :: 6 <= i < 9 ==> CubePieces[i] == TriangleLiteral(CubeCorners[i])
  {
    assert CubePieces[6] == TriangleLiteral(CubeCorners[6]);
    assert CubePieces[7] == TriangleLiteral(CubeCorners[7]);
    assert CubePieces[8] == TriangleLiteral(CubeCorners[8]);
  }

  lemma PiecesSpellFourthFace()
    ensures forall i :: 9 <= i < 12 ==> CubePieces[i] == TriangleLiteral(CubeCorners[i])
  {
    assert CubePieces[9] == TriangleLiteral(CubeCorners[9]);
    assert CubePieces[10] == TriangleLiteral(CubeCorners[10]);
    assert CubePieces[11] == TriangleLiteral(CubeCorners[11]);
  }

  /** Every piece of the literal is a good triangle, the one the corner table names. */
  lemma CubePiecesParse()
    ensures |CubePieces| == |CubeTriangles()|
    ensures forall i :: 0 <= i < |CubePieces| ==>
      ';' !in CubePieces[i] && ParseTriangle(CubePieces[i], ParseF32) == Ok(CubeTriangles()[i])
  {
    PiecesSpellFirstFace();
    PiecesSpellSecondFace();
    PiecesSpellThirdFace();
    PiecesSpellFourthFace();
    forall i | 0 <= i < |CubePieces|
      ensures ';' !in CubePieces[i] && ParseTriangle(CubePieces[i], ParseF32) == Ok(CubeTriangles()[i])
    {
      CornerTriangleParses(CubeCorners[i]);
    }
  }

  /** The `unwrap` in `get_3d_cube` never panics: the literal parses, to the twelve triangles
      of the corner table. */
  lemma CubeParses()
    ensures ParseMesh(CubeText(), ParseF32) == Ok(Mesh(CubeTriangles()))
  {
    var s := CubeText();
    CubePiecesParse();
    SplitJoin(CubePieces, ';');
    assert s != "" by {
      SplitIsEmptyPiece(s, ';');
    }
    MeshOfTriangles(s, ParseF32, CubePieces, CubeTriangles());
  }

  /** Each coordinate of the point is 0 or 1. */
  predicate UnitCorner(p: Point3)
  {
    (p.x == 0.0 || p.x == 1.0) && (p.y == 0.0 || p.y == 1.0) && (p.z == 0.0 || p.z == 1.0)
  }

  /** The cube has twelve triangles, every coordinate is 0 or 1, and the first triangle is
      (0,0,0), (0,1,0), (1,1,0). */
  lemma CubeShape()
    ensures |CubeTriangles()| == 12
    ensures forall i :: 0 <= i < 12 ==>
      UnitCorner(CubeTriangles()[i].v0) && UnitCorner(CubeTriangles()[i].v1) && UnitCorner(CubeTriangles()[i].v2)
    ensures CubeTriangles()[0] == Triangle3(Point3(0.0, 0.0, 0.0), Point3(0.0, 1.0, 0.0), Point3(1.0, 1.0, 0.0))
  {
  }

  /** `get_3d_cube`: the actor wrapping the mesh parsed from the literal. */
  function Get3dCube(): (a: MeshActor)
    ensures ParseMesh(CubeText(), ParseF32) == Ok(a.mesh)
    ensures a.mesh.triangles == CubeTriangles()
  {
    CubeParses();
    MeshActor(ParseMesh(CubeText(), ParseF32).value)
  }
}

=== FILE: errors.dfy ===
/** The parsing error of a point (`src/geometry/vector/point_parsing_error.rs`). */
module PointParsingErrors {
  import opened Numbers

  datatype PointParsingError = InvalidAxisNumber | InvalidFloat

  /** `message()`, the text that both `Debug` and `Display` write. */
  function Display(e: PointParsingError): string
  {
    match e
    case InvalidAxisNumber => "Invalid number of axis. It must be three."
    case InvalidFloat => "One of the floats of the point is invalid."
  }

  /** `From<ParseFloatError>`: every float failure, whatever its kind, is `InvalidFloat`. */
  function FromParseFloatError(e: ParseFloatError): (r: PointParsingError)
    ensures r != InvalidAxisNumber
  {
    InvalidFloat
  }

  /** The two variants are told apart by their messages. */
  lemma DisplayInjective(a: PointParsingError, b: PointParsingError)
    ensures Display(a) == Display(b) <==> a == b
  {
    var axis := Display(InvalidAxisNumber);
    var float := Display(InvalidFloat);
    assert axis[0] == 'I';
    assert float == "One of the floats of the point is invalid.";
    assert float[0] == 'O';
  }
}

/** The parsing error of a triangle (`src/geometry/triangle/triangle_parsing_error.rs`). */
module TriangleParsingErrors {
  import P = PointParsingErrors

  datatype TriangleParsingError = InvalidPointNumber | InvalidPoint(cause: P.PointParsingError)

  const InvalidPointPrefix: string := "One of the points is invalid. "

  /** `message()`, the text that both `Debug` and `Display` write. */
  function Display(e: TriangleParsingError): string
  {
    match e
    case InvalidPointNumber => "Invalid number of points. It must be three."
    case InvalidPoint(cause) => InvalidPointPrefix + P.Display(cause)
  }

  /** `From<PointParsingError>`: wraps the point error unchanged. */
  function FromPointError(e: P.PointParsingError): (r: TriangleParsingError)
    ensures r.InvalidPoint? && r.cause == e
  {
    InvalidPoint(e)
  }

  /** Different triangle errors, nested point errors included, have different messages. */
  lemma DisplayInjective(a: TriangleParsingError, b: TriangleParsingError)
    ensures Display(a) == Display(b) <==> a == b
  {
    if a != b {
      if a.InvalidPoint? && b.InvalidPoint? {
        var n := |InvalidPointPrefix|;
        assert Display(a)[n..] == P.Display(a.cause);
        assert Display(b)[n..] == P.Display(b.cause);
        P.DisplayInjective(a.cause, b.cause);
      } else {
        var pointMessage := Display(if a.InvalidPoint? then a else b);
        assert pointMessage[0] == 'O' by {
          assert pointMessage[0] == InvalidPointPrefix[0];
        }
        assert Display(InvalidPointNumber)[0] == 'I';
      }
    }
  }
}

/** The mesh-level error (`src/geometry/geometry_error.rs`). */
module GeometryErrors {
  import T = TriangleParsingErrors

  datatype GeometryError =
    | InvalidMesh
    | InvalidPoint(triangleError: T.TriangleParsingError)
    | InvalidTriangle(triangleError: T.TriangleParsingError)
    | MissingValue(line: string)
    | WrongNumber(line: string)

  const TrianglePrefix: string := "Invalid triangle: "
  const MissingValuePrefix: string := "Missing value on line: "
  const WrongNumberPrefix: string := "Invalid number on line: "

  /** `message()`, the text that both `Debug` and `Display` write. */
  function Display(e: GeometryError): string
  {
    match e
    case InvalidMesh => "Invalid mesh. At least one triangle is required."
    case InvalidPoint(t) => TrianglePrefix + T.Display(t)
    case InvalidTriangle(t) => TrianglePrefix + T.Display(t)
    case MissingValue(line) => MissingValuePrefix + line
    case WrongNumber(line) => WrongNumberPrefix + line
  }

  /** `From<TriangleParsingError>`: keeps the whole triangle error; the variant says
      whether a point or the point count was at fault. */
  function FromTriangleError(e: T.TriangleParsingError): (r: GeometryError)
    ensures r.InvalidPoint? <==> e.InvalidPoint?
    ensures r.InvalidTriangle? <==> e.InvalidPointNumber?
    ensures (r.InvalidPoint? || r.InvalidTriangle?) && r.triangleError == e
  {
    match e
    case InvalidPoint(_) => InvalidPoint(e)
    case InvalidPointNumber => InvalidTriangle(e)
  }

  /** The messages of both triangle variants start with the same prefix and end with the
      nested error's message; line errors end with the line itself. */
  lemma DisplayStructure(e: GeometryError)
    ensures (e.InvalidPoint? || e.InvalidTriangle?) ==>
      |Display(e)| >= |TrianglePrefix| && Display(e)[..|TrianglePrefix|] == TrianglePrefix
      && Display(e)[|TrianglePrefix|..] == T.Display(e.triangleError)
    ensures e.MissingValue? ==> Display(e)[|MissingValuePrefix|..] == e.line
    ensures e.WrongNumber? ==> Display(e)[|WrongNumberPrefix|..] == e.line
  {
  }

  /** A converted triangle error keeps enough in its message to recover the triangle error. */
  lemma ConvertedDisplayInjective(a: T.TriangleParsingError, b: T.TriangleParsingError)
    ensures Display(FromTriangleError(a)) == Display(FromTriangleError(b)) <==> a == b
  {
    var n := |TrianglePrefix|;
    if Display(FromTriangleError(a)) == Display(FromTriangleError(b)) {
      assert Display(FromTriangleError(a))[n..] == T.Display(a);
      assert Display(FromTriangleError(b))[n..] == T.Display(b);
      T.DisplayInjective(a, b);
    }
  }
}

=== FILE: format.dfy ===
/** The mesh text format written out: the inverse of the parsers, for meshes whose
    coordinates are whole numbers (the only ones with an exact decimal text of this kind). */
module MeshFormat {
  import opened Wrappers
  import opened Text
  import opened Numbers
  import opened Vector
  import opened Geometry
  import opened Parsing

  /** Decimal text of an integer: digits, with a leading `-` when negative. */
  function IntText(i: int): (s: string)
    ensures ParseF32(s) == Ok(i as real)
    ensures forall k :: 0 <= k < |s| ==> s[k] == '-' || IsDigit(s[k])
  {
    NatTextRoundTrip(if i < 0 then -i else i);
    if i < 0 then "-" + NatText(-i) else NatText(i)
  }

  predicate Integral(r: real) { r.Floor as real == r }

  predicate IntegralPoint(p: Point3) { Integral(p.x) && Integral(p.y) && Integral(p.z) }

  predicate IntegralTriangle(t: Triangle3) { IntegralPoint(t.v0) && IntegralPoint(t.v1) && IntegralPoint(t.v2) }

  function CoordText(r: real): (s: string)
    ensures Integral(r) ==> ParseF32(s) == Ok(r)
    ensures forall k :: 0 <= k < |s| ==> s[k] == '-' || IsDigit(s[k])
  {
    IntText(r.Floor)
  }

  /** `x y z`. */
  function PointText(p: Point3): string
  {
    Join([CoordText(p.x), CoordText(p.y), CoordText(p.z)], ' ')
  }

  /** `p0,p1,p2`. */
  function TriangleText(t: Triangle3): string
  {
    Join([PointText(t.v0), PointText(t.v1), PointText(t.v2)], ',')
  }

  /** `t0;t1;...`. */
  function MeshText(m: Mesh): string
  {
    Join(TriangleTexts(m.triangles), ';')
  }

  function TriangleTexts(ts: seq<Triangle3>): (r: seq<string>)
    ensures |r| == |ts|
    ensures forall i :: 0 <= i < |ts| ==> r[i] == TriangleText(ts[i])
  {
    seq(|ts|, i requires 0 <= i < |ts| => TriangleText(ts[i]))
  }

  /** Only digits and `-` appear in a coordinate's text. */
  lemma CoordAvoids(r: real, c: char)
    requires c != '-' && !IsDigit(c)
    ensures c !in CoordText(r)
  {
  }

  /** Only digits, `-` and spaces appear in a point's text. */
  lemma PointAvoids(p: Point3, c: char)
    requires c != '-' && !IsDigit(c) && c != ' '
    ensures c !in PointText(p)
  {
    var coords := [CoordText(p.x), CoordText(p.y), CoordText(p.z)];
    assert forall i :: 0 <= i < 3 ==> c !in coords[i] by {
      CoordAvoids(p.x, c);
      CoordAvoids(p.y, c);
      CoordAvoids(p.z, c);
    }
    JoinAvoids(coords, ' ', c);
  }

  /** None of a triangle's three point texts holds a character other than digits, `-` and
      spaces. */
  lemma PointTextsAvoid(t: Triangle3, c: char)
    requires c != '-' && !IsDigit(c) && c != ' '
    ensures forall i :: 0 <= i < 3 ==> c !in [PointText(t.v0), PointText(t.v1), PointText(t.v2)][i]
  {
    var points := [PointText(t.v0), PointText(t.v1), PointText(t.v2)];
    forall i | 0 <= i < 3 ensures c !in points[i] {
      if i == 0 {
        PointAvoids(t.v0, c);
      } else if i == 1 {
        PointAvoids(t.v1, c);
      } else {
        PointAvoids(t.v2, c);
      }
    }
  }

  /** Only digits, `-`, spaces and commas appear in a triangle's text. */
  lemma TriangleAvoids(t: Triangle3, c: char)
    requires c != '-' && !IsDigit(c) && c != ' ' && c != ','
    ensures c !in TriangleText(t)
  {
    PointTextsAvoid(t, c);
    JoinAvoids([PointText(t.v0), PointText(t.v1), PointText(t.v2)], ',', c);
  }

  /** Parsing a written point gives the point back. */
  lemma PointRoundTrip(p: Point3)
    requires IntegralPoint(p)
    ensures ParsePoint(PointText(p), ParseF32) == Ok(p)
  {
    var coords := [CoordText(p.x), CoordText(p.y), CoordText(p.z)];
    CoordAvoids(p.x, ' ');
    CoordAvoids(p.y, ' ');
    CoordAvoids(p.z, ' ');
    SplitJoin(coords, ' ');
    PointOfTokens(PointText(p), ParseF32, coords, p);
  }

  /** The three point texts of a triangle each parse to their vertex. */
  lemma TrianglePointTexts(t: Triangle3) returns (points: seq<string>)
    requires IntegralTriangle(t)
    ensures points == [PointText(t.v0), PointText(t.v1), PointText(t.v2)]
    ensures ParsePoint(points[0], ParseF32) == Ok(t.v0)
    ensures ParsePoint(points[1], ParseF32) == Ok(t.v1)
    ensures ParsePoint(points[2], ParseF32) == Ok(t.v2)
  {
    points := [PointText(t.v0), PointText(t.v1), PointText(t.v2)];
    PointRoundTrip(t.v0);
    PointRoundTrip(t.v1);
    PointRoundTrip(t.v2);
  }

  /** Parsing a written triangle gives the triangle back. */
  lemma TriangleRoundTrip(t: Triangle3)
    requires IntegralTriangle(t)
    ensures ParseTriangle(TriangleText(t), ParseF32) == Ok(t)
  {
    var points := TrianglePointTexts(t);
    PointTextsAvoid(t, ',');
    SplitJoin(points, ',');
    TriangleOfPoints(TriangleText(t), ParseF32, points, t);
  }

  /** Parsing a written, non-empty mesh gives the mesh back: the triangle count, the order and
      every coordinate survive. */
  lemma MeshRoundTrip(m: Mesh)
    requires |m.triangles| >= 1
    requires forall i :: 0 <= i < |m.triangles| ==> IntegralTriangle(m.triangles[i])
    ensures ParseMesh(MeshText(m), ParseF32) == Ok(m)
  {
    var texts := TriangleTexts(m.triangles);
    var s := MeshText(m);
    assert Split(s, ';') == texts by {
      forall i | 0 <= i < |texts| ensures ';' !in texts[i] {
        TriangleAvoids(m.triangles[i], ';');
      }
      SplitJoin(texts, ';');
    }
    assert forall i :: 0 <= i < |texts| ==> ParseTriangle(texts[i], ParseF32) == Ok(m.triangles[i]) by {
      forall i | 0 <= i < |texts| ensures ParseTriangle(texts[i], ParseF32) == Ok(m.triangles[i]) {
        TriangleRoundTrip(m.triangles[i]);
      }
    }
    assert s != "" by {
      var t := m.triangles[0];
      assert |texts[0]| > 0 by {
        assert texts[0] == PointText(t.v0) + [','] + Join([PointText(t.v1), PointText(t.v2)], ',');
      }
      SplitIsEmptyPiece(s, ';');
    }
    MeshOfTriangles(s, ParseF32, texts, m.triangles);
  }
}

=== FILE: frames.dfy ===
/** RGBA frame buffers: a flat byte sequence read as 4-byte pixels, as
    `frame.chunks_exact_mut(4).enumerate()` does. */
module Frames {

  type Byte = b: int | 0 <= b < 256

  /** One pixel's red, green, blue and alpha bytes. */
  type Rgba = s: seq<Byte> | |s| == 4 witness [0, 0, 0, 0]

  const Transparent: Rgba := [0x00, 0x00, 0x00, 0x00]

  /** The number of whole pixels in a frame; trailing bytes that do not fill a pixel are
      not visited. */
  function Pixels(frame: seq<Byte>): nat
  {
    |frame| / 4
  }

  /** The frame after every whole pixel `i` is overwritten with `pixel(i)`. */
  predicate Painted(frame: seq<Byte>, out: seq<Byte>, pixel: nat --> Rgba)
    requires forall i :: 0 <= i < Pixels(frame) ==> pixel.requires(i)
  {
    && |out| == |frame|
    && (forall k :: 0 <= k < Pixels(frame) * 4 ==> out[k] == pixel(k / 4)[k % 4])
    && (forall k :: Pixels(frame) * 4 <= k < |frame| ==> out[k] == frame[k])
  }

  /** Visits the whole pixels in order and writes each one's colour; trailing bytes are left
      as they were. */
  method FillFrame(frame: seq<Byte>, pixel: nat --> Rgba) returns (out: seq<Byte>)
    requires forall i :: 0 <= i < Pixels(frame) ==> pixel.requires(i)
    ensures Painted(frame, out, pixel)
  {
    var n := Pixels(frame);
    out := [];
    var i := 0;
    while i < n
      invariant 0 <= i <= n
      invariant |out| == 4 * i
      invariant forall k :: 0 <= k < |out| ==> out[k] == pixel(k / 4)[k % 4]
    {
      var c := pixel(i);
      out := out + c;
      i := i + 1;
    }
    out := out + frame[4 * n..];
  }

  /** The colour a painted frame holds at a whole pixel. */
  lemma PaintedPixel(frame: seq<Byte>, out: seq<Byte>, pixel: nat --> Rgba, i: nat)
    requires forall j :: 0 <= j < Pixels(frame) ==> pixel.requires(j)
    requires Painted(frame, out, pixel) && i < Pixels(frame)
    ensures out[4 * i..4 * i + 4] == pixel(i)
  {
    forall c | 0 <= c < 4 ensures out[4 * i + c] == pixel(i)[c] {
      assert (4 * i + c) / 4 == i && (4 * i + c) % 4 == c;
    }
  }
}

=== FILE: geometry.dfy ===
/** Triangles and meshes: the by-value `Triangle3`, the array-backed `Triangle` of
    `triangle_shape.rs`, the vertex-sharing `Triangle` of `triangle/mod.rs` (as indices into a
    vertex arena), and the projections of points and triangles onto the screen. */
module Geometry {
  import opened Wrappers
  import opened Vector
  import opened Matrix
  import Builders

  datatype Triangle3 = Triangle3(v0: Point3, v1: Point3, v2: Point3)

  datatype Triangle2 = Triangle2(p0: Point2, p1: Point2, p2: Point2)

  /** A mesh: triangles in the order the text lists them. */
  datatype Mesh = Mesh(triangles: seq<Triangle3>)

  /** The two-argument `get_projection` the mesh actor calls: offset z, then multiply; the
      result keeps its z. */
  function ProjectNdc(p: Point3, m: Matrix4, offset: real): Point3
  {
    VectorDotMatrix(ApplyOffset(p, offset), m)
  }

  /** `Point3::get_projection` (four arguments): the NDC projection with z dropped, mapped
      to a `width` x `height` screen. */
  function PointProjection(p: Point3, m: Matrix4, offset: real, width: real, height: real): Point2
  {
    var n := ProjectNdc(p, m, offset);
    Project(Point2(n.x, n.y), width, height)
  }

  /** The offset acts on z alone: projecting with an offset is projecting the shifted point. */
  lemma OffsetIsShiftAlongZ(p: Point3, m: Matrix4, offset: real, width: real, height: real)
    ensures PointProjection(p, m, offset, width, height) == PointProjection(ApplyOffset(p, offset), m, 0.0, width, height)
    ensures ProjectNdc(p, m, offset) == ProjectNdc(ApplyOffset(p, offset), m, 0.0)
  {
  }

  /** Where a point at depth `z = p.z + offset` lands through a matrix laid out as `build`
      lays it out: x and y are scaled by `a` and `f` and divided by the depth, z becomes
      `(c z + d) / z`; at depth zero `w` is zero and nothing is divided. */
  function NdcClosedForm(p: Point3, offset: real, a: real, f: real, c: real, d: real): Point3
  {
    var z := p.z + offset;
    if z != 0.0 then Point3(a * p.x / z, f * p.y / z, (c * z + d) / z) else Point3(a * p.x, f * p.y, d)
  }

  /** The two-argument projection through any projection-shaped matrix is the closed form. */
  lemma NdcOfShape(p: Point3, offset: real, m: Matrix4, a: real, f: real, c: real, d: real)
    requires Builders.ProjectionShaped(m, a, f, c, d)
    ensures ProjectNdc(p, m, offset) == NdcClosedForm(p, offset, a, f, c, d)
  {
    var v := ApplyOffset(p, offset);
    assert v == Point3(p.x, p.y, p.z + offset);
    assert W(v, m) == v.z;
    assert Homogeneous(v, m, 0) == a * p.x;
    assert Homogeneous(v, m, 1) == f * p.y;
    assert Homogeneous(v, m, 2) == c * v.z + d;
  }

  /** The two-argument projection through a built matrix, with `a = aspect * fov_rad`,
      `f = fov_rad`, `c = view_limit * distance` and `d = -view_limit * screen_position / distance`:
      a point at depth `z = p.z + offset` lands at `(a x / z, f y / z, (c z + d) / z)`, and at
      `(a x, f y, d)` when `z` is zero. */
  lemma NdcThroughBuild(p: Point3, b: Builders.ProjectionMatrixBuilder, lib: MathLib, offset: real, a: real, f: real, c: real, d: real)
    requires Builders.CanBuild(b, lib.pi, lib.tan)
    requires a == Builders.XScale(b, lib.pi, lib.tan) && f == Builders.FovRad(b.fov, lib.pi, lib.tan)
    requires c == Builders.DepthScale(b) && d == Builders.DepthShift(b)
    ensures ProjectNdc(p, Builders.Build(b, lib), offset) == NdcClosedForm(p, offset, a, f, c, d)
  {
    NdcOfShape(p, offset, Builders.Build(b, lib), a, f, c, d);
  }

  /** Where a point at depth `z = p.z + offset` other than zero lands on a `width` x `height`
      screen through a matrix laid out as `build` lays it out: the NDC point `(a x / z, f y / z)`
      mapped to the screen, that is `((a x / z + 1) width / 2, (f y / z + 1) height / 2)`. */
  function ScreenClosedForm(p: Point3, offset: real, a: real, f: real, width: real, height: real): Point2
    requires p.z + offset != 0.0
  {
    var z := p.z + offset;
    Project(Point2(a * p.x / z, f * p.y / z), width, height)
  }

  /** The four-argument projection through any projection-shaped matrix is the closed form. */
  lemma PointProjectionOfShape(p: Point3, offset: real, m: Matrix4, a: real, f: real, c: real, d: real, width: real, height: real)
    requires Builders.ProjectionShaped(m, a, f, c, d)
    requires p.z + offset != 0.0
    ensures PointProjection(p, m, offset, width, height) == ScreenClosedForm(p, offset, a, f, width, height)
  {
    var z := p.z + offset;
    var q := Point2(a * p.x / z, f * p.y / z);
    NdcOfShape(p, offset, m, a, f, c, d);
    NdcClosedFormAwayFromZero(p, offset, a, f, c, d);
    var n := ProjectNdc(p, m, offset);
    assert Point2(n.x, n.y) == q;
    ProjectCongruent(Point2(n.x, n.y), q, width, height);
  }

  /** Equal NDC points land on the same screen point. */
  lemma ProjectCongruent(u: Point2, v: Point2, width: real, height: real)
    requires u == v
    ensures Project(u, width, height) == Project(v, width, height)
  {
  }

  /** Away from depth zero, the closed form's x and y are the scaled coordinates divided by
      the depth. */
  lemma NdcClosedFormAwayFromZero(p: Point3, offset: real, a: real, f: real, c: real, d: real)
    requires p.z + offset != 0.0
    ensures NdcClosedForm(p, offset, a, f, c, d).x == a * p.x / (p.z + offset)
    ensures NdcClosedForm(p, offset, a, f, c, d).y == f * p.y / (p.z + offset)
  {
  }

  /** The four-argument projection through a built matrix, with `a = aspect * fov_rad` and
      `f = fov_rad`: a point at a depth `z = p.z + offset` other than zero lands at
      `((a x / z + 1) width / 2, (f y / z + 1) height / 2)`. */
  lemma PointProjectionThroughBuild(p: Point3, b: Builders.ProjectionMatrixBuilder, lib: MathLib, offset: real, width: real, height: real, a: real, f: real)
    requires Builders.CanBuild(b, lib.pi, lib.tan)
    requires a == Builders.XScale(b, lib.pi, lib.tan) && f == Builders.FovRad(b.fov, lib.pi, lib.tan)
    requires p.z + offset != 0.0
    ensures PointProjection(p, Builders.Build(b, lib), offset, width, height) == ScreenClosedForm(p, offset, a, f, width, height)
  {
    PointProjectionOfShape(p, offset, Builders.Build(b, lib), a, f, Builders.DepthScale(b), Builders.DepthShift(b), width, height);
  }

  /** The two-argument triangle projection through a built matrix: each vertex lands at its
      own closed form. */
  lemma TriangleNdcThroughBuild(t: Triangle3, b: Builders.ProjectionMatrixBuilder, lib: MathLib, offset: real, a: real, f: real, c: real, d: real)
    requires Builders.CanBuild(b, lib.pi, lib.tan)
    requires a == Builders.XScale(b, lib.pi, lib.tan) && f == Builders.FovRad(b.fov, lib.pi, lib.tan)
    requires c == Builders.DepthScale(b) && d == Builders.DepthShift(b)
    ensures TriangleNdc(t, Builders.Build(b, lib), offset) == Triangle3(
      NdcClosedForm(t.v0, offset, a, f, c, d), NdcClosedForm(t.v1, offset, a, f, c, d), NdcClosedForm(t.v2, offset, a, f, c, d))
  {
    NdcOfShape(t.v0, offset, Builders.Build(b, lib), a, f, c, d);
    NdcOfShape(t.v1, offset, Builders.Build(b, lib), a, f, c, d);
    NdcOfShape(t.v2, offset, Builders.Build(b, lib), a, f, c, d);
  }

  /** The four-argument triangle projection through a built matrix: when no vertex sits at
      depth zero, each lands at its own screen closed form. */
  lemma TriangleProjectionThroughBuild(t: Triangle3, b: Builders.ProjectionMatrixBuilder, lib: MathLib, offset: real, width: real, height: real, a: real, f: real)
    requires Builders.CanBuild(b, lib.pi, lib.tan)
    requires a == Builders.XScale(b, lib.pi, lib.tan) && f == Builders.FovRad(b.fov, lib.pi, lib.tan)
    requires t.v0.z + offset != 0.0 && t.v1.z + offset != 0.0 && t.v2.z + offset != 0.0
    ensures TriangleProjection(t, Builders.Build(b, lib), offset, width, height) == Triangle2(
      ScreenClosedForm(t.v0, offset, a, f, width, height),
      ScreenClosedForm(t.v1, offset, a, f, width, height),
      ScreenClosedForm(t.v2, offset, a, f, width, height))
  {
    var m := Builders.Build(b, lib);
    PointProjectionOfShape(t.v0, offset, m, a, f, Builders.DepthScale(b), Builders.DepthShift(b), width, height);
    PointProjectionOfShape(t.v1, offset, m, a, f, Builders.DepthScale(b), Builders.DepthShift(b), width, height);
    PointProjectionOfShape(t.v2, offset, m, a, f, Builders.DepthScale(b), Builders.DepthShift(b), width, height);
  }

  /** The unnormalised normal `(v1 - v0) x (v2 - v0)`. */
  function RawNormal(t: Triangle3): (n: Point3)
    ensures Dot(n, Sub(t.v1, t.v0)) == 0.0 && Dot(n, Sub(t.v2, t.v0)) == 0.0
  {
    CrossOrthogonal(Sub(t.v1, t.v0), Sub(t.v2, t.v0));
    Cross(Sub(t.v1, t.v0), Sub(t.v2, t.v0))
  }

  /** `Triangle3::normal`: the normalised `RawNormal`; `None` is the NaN vector of a
      degenerate triangle. */
  function Normal(t: Triangle3, lib: MathLib): (r: Option<Point3>)
    ensures r.None? <==> Module(RawNormal(t), lib) == 0.0
    ensures r.Some? ==> Scale(r.value, Module(RawNormal(t), lib)) == RawNormal(t)
  {
    Normalize(Cross(Sub(t.v1, t.v0), Sub(t.v2, t.v0)), lib)
  }

  /** Swapping the last two vertices reverses the winding and so the normal. */
  lemma WindingFlipsNormal(t: Triangle3)
    ensures RawNormal(Triangle3(t.v0, t.v2, t.v1)) == Scale(RawNormal(t), -1.0)
  {
  }

  /** `plain_component`: a point of the triangle's plane, namely a copy of vertex 0. */
  function PlainComponent(t: Triangle3): (p: Point3)
    ensures Dot(RawNormal(t), Sub(p, t.v0)) == 0.0
    ensures p == t.v0
  {
    t.v0
  }

  /** `Triangle3::rotate`: each vertex is replaced by its own product with the matrix. */
  function Rotate(t: Triangle3, m: Matrix4): (r: Triangle3)
    ensures r.v0 == VectorDotMatrix(t.v0, m)
    ensures r.v1 == VectorDotMatrix(t.v1, m)
    ensures r.v2 == VectorDotMatrix(t.v2, m)
  {
    Triangle3(
      Update(t.v0, Triple(VectorDotMatrix(t.v0, m))),
      Update(t.v1, Triple(VectorDotMatrix(t.v1, m))),
      Update(t.v2, Triple(VectorDotMatrix(t.v2, m))))
  }

  function Triple(p: Point3): (real, real, real)
  {
    (p.x, p.y, p.z)
  }

  /** Rotating by the identity leaves the triangle where it was. */
  lemma RotateByIdentity(t: Triangle3)
    ensures Rotate(t, Identity()) == t
  {
    IdentityIsNeutral(t.v0);
    IdentityIsNeutral(t.v1);
    IdentityIsNeutral(t.v2);
  }

  /** `Triangle3::get_projection` as the triangle test calls it, with four arguments: each
      vertex projected on its own by `Point3::get_projection`. */
  function TriangleProjection(t: Triangle3, m: Matrix4, offset: real, width: real, height: real): Triangle2
  {
    Triangle2(
      PointProjection(t.v0, m, offset, width, height),
      PointProjection(t.v1, m, offset, width, height),
      PointProjection(t.v2, m, offset, width, height))
  }

  /** The two-argument triangle projection, each vertex through `ProjectNdc`. */
  function TriangleNdc(t: Triangle3, m: Matrix4, offset: real): Triangle3
  {
    Triangle3(ProjectNdc(t.v0, m, offset), ProjectNdc(t.v1, m, offset), ProjectNdc(t.v2, m, offset))
  }

  /** The array-backed triangle of `triangle_shape.rs`: always exactly three points. */
  type ThreePoints = s: seq<Point3> | |s| == 3
    witness [Point3(0.0, 0.0, 0.0), Point3(0.0, 0.0, 0.0), Point3(0.0, 0.0, 0.0)]

  datatype TriangleShape = TriangleShape(points: ThreePoints)

  /** `Triangle::new`: the tuples become points 0, 1, 2 in argument order. */
  function NewTriangleShape(a: (real, real, real), b: (real, real, real), c: (real, real, real)): (r: TriangleShape)
    ensures Triple(r.points[0]) == a && Triple(r.points[1]) == b && Triple(r.points[2]) == c
  {
    TriangleShape([Point3(a.0, a.1, a.2), Point3(b.0, b.1, b.2), Point3(c.0, c.1, c.2)])
  }

  /** The same three points as a by-value triangle. */
  function ShapeOf(t: Triangle3): (r: TriangleShape)
    ensures r.points[0] == t.v0 && r.points[1] == t.v1 && r.points[2] == t.v2
  {
    TriangleShape([t.v0, t.v1, t.v2])
  }

  /** The vertex-sharing triangle of `triangle/mod.rs`: three indices into a vertex arena, so
      triangles that name the same vertex see the same coordinates. */
  datatype TriangleRef = TriangleRef(i0: nat, i1: nat, i2: nat)

  predicate ValidRef(arena: seq<Point3>, t: TriangleRef)
  {
    t.i0 < |arena| && t.i1 < |arena| && t.i2 < |arena|
  }

  /** The by-value triangle a reference triangle currently denotes. */
  function Resolve(arena: seq<Point3>, t: TriangleRef): Triangle3
    requires ValidRef(arena, t)
  {
    Triangle3(arena[t.i0], arena[t.i1], arena[t.i2])
  }

  /** `Triangle::normal` on shared vertices: the same value as the by-value normal. */
  function NormalRef(arena: seq<Point3>, t: TriangleRef, lib: MathLib): (r: Option<Point3>)
    requires ValidRef(arena, t)
    ensures r == Normal(Resolve(arena, t), lib)
  {
    var a := arena[t.i0];
    Normalize(Cross(Sub(arena[t.i1], a), Sub(arena[t.i2], a)), lib)
  }

  /** `Triangle::plain_component`: the shared vertex 0 itself, i.e. its arena index. */
  function PlainComponentRef(arena: seq<Point3>, t: TriangleRef): (i: nat)
    requires ValidRef(arena, t)
    ensures i < |arena| && arena[i] == PlainComponent(Resolve(arena, t))
    ensures i == t.i0
  {
    t.i0
  }

  /** Vertices are shared: after vertex `i` of the arena is overwritten, every triangle that
      names `i` sees the new coordinates in that corner, and the other corners are unchanged. */
  lemma SharedVertexSeenByAll(arena: seq<Point3>, i: nat, p: Point3, t: TriangleRef)
    requires ValidRef(arena, t) && i < |arena|
    ensures ValidRef(arena[i := p], t)
    ensures var r := Resolve(arena[i := p], t);
      (r.v0 == if t.i0 == i then p else arena[t.i0]) &&
      (r.v1 == if t.i1 == i then p else arena[t.i1]) &&
      (r.v2 == if t.i2 == i then p else arena[t.i2])
  {
  }
}

=== FILE: geometry_examples.dfy ===
/** The projection and normal tests of `point3.rs`, `triangle3.rs`, `triangle/mod.rs` and
    `vector_matrix_multiplication.rs`. The tests compare floats within a tolerance and take
    tan(π/4) to be 1; here the tangent is a hypothesis and the values are exact. */
module GeometryExamples {
  import opened Wrappers
  import opened Vector
  import opened Matrix
  import opened Builders
  import opened Geometry

  /** The builder the projection tests configure: a 1 × 1 screen, a 90-degree field of view,
      view limit 2 and screen position 1. */
  function TestBuilder(): (b: ProjectionMatrixBuilder)
    ensures b == ProjectionMatrixBuilder(1.0, 2.0, 90.0, 1, 1)
  {
    NewProjectionBuilder().SetHeight(1).SetWidth(1).SetFov(90.0).SetViewLimit(2.0).SetScreenPosition(1.0)
  }

  /** With tan of the half field of view equal to 1, the test matrix keeps x and y of a point
      at depth 1 and sends its z to 0. */
  lemma TestMatrixAtDepthOne(pi: real, tan: real -> real, v: Point3)
    requires tan(HalfFovRadians(90.0, pi)) == 1.0
    requires v.z == 1.0
    ensures CanBuild(TestBuilder(), pi, tan)
    ensures VectorDotMatrix(v, BuildWithPi(TestBuilder(), pi, tan)) == Point3(v.x, v.y, 0.0)
  {
    var b := TestBuilder();
    var m := BuildWithPi(b, pi, tan);
    assert FovRad(b.fov, pi, tan) == 1.0;
    assert m[0][0] == 1.0 && m[1][1] == 1.0 && m[2][2] == 2.0 && m[3][2] == -2.0 && m[2][3] == 1.0;
    assert !IsProjectionEntry(1, 0) && !IsProjectionEntry(2, 0) && !IsProjectionEntry(3, 0);
    assert !IsProjectionEntry(0, 1) && !IsProjectionEntry(2, 1) && !IsProjectionEntry(3, 1);
    assert !IsProjectionEntry(0, 2) && !IsProjectionEntry(1, 2);
    assert !IsProjectionEntry(0, 3) && !IsProjectionEntry(1, 3) && !IsProjectionEntry(3, 3);
    assert W(v, m) == 1.0;
  }

  /** `vector_matrix_multiplication`: (1, 1, 1) goes to (1, 1, 0). The test builds its matrix
      with an external builder of the same layout; the engine's own builder stands in. */
  lemma VectorMatrixFixture(lib: MathLib)
    requires lib.tan(HalfFovRadians(90.0, lib.pi)) == 1.0
    ensures CanBuild(TestBuilder(), lib.pi, lib.tan)
    ensures VectorDotMatrix(Point3(1.0, 1.0, 1.0), Build(TestBuilder(), lib)) == Point3(1.0, 1.0, 0.0)
  {
    TestMatrixAtDepthOne(lib.pi, lib.tan, Point3(1.0, 1.0, 1.0));
  }

  /** `Point3::get_projection`: (1, 1, 0) with offset 1, through the legacy builder's matrix,
      lands within the test's 0.001 of (240, 480) on a 240 × 480 screen. The legacy π makes the
      half field of view slightly less than π/4, so the tangent is not exactly 1 (it is about
      0.9999987); any tangent within 2·10⁻⁶ of 1 is close enough. */
  lemma PointProjectionFixture(lib: MathLib)
    requires 0.999998 < lib.tan(HalfFovRadians(90.0, LegacyPi)) < 1.000002
    ensures CanBuild(TestBuilder(), LegacyPi, lib.tan)
    ensures var r := PointProjection(Point3(1.0, 1.0, 0.0), LegacyBuild(TestBuilder(), lib), 1.0, 240.0, 480.0);
      -0.001 < r.x - 240.0 < 0.001 && -0.001 < r.y - 480.0 < 0.001
  {
    var b := TestBuilder();
    var t := lib.tan(HalfFovRadians(90.0, LegacyPi));
    var f := FovRad(b.fov, LegacyPi, lib.tan);
    assert f * t == 1.0;
    QuotientBounds(f, t, 1.0, 0.999997, 1.000003);
    assert XScale(b, LegacyPi, lib.tan) == f;
    LegacyBuildIsBuildWithLegacyPi(b, lib);
    PointProjectionThroughBuild(Point3(1.0, 1.0, 0.0), b, lib.(pi := LegacyPi), 1.0, 240.0, 480.0, f, f);
  }

  /** `Triangle3::get_projection`: the three vertices land at (240, 480), (0, 0) and
      (120, 360). */
  lemma TriangleProjectionFixture(lib: MathLib)
    requires lib.tan(HalfFovRadians(90.0, lib.pi)) == 1.0
    ensures CanBuild(TestBuilder(), lib.pi, lib.tan)
    ensures TriangleProjection(
        Triangle3(Point3(1.0, 1.0, 0.0), Point3(-1.0, -1.0, 0.0), Point3(0.0, 0.5, 0.0)),
        Build(TestBuilder(), lib), 1.0, 240.0, 480.0) ==
      Triangle2(Point2(240.0, 480.0), Point2(0.0, 0.0), Point2(120.0, 360.0))
  {
    TestMatrixAtDepthOne(lib.pi, lib.tan, Point3(1.0, 1.0, 1.0));
    TestMatrixAtDepthOne(lib.pi, lib.tan, Point3(-1.0, -1.0, 1.0));
    TestMatrixAtDepthOne(lib.pi, lib.tan, Point3(0.0, 0.5, 1.0));
  }

  /** The normal test's triangle (0,0,0), (3,2,1), (1,2,3). */
  const NormalTestTriangle: Triangle3 := Triangle3(Point3(0.0, 0.0, 0.0), Point3(3.0, 2.0, 1.0), Point3(1.0, 2.0, 3.0))

  /** Its unnormalised normal is (4, -8, 4); normalised with a square root of 96 between 9.79
      and 9.80 (every positive root is, by `SquareRootOf96`), each coordinate is within 0.01
      of the test's (0.41, -0.82, 0.41). */
  lemma NormalFixture(lib: MathLib)
    requires 9.79 < lib.sqrt(96.0) < 9.80
    ensures RawNormal(NormalTestTriangle) == Point3(4.0, -8.0, 4.0)
    ensures Normal(NormalTestTriangle, lib).Some?
    ensures var n := Normal(NormalTestTriangle, lib).value;
      && 0.40 < n.x < 0.42 && -0.83 < n.y < -0.81 && 0.40 < n.z < 0.42
  {
    RawNormalFixture();
    NormalOfRawNormal(NormalTestTriangle, lib);
  }

  /** The normalised coordinates of any triangle whose raw normal is (4, -8, 4). */
  lemma NormalOfRawNormal(t: Triangle3, lib: MathLib)
    requires RawNormal(t) == Point3(4.0, -8.0, 4.0) && 9.79 < lib.sqrt(96.0) < 9.80
    ensures Normal(t, lib).Some?
    ensures var n := Normal(t, lib).value;
      && 0.40 < n.x < 0.42 && -0.83 < n.y < -0.81 && 0.40 < n.z < 0.42
  {
    NormalScales(t, lib);
    NormalBounds(Normal(t, lib).value, lib.sqrt(96.0));
  }

  /** A triangle whose raw normal is (4, -8, 4) has that normal scaled down by the square
      root of 96. */
  lemma NormalScales(t: Triangle3, lib: MathLib)
    requires RawNormal(t) == Point3(4.0, -8.0, 4.0) && lib.sqrt(96.0) != 0.0
    ensures Normal(t, lib).Some?
    ensures Scale(Normal(t, lib).value, lib.sqrt(96.0)) == Point3(4.0, -8.0, 4.0)
  {
    var raw := RawNormal(t);
    assert Dot(raw, raw) == 96.0;
    assert Module(raw, lib) == lib.sqrt(96.0);
  }

  lemma RawNormalFixture()
    ensures RawNormal(NormalTestTriangle) == Point3(4.0, -8.0, 4.0)
    ensures Dot(RawNormal(NormalTestTriangle), RawNormal(NormalTestTriangle)) == 96.0
  {
    var t := NormalTestTriangle;
    assert t.v0 == Point3(0.0, 0.0, 0.0) && t.v1 == Point3(3.0, 2.0, 1.0) && t.v2 == Point3(1.0, 2.0, 3.0);
    var a := Sub(t.v1, t.v0);
    var b := Sub(t.v2, t.v0);
    assert a == Point3(3.0, 2.0, 1.0) && b == Point3(1.0, 2.0, 3.0);
    assert Cross(a, b) == Point3(4.0, -8.0, 4.0);
  }

  /** A vector that scales by a length between 9.79 and 9.80 to (4, -8, 4). */
  lemma NormalBounds(n: Point3, m: real)
    requires 9.79 < m < 9.80 && Scale(n, m) == Point3(4.0, -8.0, 4.0)
    ensures 0.40 < n.x < 0.42 && -0.83 < n.y < -0.81 && 0.40 < n.z < 0.42
  {
    assert n.x * m == 4.0 && n.y * m == -8.0 && n.z * m == 4.0;
    QuotientBounds(n.x, m, 4.0, 0.40, 0.42);
    QuotientBounds(n.y, m, -8.0, -0.83, -0.81);
    QuotientBounds(n.z, m, 4.0, 0.40, 0.42);
  }

  /** The positive square root of 96 lies between 9.79 and 9.80. */
  lemma SquareRootOf96(m: real)
    requires m > 0.0 && m * m == 96.0
    ensures 9.79 < m < 9.80
  {
    if m <= 9.79 {
      SquareMonotone(m, 9.79);
    } else if m >= 9.80 {
      SquareMonotone(9.80, m);
    }
  }

  lemma SquareMonotone(a: real, b: real)
    requires 0.0 <= a <= b
    ensures a * a <= b * b
  {
    MulMonotone(a, b, a);
    MulMonotone(a, b, b);
  }

  lemma MulMonotone(a: real, b: real, k: real)
    requires a <= b && k >= 0.0
    ensures a * k <= b * k
  {
  }

  /** A quotient `c / m` whose bounds, multiplied by `m`, enclose `c` lies between them. */
  lemma QuotientBounds(q: real, m: real, c: real, lo: real, hi: real)
    requires m > 0.0 && q * m == c && lo * m < c < hi * m
    ensures lo < q < hi
  {
    if q <= lo {
      MulMonotone(q, lo, m);
    } else if q >= hi {
      MulMonotone(hi, q, m);
    }
  }
}

=== FILE: matrix.dfy ===
/** The 4x4 `f32` matrix of `src/math/matrix4.rs` (and its legacy twin), and the row-vector
    products of `vector_dot_matrix` and the legacy `Point3::multiply_matrix`. */
module Matrix {
  import opened Wrappers
  import opened Vector

  const Size: nat := 4

  predicate IsSquare4(m: seq<seq<real>>)
  {
    |m| == Size && forall i :: 0 <= i < Size ==> |m[i]| == Size
  }

  /** A 4x4 grid addressed `m[row][column]`. */
  type Matrix4 = m: seq<seq<real>> | IsSquare4(m)
    witness [[0.0, 0.0, 0.0, 0.0], [0.0, 0.0, 0.0, 0.0], [0.0, 0.0, 0.0, 0.0], [0.0, 0.0, 0.0, 0.0]]

  /** `Matrix4::default()`. */
  function Zero(): (r: Matrix4)
    ensures forall i, j :: 0 <= i < Size && 0 <= j < Size ==> r[i][j] == 0.0
  {
    seq(Size, _ => seq(Size, _ => 0.0))
  }

  function Identity(): (r: Matrix4)
    ensures forall i, j :: 0 <= i < Size && 0 <= j < Size ==> r[i][j] == if i == j then 1.0 else 0.0
  {
    seq(Size, i => seq(Size, j => if i == j then 1.0 else 0.0))
  }

  /** `Index::index`: row `i`; Rust panics for `i >= 4`, so the model requires `i < 4`. */
  function Index(m: Matrix4, i: nat): (row: seq<real>)
    requires i < Size
    ensures |row| == Size
    ensures forall j :: 0 <= j < Size ==> row[j] == m[i][j]
  {
    m[i]
  }

  /** `matrix.matrix[i][j] = v`. */
  function Set(m: Matrix4, i: nat, j: nat, v: real): (r: Matrix4)
    requires i < Size && j < Size
    ensures r[i][j] == v
    ensures forall a, b :: 0 <= a < Size && 0 <= b < Size && (a, b) != (i, j) ==> r[a][b] == m[a][b]
  {
    m[i := m[i][j := v]]
  }

  /** Column `j` of the row vector `(x, y, z, 1)` times `m`. */
  function Homogeneous(v: Point3, m: Matrix4, j: nat): real
    requires j < Size
  {
    v.x * m[0][j] + v.y * m[1][j] + v.z * m[2][j] + m[3][j]
  }

  /** The perspective divisor `w`. */
  function W(v: Point3, m: Matrix4): real
  {
    Homogeneous(v, m, 3)
  }

  /** `vector_dot_matrix`: the row-vector product, divided by `w` when `w` is not zero and
      passed through undivided when it is. */
  function VectorDotMatrix(v: Point3, m: Matrix4): (r: Point3)
    ensures W(v, m) != 0.0 ==>
      && r.x * W(v, m) == Homogeneous(v, m, 0)
      && r.y * W(v, m) == Homogeneous(v, m, 1)
      && r.z * W(v, m) == Homogeneous(v, m, 2)
    ensures W(v, m) == 0.0 ==> r == Point3(Homogeneous(v, m, 0), Homogeneous(v, m, 1), Homogeneous(v, m, 2))
  {
    var x := Homogeneous(v, m, 0);
    var y := Homogeneous(v, m, 1);
    var z := Homogeneous(v, m, 2);
    var w := W(v, m);
    if w != 0.0 then Point3(x / w, y / w, z / w) else Point3(x, y, z)
  }

  /** The legacy `Point3::multiply_matrix`: the same product, but `None` when `w` is zero. */
  function MultiplyMatrix(v: Point3, m: Matrix4): (r: Option<Point3>)
    ensures r.None? <==> W(v, m) == 0.0
    ensures r.Some? ==>
      && r.value.x * W(v, m) == Homogeneous(v, m, 0)
      && r.value.y * W(v, m) == Homogeneous(v, m, 1)
      && r.value.z * W(v, m) == Homogeneous(v, m, 2)
  {
    var x := Homogeneous(v, m, 0);
    var y := Homogeneous(v, m, 1);
    var z := Homogeneous(v, m, 2);
    var w := W(v, m);
    if w != 0.0 then Some(Point3(x / w, y / w, z / w)) else None
  }

  /** The two variants agree wherever `w` is not zero; only the zero case differs. */
  lemma MultiplyMatrixAgrees(v: Point3, m: Matrix4)
    ensures W(v, m) != 0.0 ==> MultiplyMatrix(v, m) == Some(VectorDotMatrix(v, m))
    ensures W(v, m) == 0.0 ==> MultiplyMatrix(v, m).None? && VectorDotMatrix(v, m) == Point3(Homogeneous(v, m, 0), Homogeneous(v, m, 1), Homogeneous(v, m, 2))
  {
  }

  /** The zero matrix sends every vector to the origin rather than failing. */
  lemma ZeroMatrixToOrigin(v: Point3)
    ensures VectorDotMatrix(v, Zero()) == Point3(0.0, 0.0, 0.0)
    ensures MultiplyMatrix(v, Zero()).None?
  {
  }

  /** Under the identity `w` is 1 and the vector is unchanged. */
  lemma IdentityIsNeutral(v: Point3)
    ensures W(v, Identity()) == 1.0
    ensures VectorDotMatrix(v, Identity()) == v
  {
  }
}

=== FILE: numbers.dfy ===
/** Rust's `str::parse` for the number types the engine reads: `f32` (the documented decimal
    grammar `[+-]? (digits | digits '.' digits? | digits? '.' digits) ([eE] [+-]? digits)?`)
    and the integers `u32` and `i32`. Values are exact; rounding to the nearest `f32` is not
    modelled. */
module Numbers {
  import opened Wrappers

  /** `std::num::ParseFloatError`, reduced to its kind. */
  datatype ParseFloatError = ParseFloatError(kind: FloatErrorKind)
  datatype FloatErrorKind = EmptyText | InvalidText

  /** `std::num::ParseIntError`, reduced to its kind. */
  datatype ParseIntError = ParseIntError(kind: IntErrorKind)
  datatype IntErrorKind = NoDigits | InvalidDigit | PosOverflow | NegOverflow

  const U32Max: nat := 0xFFFF_FFFF
  const I32Max: int := 0x7FFF_FFFF
  const I32Min: int := -0x8000_0000

  predicate IsDigit(c: char) { '0' <= c <= '9' }

  predicate AllDigits(s: string) { forall i :: 0 <= i < |s| ==> IsDigit(s[i]) }

  function DigitValue(c: char): nat
    requires IsDigit(c)
  {
    c as int - '0' as int
  }

  /** The value of a run of decimal digits, most significant first. */
  function DigitsValue(s: string): nat
    requires AllDigits(s)
    decreases |s|
  {
    if |s| == 0 then 0 else DigitsValue(s[..|s| - 1]) * 10 + DigitValue(s[|s| - 1])
  }

  function Pow10(n: nat): (r: nat)
    ensures r >= 1
  {
    if n == 0 then 1 else 10 * Pow10(n - 1)
  }

  /** Index of the first character of `s` in `cs`, or `|s|` when there is none. */
  function IndexOf(s: string, cs: set<char>): (k: nat)
    ensures k <= |s|
    ensures forall i :: 0 <= i < k ==> s[i] !in cs
    ensures k < |s| ==> s[k] in cs
    decreases |s|
  {
    if |s| == 0 then 0
    else if s[0] in cs then 0
    else 1 + IndexOf(s[1..], cs)
  }

  /** `s.parse::<f32>()`. An empty text is `EmptyText`; any other text outside the grammar,
      including a lone sign, is `InvalidText`. */
  function ParseF32(s: string): (r: Result<real, ParseFloatError>)
    ensures r == Err(ParseFloatError(EmptyText)) <==> s == ""
    ensures r.Err? && s != "" ==> r.error == ParseFloatError(InvalidText)
  {
    if s == "" then Err(ParseFloatError(EmptyText))
    else
      var body := if s[0] == '+' || s[0] == '-' then s[1..] else s;
      match UnsignedDecimal(body)
      case None => Err(ParseFloatError(InvalidText))
      case Some(v) => Ok(if s[0] == '-' then -v else v)
  }

  /** The unsigned part of the decimal grammar: mantissa and optional exponent. */
  function UnsignedDecimal(b: string): Option<real>
  {
    var e := IndexOf(b, {'e', 'E'});
    match Mantissa(b[..e])
    case None => None
    case Some(m) =>
      if e == |b| then Some(m)
      else
        match Exponent(b[e + 1..])
        case None => None
        case Some(x) => Some(if x >= 0 then m * Pow10(x) as real else m / Pow10(-x) as real)
  }

  /** `digits`, `digits '.' digits?` or `digits? '.' digits`. */
  function Mantissa(m: string): Option<real>
  {
    var d := IndexOf(m, {'.'});
    var whole := m[..d];
    var frac := if d < |m| then m[d + 1..] else "";
    if AllDigits(whole) && AllDigits(frac) && |whole| + |frac| > 0 then
      Some(DecimalValue(whole, frac))
    else None
  }

  /** The value of `whole '.' frac`. */
  function DecimalValue(whole: string, frac: string): real
    requires AllDigits(whole) && AllDigits(frac)
  {
    DigitsValue(whole) as real + DigitsValue(frac) as real / Pow10(|frac|) as real
  }

  /** `[+-]? digits`, at least one digit. */
  function Exponent(t: string): Option<int>
  {
    var neg := |t| > 0 && t[0] == '-';
    var digits := if |t| > 0 && (t[0] == '+' || t[0] == '-') then t[1..] else t;
    if |digits| > 0 && AllDigits(digits) then
      Some(if neg then -(DigitsValue(digits) as int) else DigitsValue(digits) as int)
    else None
  }

  /** The loop of Rust's `from_str_radix` in base 10, on the magnitude `acc` of the value read
      so far: each character must be a digit, and each step `acc * 10 + d` must stay within
      `limit`; the loop stops at the first character that breaks either rule, with
      `InvalidDigit` or with `over`. (For a negative `i32` Rust subtracts each digit and checks
      against `i32::MIN`; on the magnitude that is the same test with `limit` 2^31.) */
  function ScanDigits(s: string, acc: nat, limit: nat, over: IntErrorKind): (r: Result<nat, IntErrorKind>)
    ensures r.Ok? ==> AllDigits(s)
    ensures r.Ok? && acc <= limit ==> r.value <= limit
    ensures r.Err? ==> r.error == InvalidDigit || r.error == over
    decreases |s|
  {
    if |s| == 0 then Ok(acc)
    else if !IsDigit(s[0]) then Err(InvalidDigit)
    else if acc * 10 + DigitValue(s[0]) > limit then Err(over)
    else
      var r := ScanDigits(s[1..], acc * 10 + DigitValue(s[0]), limit, over);
      assert r.Ok? ==> forall i :: 1 <= i < |s| ==> s[i] == s[1..][i - 1];
      r
  }

  /** `s.parse::<u32>()`: an optional `+`, then digits read by `from_str_radix`'s loop within
      `u32`. A lone sign is an invalid digit, and so is a `-`, which `u32` does not strip. */
  function ParseU32(s: string): (r: Result<int, ParseIntError>)
    ensures r.Ok? ==> 0 <= r.value <= U32Max
    ensures r.Ok? ==> s != "" && s[0] != '-'
    ensures r.Ok? ==> AllDigits(if s[0] == '+' then s[1..] else s)
    ensures r == Err(ParseIntError(NoDigits)) <==> s == ""
    ensures r.Err? ==> r.error.kind != NegOverflow
  {
    if s == "" then Err(ParseIntError(NoDigits))
    else if s == "+" || s == "-" then Err(ParseIntError(InvalidDigit))
    else
      var digits := if s[0] == '+' then s[1..] else s;
      match ScanDigits(digits, 0, U32Max, PosOverflow)
      case Ok(v) => Ok(v)
      case Err(kind) => Err(ParseIntError(kind))
  }

  /** `s.parse::<i32>()`: an optional sign, then digits read by `from_str_radix`'s loop within
      `i32`: up to 2^31 - 1 after no sign or `+`, up to 2^31 after `-`. */
  function ParseI32(s: string): (r: Result<int, ParseIntError>)
    ensures r.Ok? ==> I32Min <= r.value <= I32Max
    ensures r.Ok? ==> s != "" && AllDigits(if s[0] == '+' || s[0] == '-' then s[1..] else s)
    ensures r.Ok? && r.value < 0 ==> s != "" && s[0] == '-'
    ensures r == Err(ParseIntError(NoDigits)) <==> s == ""
    ensures r.Err? && r.error.kind == NegOverflow ==> s != "" && s[0] == '-'
    ensures r.Err? && r.error.kind == PosOverflow ==> s != "" && s[0] != '-'
  {
    if s == "" then Err(ParseIntError(NoDigits))
    else if s == "+" || s == "-" then Err(ParseIntError(InvalidDigit))
    else
      var neg := s[0] == '-';
      var digits := if s[0] == '+' || s[0] == '-' then s[1..] else s;
      var limit: nat := if neg then -I32Min else I32Max;
      match ScanDigits(digits, 0, limit, if neg then NegOverflow else PosOverflow)
      case Ok(v) => Ok(if neg then -(v as int) else v)
      case Err(kind) => Err(ParseIntError(kind))
  }

  /** The number of digits `s` starts with. */
  function DigitRun(s: string): (k: nat)
    ensures k <= |s| && AllDigits(s[..k])
    ensures k < |s| ==> !IsDigit(s[k])
    decreases |s|
  {
    if |s| == 0 || !IsDigit(s[0]) then 0
    else
      var k := 1 + DigitRun(s[1..]);
      assert s[..k] == [s[0]] + s[1..][..k - 1];
      k
  }

  /** A digit in front of a run of digits adds its value times the run's power of ten. */
  lemma {:induction false} DigitsValueCons(c: char, t: string)
    requires IsDigit(c) && AllDigits(t)
    ensures AllDigits([c] + t)
    ensures DigitsValue([c] + t) == DigitValue(c) * Pow10(|t|) + DigitsValue(t)
    decreases |t|
  {
    var s := [c] + t;
    assert AllDigits(s) by {
      forall i | 0 <= i < |s| ensures IsDigit(s[i]) {
        if i > 0 { assert s[i] == t[i - 1]; }
      }
    }
    if |t| == 0 {
      assert s[..|s| - 1] == [];
    } else {
      var init := t[..|t| - 1];
      assert s[..|s| - 1] == [c] + init;
      assert s[|s| - 1] == t[|t| - 1];
      DigitsValueCons(c, init);
      var d, p, w, l := DigitValue(c), Pow10(|init|), DigitsValue(init), DigitValue(t[|t| - 1]);
      assert DigitsValue(s) == DigitsValue([c] + init) * 10 + l;
      assert DigitsValue(t) == w * 10 + l;
      assert Pow10(|t|) == 10 * p;
      Regroup(w, d, p, l);
    }
  }

  /** The run of digits decides the loop: with `v` the accumulator carried through the whole
      run, the loop overflows iff `v` is out of range (the accumulator only grows along the
      run, so it is out of range at the end iff it left the range at some digit), and
      otherwise fails iff a character follows the run. */
  lemma {:induction false} ScanByDigitRun(s: string, acc: nat, limit: nat, over: IntErrorKind)
    requires acc <= limit
    ensures var k := DigitRun(s);
      var v := acc * Pow10(k) + DigitsValue(s[..k]);
      ScanDigits(s, acc, limit, over) == if v > limit then Err(over) else if k < |s| then Err(InvalidDigit) else Ok(v)
    decreases |s|
  {
    var k := DigitRun(s);
    if |s| == 0 || !IsDigit(s[0]) {
      assert k == 0 && s[..k] == [];
    } else {
      var d := DigitValue(s[0]);
      var next := acc * 10 + d;
      var k' := DigitRun(s[1..]);
      var run' := s[1..][..k'];
      assert k == k' + 1;
      var p := Pow10(k');
      var v := acc * Pow10(k) + DigitsValue(s[..k]);
      assert v == next * p + DigitsValue(run') by {
        assert s[..k] == [s[0]] + run';
        DigitsValueCons(s[0], run');
        assert Pow10(k) == 10 * p;
        Regroup(acc, d, p, DigitsValue(run'));
      }
      if next > limit {
        assert v > limit by {
          MulAtLeast(next, p);
        }
        assert ScanDigits(s, acc, limit, over) == Err(over);
      } else {
        assert ScanDigits(s, acc, limit, over) == ScanDigits(s[1..], next, limit, over);
        ScanByDigitRun(s[1..], next, limit, over);
      }
    }
  }

  /** A run of digits `t` followed by `rest`, which does not start with a digit: the
      integer parsers overflow iff the run's value is out of range, whatever `rest` holds;
      in range, they fail with `InvalidDigit` iff `rest` is not empty, and otherwise read the
      run's value. `"99999999999a"` is therefore an overflow, not an invalid digit. */
  lemma DigitRunDecides(t: string, rest: string)
    requires |t| > 0 && AllDigits(t) && (rest == "" || !IsDigit(rest[0]))
    ensures ParseU32(t + rest) ==
      if DigitsValue(t) > U32Max then Err(ParseIntError(PosOverflow))
      else if rest != "" then Err(ParseIntError(InvalidDigit))
      else Ok(DigitsValue(t))
    ensures ParseI32(t + rest) ==
      if DigitsValue(t) > I32Max then Err(ParseIntError(PosOverflow))
      else if rest != "" then Err(ParseIntError(InvalidDigit))
      else Ok(DigitsValue(t))
    ensures ParseI32("-" + t + rest) ==
      if DigitsValue(t) > -I32Min then Err(ParseIntError(NegOverflow))
      else if rest != "" then Err(ParseIntError(InvalidDigit))
      else Ok(-(DigitsValue(t) as int))
  {
    UnsignedRun(t, rest);
    SignedRun(t, rest);
    NegativeRun(t, rest);
  }

  lemma UnsignedRun(t: string, rest: string)
    requires |t| > 0 && AllDigits(t) && (rest == "" || !IsDigit(rest[0]))
    ensures ParseU32(t + rest) ==
      if DigitsValue(t) > U32Max then Err(ParseIntError(PosOverflow))
      else if rest != "" then Err(ParseIntError(InvalidDigit))
      else Ok(DigitsValue(t))
  {
    var s := t + rest;
    assert s[0] == t[0] && IsDigit(s[0]) && |s| >= 1;
    assert s != "+" && s != "-";
    ScanOfRun(t, rest, U32Max, PosOverflow);
  }

  lemma SignedRun(t: string, rest: string)
    requires |t| > 0 && AllDigits(t) && (rest == "" || !IsDigit(rest[0]))
    ensures ParseI32(t + rest) ==
      if DigitsValue(t) > I32Max then Err(ParseIntError(PosOverflow))
      else if rest != "" then Err(ParseIntError(InvalidDigit))
      else Ok(DigitsValue(t))
  {
    var s := t + rest;
    assert s[0] == t[0] && IsDigit(s[0]) && |s| >= 1;
    assert s != "+" && s != "-";
    ScanOfRun(t, rest, I32Max, PosOverflow);
  }

  lemma NegativeRun(t: string, rest: string)
    requires |t| > 0 && AllDigits(t) && (rest == "" || !IsDigit(rest[0]))
    ensures ParseI32("-" + t + rest) ==
      if DigitsValue(t) > -I32Min then Err(ParseIntError(NegOverflow))
      else if rest != "" then Err(ParseIntError(InvalidDigit))
      else Ok(-(DigitsValue(t) as int))
  {
    var r := ScanDigits(t + rest, 0, -I32Min, NegOverflow);
    NegativeText(t, rest, r);
    NegatedRun(t, rest, r);
  }

  /** The loop's verdict on a digit run that stays within `i32` once negated. */
  lemma NegatedRun(t: string, rest: string, r: Result<nat, IntErrorKind>)
    requires |t| > 0 && AllDigits(t) && (rest == "" || !IsDigit(rest[0]))
    requires r == ScanDigits(t + rest, 0, -I32Min, NegOverflow)
    ensures (match r case Ok(w) => Ok(-(w as int)) case Err(kind) => Err(ParseIntError(kind))) ==
      if DigitsValue(t) > -I32Min then Err(ParseIntError(NegOverflow))
      else if rest != "" then Err(ParseIntError(InvalidDigit))
      else Ok(-(DigitsValue(t) as int))
  {
    ScanOfRun(t, rest, -I32Min, NegOverflow);
  }

  /** `-` and a non-empty text read as `i32`: the loop's verdict on the text, negated. */
  lemma NegativeText(t: string, rest: string, r: Result<nat, IntErrorKind>)
    requires |t| > 0 && r == ScanDigits(t + rest, 0, -I32Min, NegOverflow)
    ensures ParseI32("-" + t + rest) == match r case Ok(v) => Ok(-(v as int)) case Err(kind) => Err(ParseIntError(kind))
  {
    var u := t + rest;
    assert "-" + t + rest == "-" + u;
    AfterSign('-', u);
  }


  /** A sign in front of a text is its first character, and dropping it gives the text back. */
  lemma AfterSign(c: char, u: string)
    ensures ([c] + u)[0] == c && ([c] + u)[1..] == u && |[c] + u| == |u| + 1
  {
  }

  /** The loop from zero over a run of digits and a rest that does not start with one. */
  lemma ScanOfRun(t: string, rest: string, limit: nat, over: IntErrorKind)
    requires AllDigits(t) && (rest == "" || !IsDigit(rest[0]))
    ensures ScanDigits(t + rest, 0, limit, over) ==
      if DigitsValue(t) > limit then Err(over) else if rest != "" then Err(InvalidDigit) else Ok(DigitsValue(t))
  {
    DigitRunOfRun(t, rest);
    ScanByDigitRun(t + rest, 0, limit, over);
  }

  lemma DigitRunOfRun(t: string, rest: string)
    requires AllDigits(t) && (rest == "" || !IsDigit(rest[0]))
    ensures DigitRun(t + rest) == |t| && (t + rest)[..|t|] == t
  {
    assert (t + rest)[..|t|] == t;
  }

  lemma Regroup(a: nat, d: nat, p: nat, w: nat)
    ensures a * (10 * p) + (d * p + w) == (a * 10 + d) * p + w
    ensures (d * p + a) * 10 + w == d * (10 * p) + (a * 10 + w)
  {
  }

  lemma MulAtLeast(n: nat, p: nat)
    requires p >= 1
    ensures n * p >= n
  {
  }

  /** The decimal text of a natural number, without sign or leading zeros. */
  function NatText(n: nat): (s: string)
    ensures |s| > 0 && AllDigits(s)
  {
    if n < 10 then [('0' as int + n) as char]
    else NatText(n / 10) + [('0' as int + n % 10) as char]
  }

  lemma {:induction false} DigitsOfNatText(n: nat)
    ensures DigitsValue(NatText(n)) == n
  {
    var s := NatText(n);
    if n >= 10 {
      DigitsOfNatText(n / 10);
      assert s[..|s| - 1] == NatText(n / 10);
    } else {
      assert s[..|s| - 1] == "";
    }
  }

  /** The decimal text of n, bare, after `+` or after `-`, read as `u32` and `i32`: the value is
      ±n within range, an overflow of the right sign outside it, and `u32` refuses the `-`. */
  lemma IntegerTextRoundTrip(n: nat)
    ensures n <= U32Max ==> ParseU32(NatText(n)) == Ok(n) && ParseU32("+" + NatText(n)) == Ok(n)
    ensures n > U32Max ==> ParseU32(NatText(n)) == Err(ParseIntError(PosOverflow))
    ensures ParseU32("-" + NatText(n)) == Err(ParseIntError(InvalidDigit))
    ensures n <= I32Max ==> ParseI32(NatText(n)) == Ok(n)
    ensures n > I32Max ==> ParseI32(NatText(n)) == Err(ParseIntError(PosOverflow))
    ensures n <= -I32Min ==> ParseI32("-" + NatText(n)) == Ok(-(n as int))
    ensures n > -I32Min ==> ParseI32("-" + NatText(n)) == Err(ParseIntError(NegOverflow))
  {
    var t := NatText(n);
    DigitsOfNatText(n);
    assert t + "" == t;
    assert "-" + t + "" == "-" + t;
    DigitRunDecides(t, "");
    var plus, minus := "+" + t, "-" + t;
    assert plus[0] == '+' && plus[1..] == t;
    assert minus[0] == '-' && !IsDigit(minus[0]);
  }

  /** A run of digits is a mantissa with no fractional part. */
  lemma MantissaOfDigits(t: string)
    requires |t| > 0 && AllDigits(t)
    ensures Mantissa(t) == Some(DigitsValue(t) as real)
  {
    var d := IndexOf(t, {'.'});
    assert d == |t|;
    assert t[..d] == t;
    assert AllDigits("");
    assert DecimalValue(t, "") == DigitsValue(t) as real by {
      assert DigitsValue("") == 0;
      assert Pow10(0) == 1;
    }
  }

  /** `whole '.' frac` is a mantissa worth `whole + frac / 10^|frac|`. */
  lemma MantissaOfFraction(whole: string, frac: string)
    requires AllDigits(whole) && AllDigits(frac) && |whole| + |frac| > 0
    ensures Mantissa(whole + "." + frac) == Some(DecimalValue(whole, frac))
  {
    var m := whole + "." + frac;
    var d := IndexOf(m, {'.'});
    assert m[|whole|] == '.';
    assert d == |whole|;
    assert m[..d] == whole;
    assert m[d + 1..] == frac;
  }

  /** Text without an exponent marker is parsed by its mantissa alone. */
  lemma NoExponent(b: string)
    requires forall i :: 0 <= i < |b| ==> b[i] != 'e' && b[i] != 'E'
    ensures UnsignedDecimal(b) == Mantissa(b)
  {
    var e := IndexOf(b, {'e', 'E'});
    assert e == |b|;
    assert b[..e] == b;
  }

  /** The signed text of an integer, parsed as `f32`, gives the integer back. */
  lemma NatTextRoundTrip(n: nat)
    ensures ParseF32(NatText(n)) == Ok(n as real)
    ensures ParseF32("-" + NatText(n)) == Ok(-(n as real))
  {
    var t := NatText(n);
    DigitsOfNatText(n);
    MantissaOfDigits(t);
    assert forall i :: 0 <= i < |t| ==> IsDigit(t[i]);
    NoExponent(t);
    SignedParse(t, n as real);
  }

  /** Unsigned text starting with a digit is parsed by the unsigned grammar, and so is
      its negation, with the sign applied. */
  lemma SignedParse(b: string, v: real)
    requires b != "" && IsDigit(b[0]) && UnsignedDecimal(b) == Some(v)
    ensures ParseF32(b) == Ok(v)
    ensures ParseF32("-" + b) == Ok(-v)
  {
    var m := "-" + b;
    assert m[0] == '-';
    assert m[1..] == b;
  }

  /** `w.f` is the unsigned decimal `w + f / 10^|f|`. */
  lemma UnsignedFraction(w: string, frac: string)
    requires |w| > 0 && AllDigits(w) && AllDigits(frac)
    ensures UnsignedDecimal(w + "." + frac) == Some(DecimalValue(w, frac))
    ensures IsDigit((w + "." + frac)[0])
  {
    var b := w + "." + frac;
    MantissaOfFraction(w, frac);
    DecimalHasNoExponent(w, frac);
    NoExponent(b);
    assert b[0] == w[0];
  }

  lemma DecimalHasNoExponent(w: string, frac: string)
    requires AllDigits(w) && AllDigits(frac)
    ensures forall i :: 0 <= i < |w + "." + frac| ==> (w + "." + frac)[i] != 'e' && (w + "." + frac)[i] != 'E'
  {
    var b := w + "." + frac;
    forall i | 0 <= i < |b| ensures b[i] != 'e' && b[i] != 'E' {
      if i < |w| {
        assert b[i] == w[i];
      } else if i > |w| {
        assert b[i] == frac[i - |w| - 1];
      }
    }
  }

}

=== FILE: parsing.dfy ===
/** The textual mesh format and its three parsers, each one layer of the last:
    a point is three floats separated by one space (`src/geometry/vector/point3.rs`),
    a triangle is three points separated by `,` (`src/geometry/triangle/triangle3.rs` and
    `triangle_shape.rs`), a mesh is triangles separated by `;` (`src/geometry/mesh.rs`).
    The float-token parser is a parameter, so every contract holds for any `f32` grammar. */
module Parsing {
  import opened Wrappers
  import opened Text
  import opened Numbers
  import opened Vector
  import opened Geometry
  import PE = PointParsingErrors
  import TE = TriangleParsingErrors
  import GE = GeometryErrors

  /** `str::parse::<f32>`. */
  type FloatParser = string -> Result<real, ParseFloatError>

  /** Parses the items in order and stops at the first failure, as `?` in a loop does: the
      result is every value, or the error of the first item that fails. */
  function ParseAll<T, E>(items: seq<string>, parse: string -> Result<T, E>): (r: Result<seq<T>, E>)
    ensures r.Ok? <==> forall i :: 0 <= i < |items| ==> parse(items[i]).Ok?
    ensures r.Ok? ==> |r.value| == |items|
    ensures r.Ok? ==> forall i :: 0 <= i < |items| ==> parse(items[i]) == Ok(r.value[i])
    ensures r.Err? ==> exists k :: (0 <= k < |items| && parse(items[k]) == Err(r.error)
      && forall i :: 0 <= i < k ==> parse(items[i]).Ok?)
    decreases |items|
  {
    if |items| == 0 then Ok([])
    else
      match parse(items[0])
      case Err(e) => Err(e)
      case Ok(v) =>
        var rest := ParseAll(items[1..], parse);
        match rest
        case Err(e) =>
          ghost var k :| 0 <= k < |items[1..]| && parse(items[1..][k]) == Err(e)
            && forall i :: 0 <= i < k ==> parse(items[1..][i]).Ok?;
          assert parse(items[k + 1]) == Err(e);
          assert forall i :: 0 <= i < k + 1 ==> parse(items[i]).Ok? by {
            forall i | 0 <= i < k + 1 ensures parse(items[i]).Ok? {
              if i > 0 {
                assert items[i] == items[1..][i - 1];
              }
            }
          }
          Err(e)
        case Ok(vs) =>
          assert forall i :: 1 <= i < |items| ==> items[i] == items[1..][i - 1];
          Ok([v] + vs)
  }

  /** `Point3::try_from`: split on a single space; a count other than three is
      `InvalidAxisNumber` before any float is read; then x, y and z are parsed in that order
      and the first bad one is `InvalidFloat`. */
  function ParsePoint(s: string, parse: FloatParser): (r: Result<Point3, PE.PointParsingError>)
    ensures r == Err(PE.InvalidAxisNumber) <==> Count(s, ' ') != 2
    ensures r.Ok? <==> Count(s, ' ') == 2 && forall i :: 0 <= i < 3 ==> parse(Split(s, ' ')[i]).Ok?
    ensures r == Err(PE.InvalidFloat) <==>
      Count(s, ' ') == 2 && exists i :: 0 <= i < 3 && parse(Split(s, ' ')[i]).Err?
    ensures r.Ok? ==> (Count(s, ' ') == 2 &&
      var p := Split(s, ' ');
      parse(p[0]).Ok? && parse(p[1]).Ok? && parse(p[2]).Ok? &&
      r.value == Point3(parse(p[0]).value, parse(p[1]).value, parse(p[2]).value))
  {
    var pieces := Split(s, ' ');
    if |pieces| != 3 then Err(PE.InvalidAxisNumber)
    else
      match parse(pieces[0])
      case Err(e) => Err(PE.FromParseFloatError(e))
      case Ok(x) =>
        match parse(pieces[1])
        case Err(e) => Err(PE.FromParseFloatError(e))
        case Ok(y) =>
          match parse(pieces[2])
          case Err(e) => Err(PE.FromParseFloatError(e))
          case Ok(z) => Ok(Point3(x, y, z))
  }

  /** `Triangle3::try_from`: split on `,`; a count other than three is `InvalidPointNumber`
      before any point is read; then the points are parsed in order and the first failing
      point's error comes back wrapped, unchanged, in `InvalidPoint`. */
  function ParseTriangle(s: string, parse: FloatParser): (r: Result<Triangle3, TE.TriangleParsingError>)
    ensures r == Err(TE.InvalidPointNumber) <==> Count(s, ',') != 2
    ensures r.Ok? <==> Count(s, ',') == 2 && forall i :: 0 <= i < 3 ==> ParsePoint(Split(s, ',')[i], parse).Ok?
    ensures r.Ok? ==> (Count(s, ',') == 2 &&
      var p := Split(s, ',');
      ParsePoint(p[0], parse).Ok? && ParsePoint(p[1], parse).Ok? && ParsePoint(p[2], parse).Ok? &&
      r.value == Triangle3(ParsePoint(p[0], parse).value, ParsePoint(p[1], parse).value, ParsePoint(p[2], parse).value))
    ensures r.Err? && Count(s, ',') == 2 ==> (r.error.InvalidPoint? &&
      var p := Split(s, ',');
      exists k :: (0 <= k < 3 && ParsePoint(p[k], parse) == Err(r.error.cause)
        && forall i :: 0 <= i < k ==> ParsePoint(p[i], parse).Ok?))
  {
    var pieces := Split(s, ',');
    if |pieces| != 3 then Err(TE.InvalidPointNumber)
    else
      match ParsePoint(pieces[0], parse)
      case Err(e) => Err(TE.FromPointError(e))
      case Ok(p1) =>
        match ParsePoint(pieces[1], parse)
        case Err(e) => Err(TE.FromPointError(e))
        case Ok(p2) =>
          match ParsePoint(pieces[2], parse)
          case Err(e) =>
            assert forall i :: 0 <= i < 2 ==> ParsePoint(pieces[i], parse).Ok?;
            Err(TE.FromPointError(e))
          case Ok(p3) => Ok(Triangle3(p1, p2, p3))
  }

  /** `Triangle::try_from` of the array-backed triangle: the same checks in the same order,
      the three parsed points stored as the array. */
  function ParseTriangleShape(s: string, parse: FloatParser): (r: Result<TriangleShape, TE.TriangleParsingError>)
    ensures r.Ok? <==> ParseTriangle(s, parse).Ok?
    ensures r.Ok? ==> r.value == ShapeOf(ParseTriangle(s, parse).value)
    ensures r.Err? ==> r.error == ParseTriangle(s, parse).error
  {
    var pieces := Split(s, ',');
    if |pieces| != 3 then Err(TE.InvalidPointNumber)
    else
      match ParseAll(pieces, t => ParsePoint(t, parse))
      case Err(e) => Err(TE.FromPointError(e))
      case Ok(ps) => Ok(TriangleShape(ps))
  }

  /** One `;` piece of a mesh: a triangle, its error converted by `From<TriangleParsingError>`. */
  function ParseMeshPiece(t: string, parse: FloatParser): (r: Result<Triangle3, GE.GeometryError>)
    ensures r.Ok? <==> ParseTriangle(t, parse).Ok?
    ensures r.Ok? ==> r.value == ParseTriangle(t, parse).value
    ensures r.Err? ==> r.error == GE.FromTriangleError(ParseTriangle(t, parse).error) && r.error != GE.InvalidMesh
  {
    ParseTriangle(t, parse).MapErr(GE.FromTriangleError)
  }

  /** Only the empty text splits into the single empty piece. */
  lemma SplitIsEmptyPiece(s: string, sep: char)
    ensures Split(s, sep) == [""] <==> s == ""
  {
    JoinSplit(s, sep);
  }

  /** `Mesh::try_from`: split on `;`; the empty text (the only one whose split is a lone empty
      piece) is `InvalidMesh`; otherwise every piece is a triangle, in order, and the first
      failing piece's error, converted, is the result, with no partial mesh. */
  function ParseMesh(s: string, parse: FloatParser): (r: Result<Mesh, GE.GeometryError>)
    ensures r == Err(GE.InvalidMesh) <==> s == ""
    ensures r.Ok? <==> s != "" && forall i :: 0 <= i < |Split(s, ';')| ==> ParseTriangle(Split(s, ';')[i], parse).Ok?
    ensures r.Ok? ==> |r.value.triangles| == Count(s, ';') + 1 >= 1
    ensures r.Ok? ==> forall i :: 0 <= i < |r.value.triangles| ==>
      ParseTriangle(Split(s, ';')[i], parse) == Ok(r.value.triangles[i])
    ensures r.Err? && s != "" ==>
      var p := Split(s, ';');
      exists k :: (0 <= k < |p| && ParseMeshPiece(p[k], parse) == Err(r.error)
        && forall i :: 0 <= i < k ==> ParseTriangle(p[i], parse).Ok?)
  {
    var pieces := Split(s, ';');
    SplitIsEmptyPiece(s, ';');
    if |pieces| == 0 || (|pieces| == 1 && pieces[0] == "") then Err(GE.InvalidMesh)
    else
      match ParseAll(pieces, t => ParseMeshPiece(t, parse))
      case Err(e) => Err(e)
      case Ok(ts) => Ok(Mesh(ts))
  }

  /** The error of a non-empty mesh is the one its first bad piece reports, whatever follows. */
  lemma {:induction false} MeshFirstFailure(s: string, parse: FloatParser, k: nat)
    requires s != "" && k < |Split(s, ';')|
    requires ParseTriangle(Split(s, ';')[k], parse).Err?
    requires forall i :: 0 <= i < k ==> ParseTriangle(Split(s, ';')[i], parse).Ok?
    ensures ParseMesh(s, parse) == Err(GE.FromTriangleError(ParseTriangle(Split(s, ';')[k], parse).error))
  {
    var p := Split(s, ';');
    var r := ParseMesh(s, parse);
    var j :| 0 <= j < |p| && ParseMeshPiece(p[j], parse) == Err(r.error)
      && forall i :: 0 <= i < j ==> ParseTriangle(p[i], parse).Ok?;
    assert j == k;
  }

  /** A trailing `;` leaves an empty last piece, which has no commas: the mesh is rejected, and
      when the earlier pieces are good triangles the error is `InvalidTriangle(InvalidPointNumber)`. */
  lemma TrailingSeparatorRejected(s: string, parse: FloatParser)
    ensures ParseMesh(s + ";", parse).Err?
    ensures (forall i :: 0 <= i < |Split(s, ';')| ==> ParseTriangle(Split(s, ';')[i], parse).Ok?) ==>
      ParseMesh(s + ";", parse) == Err(GE.InvalidTriangle(TE.InvalidPointNumber))
  {
    var p := Split(s + ";", ';');
    SplitTrailingSeparator(s, ';');
    assert p[|p| - 1] == "";
    assert ParseTriangle("", parse) == Err(TE.InvalidPointNumber);
    assert s + ";" != "" by { assert |s + ";"| > 0; }
    if forall i :: 0 <= i < |Split(s, ';')| ==> ParseTriangle(Split(s, ';')[i], parse).Ok? {
      MeshFirstFailure(s + ";", parse, |p| - 1);
    }
  }

  /** `parse_next`: an absent token is `MissingValue`, a token that does not parse is
      `WrongNumber`; both carry the whole `line`, not the token. */
  function ParseNext<T, E>(slice: Option<string>, line: string, parse: string -> Result<T, E>): (r: Result<T, GE.GeometryError>)
    ensures r == Err(GE.MissingValue(line)) <==> slice.None?
    ensures r == Err(GE.WrongNumber(line)) <==> slice.Some? && parse(slice.value).Err?
    ensures r.Ok? <==> slice.Some? && parse(slice.value).Ok?
    ensures r.Ok? ==> r.value == parse(slice.value).value
  {
    match slice
    case None => Err(GE.MissingValue(line))
    case Some(t) =>
      match parse(t)
      case Err(_) => Err(GE.WrongNumber(line))
      case Ok(v) => Ok(v)
  }

  /** A number written as its decimal text reads back through `ParseNext` with each parser the
      engine uses; a negative text given to the `u32` reader is a wrong number on that line. */
  lemma NumberTextThroughParseNext(n: nat, line: string)
    ensures n <= I32Max ==> ParseNext(Some(NatText(n)), line, ParseI32) == Ok(n)
    ensures n <= -I32Min ==> ParseNext(Some("-" + NatText(n)), line, ParseI32) == Ok(-(n as int))
    ensures n <= U32Max ==> ParseNext(Some(NatText(n)), line, ParseU32) == Ok(n)
    ensures ParseNext(Some("-" + NatText(n)), line, ParseU32) == Err(GE.WrongNumber(line))
    ensures ParseNext(Some(NatText(n)), line, ParseF32) == Ok(n as real)
    ensures ParseNext(Some("-" + NatText(n)), line, ParseF32) == Ok(-(n as real))
  {
    IntegerTextRoundTrip(n);
    NatTextRoundTrip(n);
  }

  /** A text that splits into three good tokens is the point they spell. */
  lemma PointOfTokens(s: string, parse: FloatParser, tokens: seq<string>, p: Point3)
    requires Split(s, ' ') == tokens && |tokens| == 3
    requires parse(tokens[0]) == Ok(p.x) && parse(tokens[1]) == Ok(p.y) && parse(tokens[2]) == Ok(p.z)
    ensures ParsePoint(s, parse) == Ok(p)
  {
  }

  /** A text that splits into three good points is the triangle they spell. */
  lemma TriangleOfPoints(s: string, parse: FloatParser, points: seq<string>, t: Triangle3)
    requires Split(s, ',') == points && |points| == 3
    requires ParsePoint(points[0], parse) == Ok(t.v0)
    requires ParsePoint(points[1], parse) == Ok(t.v1)
    requires ParsePoint(points[2], parse) == Ok(t.v2)
    ensures ParseTriangle(s, parse) == Ok(t)
  {
  }

  /** A non-empty text whose pieces are all good triangles is the mesh of those triangles. */
  lemma MeshOfTriangles(s: string, parse: FloatParser, pieces: seq<string>, ts: seq<Triangle3>)
    requires s != "" && Split(s, ';') == pieces && |pieces| == |ts|
    requires forall i :: 0 <= i < |pieces| ==> ParseTriangle(pieces[i], parse) == Ok(ts[i])
    ensures ParseMesh(s, parse) == Ok(Mesh(ts))
  {
    var r := ParseMesh(s, parse);
    assert r.Ok?;
    assert r.value.triangles == ts;
  }
}

=== FILE: parsing_examples.dfy ===
/** The parser tests of `point3.rs`, `triangle3.rs`, `triangle_shape.rs`, `mesh.rs` and
    `util.rs`. The tests hold for every float parser that reads the test's tokens as Rust
    does, and the decimal grammar `ParseF32` is one. */
module ParsingExamples {
  import opened Wrappers
  import opened Text
  import opened Numbers
  import opened Vector
  import opened Geometry
  import opened Parsing
  import PE = PointParsingErrors
  import TE = TriangleParsingErrors
  import GE = GeometryErrors

  /** The values of the float tokens the tests use, and the one token they reject. */
  predicate ReadsTestTokens(parse: FloatParser)
  {
    parse("0") == Ok(0.0) && parse("1") == Ok(1.0) && parse("2") == Ok(2.0) &&
    parse("3") == Ok(3.0) && parse("5") == Ok(5.0) &&
    parse("1.0") == Ok(1.0) && parse("-3.5") == Ok(-3.5) && parse("a").Err?
  }

  lemma OnePointZero(s: string)
    requires s == "1.0"
    ensures ParseF32(s) == Ok(1.0)
  {
    UnsignedFraction("1", "0");
    assert "1" + "." + "0" == s;
    assert DigitsValue("0") == 0;
    assert DigitsValue("1") == 1;
    SignedParse(s, 1.0);
  }

  lemma ThreePointFive(b: string)
    requires b == "3.5"
    ensures UnsignedDecimal(b) == Some(3.5) && IsDigit(b[0])
  {
    UnsignedFraction("3", "5");
    assert "3" + "." + "5" == b;
    assert DigitsValue("5") == 5;
    assert DigitsValue("3") == 3;
  }

  lemma MinusThreePointFive(s: string)
    requires s == "-3.5"
    ensures ParseF32(s) == Ok(-3.5)
  {
    var b := s[1..];
    ThreePointFive(b);
    SignedParse(b, 3.5);
    assert "-" + b == s;
  }

  lemma Digit(n: nat)
    requires n < 10
    ensures ParseF32([('0' as int + n) as char]) == Ok(n as real)
  {
    NatTextRoundTrip(n);
  }

  lemma LetterIsNotFloat(s: string)
    requires s == "a"
    ensures ParseF32(s).Err?
  {
    assert IndexOf(s, {'e', 'E'}) == 1;
    assert s[..1] == s;
    assert IndexOf(s, {'.'}) == 1;
    assert !AllDigits(s);
  }

  lemma ZeroToken() ensures ParseF32("0") == Ok(0.0) { Digit(0); }
  lemma OneToken() ensures ParseF32("1") == Ok(1.0) { Digit(1); }
  lemma TwoToken() ensures ParseF32("2") == Ok(2.0) { Digit(2); }
  lemma ThreeToken() ensures ParseF32("3") == Ok(3.0) { Digit(3); }
  lemma FiveToken() ensures ParseF32("5") == Ok(5.0) { Digit(5); }
  lemma OnePointZeroToken() ensures ParseF32("1.0") == Ok(1.0) { OnePointZero("1.0"); }
  lemma MinusThreePointFiveToken() ensures ParseF32("-3.5") == Ok(-3.5) { MinusThreePointFive("-3.5"); }
  /** A dot with nothing before it still makes a float: ".0" reads as 0. */
  lemma DotZeroToken() ensures ParseF32(".0") == Ok(0.0) { }
  lemma LetterToken() ensures ParseF32("a").Err? { LetterIsNotFloat("a"); }

  /** The decimal grammar reads the test tokens as Rust does. */
  lemma DecimalReadsTestTokens()
    ensures ReadsTestTokens(ParseF32)
  {
    ZeroToken(); OneToken(); TwoToken(); ThreeToken(); FiveToken();
    OnePointZeroToken(); MinusThreePointFiveToken(); LetterToken();
  }

  /** `"1.0 0 -3.5"` is the point (1, 0, -3.5). */
  lemma ValidPoint(s: string, parse: FloatParser)
    requires s == "1.0 0 -3.5" && ReadsTestTokens(parse)
    ensures ParsePoint(s, parse) == Ok(Point3(1.0, 0.0, -3.5))
  {
    var tokens := ["1.0", "0", "-3.5"];
    assert Join(tokens, ' ') == s;
    SplitJoin(tokens, ' ');
    PointOfTokens(s, parse, tokens, Point3(1.0, 0.0, -3.5));
  }

  /** The same point read by the decimal grammar. */
  lemma ValidPointDecimal()
    ensures ParsePoint("1.0 0 -3.5", ParseF32) == Ok(Point3(1.0, 0.0, -3.5))
  {
    DecimalReadsTestTokens();
    ValidPoint("1.0 0 -3.5", ParseF32);
  }

  /** Space-free pieces other than three, joined by spaces, are rejected before any float is read. */
  lemma AxisCountOfPieces(s: string, parse: FloatParser, pieces: seq<string>)
    requires |pieces| >= 1 && |pieces| != 3 && Join(pieces, ' ') == s
    requires forall i :: 0 <= i < |pieces| ==> ' ' !in pieces[i]
    ensures ParsePoint(s, parse) == Err(PE.InvalidAxisNumber)
  {
    SplitJoin(pieces, ' ');
  }

  /** Two axes are rejected before any float is read. */
  lemma TwoAxes(s: string, parse: FloatParser)
    requires s == "0 0"
    ensures ParsePoint(s, parse) == Err(PE.InvalidAxisNumber)
  {
    assert Join(["0", "0"], ' ') == s;
    AxisCountOfPieces(s, parse, ["0", "0"]);
  }

  /** Four axes are rejected before any float is read. */
  lemma FourAxes(s: string, parse: FloatParser)
    requires s == "0 0 0 0"
    ensures ParsePoint(s, parse) == Err(PE.InvalidAxisNumber)
  {
    assert Join(["0", "0", "0", "0"], ' ') == s;
    AxisCountOfPieces(s, parse, ["0", "0", "0", "0"]);
  }

  /** A doubled space leaves an empty piece, so there are four axes. */
  lemma DoubledSpace(s: string, parse: FloatParser)
    requires s == "0  0 0"
    ensures Split(s, ' ') == ["0", "", "0", "0"]
    ensures ParsePoint(s, parse) == Err(PE.InvalidAxisNumber)
  {
    assert Join(["0", "", "0", "0"], ' ') == s;
    SplitJoin(["0", "", "0", "0"], ' ');
    AxisCountOfPieces(s, parse, ["0", "", "0", "0"]);
  }

  /** `"0 0 a"` has three axes, one of them not a float. */
  lemma BadFloatPoint(s: string, parse: FloatParser)
    requires s == "0 0 a" && ReadsTestTokens(parse)
    ensures ParsePoint(s, parse) == Err(PE.InvalidFloat)
  {
    var tokens := ["0", "0", "a"];
    assert Join(tokens, ' ') == s;
    SplitJoin(tokens, ' ');
    assert parse(Split(s, ' ')[2]).Err?;
  }

  /** A point of three space-free tokens. */
  lemma PointOfThree(s: string, parse: FloatParser, a: string, b: string, c: string, p: Point3)
    requires ' ' !in a && ' ' !in b && ' ' !in c && s == a + " " + b + " " + c
    requires parse(a) == Ok(p.x) && parse(b) == Ok(p.y) && parse(c) == Ok(p.z)
    ensures ParsePoint(s, parse) == Ok(p)
  {
    var tokens := [a, b, c];
    assert Join(tokens[1..], ' ') == b + " " + c by {
      assert tokens[1..] == [b, c];
      assert tokens[1..][1..] == [c];
    }
    assert Join(tokens, ' ') == s;
    SplitJoin(tokens, ' ');
    PointOfTokens(s, parse, tokens, p);
  }

  lemma PointZeroOneTwo(parse: FloatParser)
    requires ReadsTestTokens(parse)
    ensures ParsePoint("0 1 2", parse) == Ok(Point3(0.0, 1.0, 2.0))
  {
    PointOfThree("0 1 2", parse, "0", "1", "2", Point3(0.0, 1.0, 2.0));
  }

  lemma PointThreeFiveTwo(parse: FloatParser)
    requires ReadsTestTokens(parse)
    ensures ParsePoint("3 5 2", parse) == Ok(Point3(3.0, 5.0, 2.0))
  {
    PointOfThree("3 5 2", parse, "3", "5", "2", Point3(3.0, 5.0, 2.0));
  }

  const ValidTriangle: Triangle3 := Triangle3(Point3(1.0, 0.0, -3.5), Point3(0.0, 1.0, 2.0), Point3(3.0, 5.0, 2.0))

  lemma SplitValidTriangle(s: string)
    requires s == "1.0 0 -3.5,0 1 2,3 5 2"
    ensures Split(s, ',') == ["1.0 0 -3.5", "0 1 2", "3 5 2"]
  {
    var points := ["1.0 0 -3.5", "0 1 2", "3 5 2"];
    assert Join(points, ',') == s;
    SplitJoin(points, ',');
  }

  /** `"1.0 0 -3.5,0 1 2,3 5 2"` keeps its vertices in textual order. */
  lemma ValidTriangleParse(s: string, parse: FloatParser)
    requires s == "1.0 0 -3.5,0 1 2,3 5 2" && ReadsTestTokens(parse)
    ensures ParseTriangle(s, parse) == Ok(ValidTriangle)
  {
    SplitValidTriangle(s);
    ValidPoint("1.0 0 -3.5", parse);
    PointZeroOneTwo(parse);
    PointThreeFiveTwo(parse);
    TriangleOfPoints(s, parse, ["1.0 0 -3.5", "0 1 2", "3 5 2"], ValidTriangle);
  }

  /** The array-backed triangle stores the same three points. */
  lemma ValidTriangleShape(s: string, parse: FloatParser)
    requires s == "1.0 0 -3.5,0 1 2,3 5 2" && ReadsTestTokens(parse)
    ensures ParseTriangleShape(s, parse) == Ok(TriangleShape([
      Point3(1.0, 0.0, -3.5), Point3(0.0, 1.0, 2.0), Point3(3.0, 5.0, 2.0)]))
  {
    ValidTriangleParse(s, parse);
  }

  /** Two points are rejected before any point is read, by both triangle parsers. */
  lemma TwoPoints(s: string, parse: FloatParser)
    requires s == "1.0 0 -3.5,0 1 2"
    ensures ParseTriangle(s, parse) == Err(TE.InvalidPointNumber)
    ensures ParseTriangleShape(s, parse) == Err(TE.InvalidPointNumber)
  {
    assert Join(["1.0 0 -3.5", "0 1 2"], ',') == s;
    SplitJoin(["1.0 0 -3.5", "0 1 2"], ',');
  }

  /** Four points are rejected by both triangle parsers because the comma count is checked
      first: none of the points is read (the first one's `.0` would read as 0, see
      `DotZeroToken`). */
  lemma FourPoints(s: string, parse: FloatParser)
    requires s == ".0 0 -3.5,0 1 2,3 5 2,0 0 0"
    ensures ParseTriangle(s, parse) == Err(TE.InvalidPointNumber)
    ensures ParseTriangleShape(s, parse) == Err(TE.InvalidPointNumber)
  {
    FourPointPieces(s);
  }

  /** Three comma-free point texts joined by commas split back into exactly those three. */
  lemma SplitThreePoints(s: string, a: string, b: string, c: string)
    requires s == a + "," + b + "," + c
    requires ',' !in a && ',' !in b && ',' !in c
    ensures Split(s, ',') == [a, b, c]
  {
    assert [a, b, c][1..] == [b, c] && [b, c][1..] == [c];
    assert Join([c], ',') == c;
    assert Join([b, c], ',') == b + [','] + c;
    assert Join([a, b, c], ',') == a + [','] + (b + [','] + c) == s;
    SplitJoin([a, b, c], ',');
  }

  lemma FourPointPieces(s: string)
    requires s == ".0 0 -3.5,0 1 2,3 5 2,0 0 0"
    ensures Count(s, ',') == 3
  {
    assert Join([".0 0 -3.5", "0 1 2", "3 5 2", "0 0 0"], ',') == s;
    SplitJoin([".0 0 -3.5", "0 1 2", "3 5 2", "0 0 0"], ',');
  }

  /** A bad first point comes back wrapped unchanged, from both triangle parsers. */
  lemma BadPointTriangle(s: string, parse: FloatParser)
    requires s == "0 0 a,0 1 2,3 5 2" && ReadsTestTokens(parse)
    ensures ParseTriangle(s, parse) == Err(TE.InvalidPoint(PE.InvalidFloat))
    ensures ParseTriangleShape(s, parse) == Err(TE.InvalidPoint(PE.InvalidFloat))
  {
    SplitThreePoints(s, "0 0 a", "0 1 2", "3 5 2");
    BadFloatPoint("0 0 a", parse);
  }

  const SecondTriangle: Triangle3 := Triangle3(Point3(2.0, 1.0, 0.0), Point3(1.0, 0.0, 2.0), Point3(2.0, 2.0, 2.0))

  lemma PointTwoOneZero(parse: FloatParser)
    requires ReadsTestTokens(parse)
    ensures ParsePoint("2 1 0", parse) == Ok(Point3(2.0, 1.0, 0.0))
  {
    PointOfThree("2 1 0", parse, "2", "1", "0", Point3(2.0, 1.0, 0.0));
  }

  lemma PointOneZeroTwo(parse: FloatParser)
    requires ReadsTestTokens(parse)
    ensures ParsePoint("1 0 2", parse) == Ok(Point3(1.0, 0.0, 2.0))
  {
    PointOfThree("1 0 2", parse, "1", "0", "2", Point3(1.0, 0.0, 2.0));
  }

  lemma PointTwoTwoTwo(parse: FloatParser)
    requires ReadsTestTokens(parse)
    ensures ParsePoint("2 2 2", parse) == Ok(Point3(2.0, 2.0, 2.0))
  {
    PointOfThree("2 2 2", parse, "2", "2", "2", Point3(2.0, 2.0, 2.0));
  }

  lemma SecondTriangleParse(s: string, parse: FloatParser)
    requires s == "2 1 0,1 0 2,2 2 2" && ReadsTestTokens(parse)
    ensures ParseTriangle(s, parse) == Ok(SecondTriangle)
  {
    SplitThreePoints(s, "2 1 0", "1 0 2", "2 2 2");
    PointTwoOneZero(parse);
    PointOneZeroTwo(parse);
    PointTwoTwoTwo(parse);
    TriangleOfPoints(s, parse, ["2 1 0", "1 0 2", "2 2 2"], SecondTriangle);
  }

  lemma MeshOfTwo(s: string, parse: FloatParser, a: string, b: string, t: Triangle3, u: Triangle3)
    requires s != "" && Split(s, ';') == [a, b]
    requires ParseTriangle(a, parse) == Ok(t) && ParseTriangle(b, parse) == Ok(u)
    ensures ParseMesh(s, parse) == Ok(Mesh([t, u]))
  {
    MeshOfTriangles(s, parse, [a, b], [t, u]);
  }

  lemma SplitValidMesh(s: string)
    requires s == "1.0 0 -3.5,0 1 2,3 5 2;2 1 0,1 0 2,2 2 2"
    ensures s != "" && Split(s, ';') == ["1.0 0 -3.5,0 1 2,3 5 2", "2 1 0,1 0 2,2 2 2"]
  {
    assert Join(["1.0 0 -3.5,0 1 2,3 5 2", "2 1 0,1 0 2,2 2 2"], ';') == s;
    SplitJoin(["1.0 0 -3.5,0 1 2,3 5 2", "2 1 0,1 0 2,2 2 2"], ';');
  }

  /** The two-triangle mesh of the test, in textual order. */
  lemma ValidMesh(s: string, parse: FloatParser)
    requires s == "1.0 0 -3.5,0 1 2,3 5 2;2 1 0,1 0 2,2 2 2" && ReadsTestTokens(parse)
    ensures ParseMesh(s, parse) == Ok(Mesh([ValidTriangle, SecondTriangle]))
  {
    SplitValidMesh(s);
    ValidTriangleParse("1.0 0 -3.5,0 1 2,3 5 2", parse);
    SecondTriangleParse("2 1 0,1 0 2,2 2 2", parse);
    MeshOfTwo(s, parse, "1.0 0 -3.5,0 1 2,3 5 2", "2 1 0,1 0 2,2 2 2", ValidTriangle, SecondTriangle);
  }

  /** The same mesh read by the decimal grammar. */
  lemma ValidMeshDecimal()
    ensures ParseMesh("1.0 0 -3.5,0 1 2,3 5 2;2 1 0,1 0 2,2 2 2", ParseF32) == Ok(Mesh([ValidTriangle, SecondTriangle]))
  {
    DecimalReadsTestTokens();
    ValidMesh("1.0 0 -3.5,0 1 2,3 5 2;2 1 0,1 0 2,2 2 2", ParseF32);
  }

  /** The empty text is the one `InvalidMesh`. */
  lemma EmptyMesh(parse: FloatParser)
    ensures ParseMesh("", parse) == Err(GE.InvalidMesh)
  {
  }

  lemma BadFirstPoint(s: string, parse: FloatParser)
    requires s == "a 0 -3.5" && ReadsTestTokens(parse)
    ensures ParsePoint(s, parse) == Err(PE.InvalidFloat)
  {
    assert Join(["a", "0", "-3.5"], ' ') == s;
    SplitJoin(["a", "0", "-3.5"], ' ');
  }

  lemma SplitBadFloatMesh(s: string)
    requires s == "a 0 -3.5,1 0 1,0 0 0"
    ensures Split(s, ',') == ["a 0 -3.5", "1 0 1", "0 0 0"]
  {
    SplitThreePoints(s, "a 0 -3.5", "1 0 1", "0 0 0");
  }

  /** A text with commas but no `;` is a single mesh piece. */
  lemma SingleMeshPiece(s: string, points: seq<string>)
    requires Split(s, ',') == points
    requires forall i :: 0 <= i < |points| ==> ';' !in points[i]
    ensures Split(s, ';') == [s]
  {
    JoinSplit(s, ',');
    JoinAvoids(points, ',', ';');
    SplitNoSeparator(s, ';');
  }

  /** A bad float deep inside the first triangle surfaces as `InvalidPoint(InvalidPoint(InvalidFloat))`. */
  lemma BadFloatMesh(s: string, parse: FloatParser)
    requires s == "a 0 -3.5,1 0 1,0 0 0" && ReadsTestTokens(parse)
    ensures ParseMesh(s, parse) == Err(GE.InvalidPoint(TE.InvalidPoint(PE.InvalidFloat)))
  {
    SplitBadFloatMesh(s);
    SingleMeshPiece(s, ["a 0 -3.5", "1 0 1", "0 0 0"]);
    BadFirstPoint("a 0 -3.5", parse);
    assert ParseTriangle(s, parse) == Err(TE.InvalidPoint(PE.InvalidFloat));
  }

  /** A piece with no commas is a triangle-count error. */
  lemma CommaFreeMesh(s: string, parse: FloatParser)
    requires s == "0 0"
    ensures ParseMesh(s, parse) == Err(GE.InvalidTriangle(TE.InvalidPointNumber))
  {
    SplitNoSeparator(s, ';');
    SplitNoSeparator(s, ',');
  }

  /** The `parse_next` tests: `"1.0"` as `f32`, `"1"` as `i32`, and the two `u32` errors. */
  lemma ParseNextFloat()
    ensures ParseNext(Some("1.0"), "1.0", ParseF32) == Ok(1.0)
  {
    OnePointZeroToken();
  }

  lemma ParseNextInteger(s: string)
    requires s == "1"
    ensures ParseNext(Some(s), s, ParseI32) == Ok(1)
  {
    assert s[..0] == "" && DigitsValue(s) == 1;
    assert s + "" == s;
    DigitRunDecides(s, "");
  }

  lemma ParseNextMissing(line: string)
    requires line == "line"
    ensures ParseNext(None, line, ParseU32) == Err(GE.MissingValue(line))
  {
  }

  lemma ParseNextWrongNumber(s: string, line: string)
    requires s == "-1.0" && line == "line"
    ensures ParseNext(Some(s), line, ParseU32) == Err(GE.WrongNumber(line))
  {
    assert s[0] == '-';
    assert !AllDigits(s);
  }
}

=== FILE: scene.dfy ===
/** The 3D environment (`environment/mod.rs`): the actors drawn each frame. The file it is
    given is read, but its contents are ignored: the environment always holds the cube. */
module Scene {
  import opened Wrappers
  import opened Vector
  import opened Geometry
  import opened MeshActors
  import opened Cube

  datatype EnvironmentError = BadFile(file: string)

  /** The failure of `fs::read_to_string`, reduced to its message. */
  datatype IoError = IoError(message: string)

  datatype Environment = Environment(actors: seq<MeshActor>)

  /** `Environment::new(file)`, with the outcome of reading `file` passed in as `read`. */
  function New(file: string, read: Result<string, IoError>): (r: Result<Environment, EnvironmentError>)
    ensures r.Ok? <==> read.Ok?
    ensures r.Err? ==> r.error == BadFile(file)
    ensures r.Ok? ==> |r.value.actors| == 1 && r.value.actors[0].mesh.triangles == CubeTriangles()
  {
    var cube := Get3dCube();
    match read
    case Err(_) => Err(BadFile(file))
    case Ok(_) => Ok(Environment([cube]))
  }

  /** The contents of the file make no difference to the environment built. */
  lemma NewIgnoresContent(file: string, a: string, b: string)
    ensures New(file, Ok(a)) == New(file, Ok(b))
  {
  }

  /** The actors' traces one after the other, in list order. */
  function Traces(actors: seq<MeshActor>, cam: Camera, lib: MathLib): seq<Fill>
    decreases |actors|
  {
    if |actors| == 0 then [] else MeshActors.Draw(actors[0], cam, lib) + Traces(actors[1..], cam, lib)
  }

  /** The traces are empty exactly when every actor draws nothing. */
  lemma {:induction false} TracesEmpty(actors: seq<MeshActor>, cam: Camera, lib: MathLib)
    ensures Traces(actors, cam, lib) == [] <==> forall i :: 0 <= i < |actors| ==> MeshActors.Draw(actors[i], cam, lib) == []
    decreases |actors|
  {
    if |actors| > 0 {
      TracesEmpty(actors[1..], cam, lib);
      assert forall i :: 1 <= i < |actors| ==> actors[i] == actors[1..][i - 1];
    }
  }

  /** `Environment::draw`: every actor draws, in list order, with the same camera; the trace
      is the actors' traces one after the other. */
  function Draw(env: Environment, cam: Camera, lib: MathLib): (r: seq<Fill>)
    ensures r == [] <==> forall i :: 0 <= i < |env.actors| ==> MeshActors.Draw(env.actors[i], cam, lib) == []
  {
    TracesEmpty(env.actors, cam, lib);
    Traces(env.actors, cam, lib)
  }

  /** The traces of a concatenation are the traces of its parts in turn. */
  lemma {:induction false} TracesConcat(a: seq<MeshActor>, b: seq<MeshActor>, cam: Camera, lib: MathLib)
    ensures Traces(a + b, cam, lib) == Traces(a, cam, lib) + Traces(b, cam, lib)
    decreases |a|
  {
    if |a| == 0 {
      assert a + b == b;
    } else {
      assert (a + b)[1..] == a[1..] + b;
      TracesConcat(a[1..], b, cam, lib);
    }
  }

  /** Drawing the actors of two environments in turn is drawing the environment that lists
      them all. */
  lemma DrawConcat(a: seq<MeshActor>, b: seq<MeshActor>, cam: Camera, lib: MathLib)
    ensures Draw(Environment(a + b), cam, lib) == Draw(Environment(a), cam, lib) + Draw(Environment(b), cam, lib)
  {
    TracesConcat(a, b, cam, lib);
  }

  /** An environment of one actor draws exactly what that actor draws. */
  lemma DrawSingle(actor: MeshActor, cam: Camera, lib: MathLib)
    ensures Draw(Environment([actor]), cam, lib) == MeshActors.Draw(actor, cam, lib)
  {
    assert [actor][1..] == [];
    assert Traces([actor][1..], cam, lib) == [];
  }

  /** `Environment::update`: the same delta goes to every actor once, in list order. */
  function Update(env: Environment, delta: nat): (r: Environment)
    ensures |r.actors| == |env.actors|
    ensures forall i :: 0 <= i < |env.actors| ==> r.actors[i] == MeshActors.Update(env.actors[i], delta)
  {
    Environment(seq(|env.actors|, i requires 0 <= i < |env.actors| => MeshActors.Update(env.actors[i], delta)))
  }

  /** Since a mesh actor's update does nothing, neither does the environment's. */
  lemma UpdateLeavesActors(env: Environment, delta: nat)
    ensures Update(env, delta) == env
  {
    assert Update(env, delta).actors == env.actors;
  }
}

=== FILE: text.dfy ===
/** Rust's `str::split` with a one-character pattern, and its inverse `join`. */
module Text {

  /** Number of occurrences of `c` in `s`. */
  function Count(s: string, c: char): nat
  {
    if |s| == 0 then 0
    else (if s[0] == c then 1 else 0) + Count(s[1..], c)
  }

  /** `s.split(sep).collect()`: every occurrence of `sep` ends a piece, so `n` separators
      give `n + 1` pieces, empty ones included (`""` gives `[""]`, `"a;"` gives `["a", ""]`). */
  function Split(s: string, sep: char): (pieces: seq<string>)
    ensures |pieces| == Count(s, sep) + 1
    ensures forall i :: 0 <= i < |pieces| ==> sep !in pieces[i]
    decreases |s|
  {
    if |s| == 0 then [""]
    else
      var rest := Split(s[1..], sep);
      if s[0] == sep then [""] + rest
      else [[s[0]] + rest[0]] + rest[1..]
  }

  /** `pieces.join(sep)`: the pieces with one `sep` between neighbours. */
  function Join(pieces: seq<string>, sep: char): string
  {
    if |pieces| == 0 then ""
    else if |pieces| == 1 then pieces[0]
    else pieces[0] + [sep] + Join(pieces[1..], sep)
  }

  /** Joining the pieces of a split gives the original text back. */
  lemma {:induction false} JoinSplit(s: string, sep: char)
    ensures Join(Split(s, sep), sep) == s
    decreases |s|
  {
    if |s| > 0 {
      var rest := Split(s[1..], sep);
      JoinSplit(s[1..], sep);
      if s[0] == sep {
        assert Split(s, sep) == [""] + rest;
        assert s == [s[0]] + s[1..];
      } else {
        var pieces := Split(s, sep);
        assert pieces == [[s[0]] + rest[0]] + rest[1..];
        if |rest| == 1 {
          assert s == [s[0]] + rest[0];
        } else {
          assert pieces[1..] == rest[1..];
          assert Join(rest, sep) == rest[0] + [sep] + Join(rest[1..], sep);
          assert s == [s[0]] + s[1..];
        }
      }
    }
  }

  /** Splitting a join gives the pieces back, provided no piece contains the separator. */
  lemma {:induction false} SplitJoin(pieces: seq<string>, sep: char)
    requires |pieces| >= 1
    requires forall i :: 0 <= i < |pieces| ==> sep !in pieces[i]
    ensures Split(Join(pieces, sep), sep) == pieces
    decreases |pieces|
  {
    if |pieces| == 1 {
      SplitNoSeparator(pieces[0], sep);
    } else {
      SplitJoin(pieces[1..], sep);
      SplitPrefix(pieces[0], Join(pieces[1..], sep), sep);
      assert [pieces[0]] + pieces[1..] == pieces;
    }
  }

  /** Text without the separator is a single piece. */
  lemma {:induction false} SplitNoSeparator(s: string, sep: char)
    requires sep !in s
    ensures Split(s, sep) == [s]
    decreases |s|
  {
    if |s| > 0 {
      assert sep !in s[1..] by {
        forall k | 0 <= k < |s[1..]| ensures s[1..][k] != sep {
          assert s[1..][k] == s[k + 1];
        }
      }
      SplitNoSeparator(s[1..], sep);
      assert s == [s[0]] + s[1..];
    }
  }

  /** A separator-free prefix followed by the separator becomes the first piece. */
  lemma {:induction false} SplitPrefix(p: string, rest: string, sep: char)
    requires sep !in p
    ensures Split(p + [sep] + rest, sep) == [p] + Split(rest, sep)
    decreases |p|
  {
    var s := p + [sep] + rest;
    if |p| == 0 {
      assert s[0] == sep;
      assert s[1..] == rest;
    } else {
      assert s[0] == p[0];
      assert s[1..] == p[1..] + [sep] + rest;
      assert sep !in p[1..] by {
        forall k | 0 <= k < |p[1..]| ensures p[1..][k] != sep {
          assert p[1..][k] == p[k + 1];
        }
      }
      SplitPrefix(p[1..], rest, sep);
      assert [p[0]] + p[1..] == p;
    }
  }

  /** A trailing separator adds one empty piece at the end. */
  lemma {:induction false} SplitTrailingSeparator(s: string, sep: char)
    ensures Split(s + [sep], sep) == Split(s, sep) + [""]
    decreases |s|
  {
    var t := s + [sep];
    if |s| == 0 {
      assert t == [sep];
      assert t[1..] == "";
    } else {
      assert t[0] == s[0];
      assert t[1..] == s[1..] + [sep];
      SplitTrailingSeparator(s[1..], sep);
    }
  }

  /** A join holds no character besides the separator and the pieces' own characters. */
  lemma {:induction false} JoinAvoids(pieces: seq<string>, sep: char, c: char)
    requires c != sep
    requires forall i :: 0 <= i < |pieces| ==> c !in pieces[i]
    ensures c !in Join(pieces, sep)
    decreases |pieces|
  {
    if |pieces| > 1 {
      JoinAvoids(pieces[1..], sep, c);
      assert pieces[0] == pieces[..1][0];
    }
  }

  /** Three pieces joined: the first, the separator, the second, the separator, the third. */
  lemma Join3(a: string, b: string, c: string, sep: char)
    ensures Join([a, b, c], sep) == a + [sep] + b + [sep] + c
  {
    assert [a, b, c][1..] == [b, c];
    assert [b, c][1..] == [c];
    assert Join([b, c], sep) == b + [sep] + c;
    assert a + [sep] + (b + [sep] + c) == a + [sep] + b + [sep] + c;
  }
}

=== FILE: vector.dfy ===
/** Three- and two-dimensional points and the vector operations the renderer uses.
    `f32` is modelled as `real`; `sqrt`, `tan`, `sin`, `cos` and π are left uninterpreted
    and passed in as a `MathLib`. */
module Vector {
  import opened Wrappers

  datatype Point3 = Point3(x: real, y: real, z: real)

  datatype Point2 = Point2(x: real, y: real)

  /** The platform's transcendental functions and its value of π. */
  datatype MathLib = MathLib(pi: real, tan: real -> real, sin: real -> real, cos: real -> real, sqrt: real -> real)

  function Sub(a: Point3, b: Point3): Point3
  {
    Point3(a.x - b.x, a.y - b.y, a.z - b.z)
  }

  function Dot(a: Point3, b: Point3): real
  {
    a.x * b.x + a.y * b.y + a.z * b.z
  }

  /** The right-handed cross product. */
  function Cross(a: Point3, b: Point3): Point3
  {
    Point3(a.y * b.z - a.z * b.y, a.z * b.x - a.x * b.z, a.x * b.y - a.y * b.x)
  }

  function Scale(v: Point3, k: real): Point3
  {
    Point3(v.x * k, v.y * k, v.z * k)
  }

  /** The length `sqrt(x² + y² + z²)`. */
  function Module(v: Point3, lib: MathLib): real
  {
    lib.sqrt(Dot(v, v))
  }

  /** `v / module(v)`. When the module is zero Rust's `f32` division yields a vector of
      NaN; the model represents that vector as `None`. */
  function Normalize(v: Point3, lib: MathLib): (r: Option<Point3>)
    ensures r.None? <==> Module(v, lib) == 0.0
    ensures r.Some? ==> Scale(r.value, Module(v, lib)) == v
  {
    var m := Module(v, lib);
    if m == 0.0 then None else Some(Point3(v.x / m, v.y / m, v.z / m))
  }

  /** `apply_offset`: pushes the point away from the camera along z. */
  function ApplyOffset(p: Point3, offset: real): (r: Point3)
    ensures r.x == p.x && r.y == p.y
    ensures r.z - p.z == offset
  {
    Point3(p.x, p.y, p.z + offset)
  }

  /** `Point3::update` (and `translate`): overwrites all three axes with the tuple. */
  function Update(p: Point3, pos: (real, real, real)): (r: Point3)
    ensures (r.x, r.y, r.z) == pos
  {
    Point3(pos.0, pos.1, pos.2)
  }

  /** `Point2::project`: maps normalised device coordinates in [-1, 1] to a
      `width` x `height` screen whose origin is (0, 0). */
  function Project(p: Point2, width: real, height: real): (r: Point2)
    ensures p.x == -1.0 ==> r.x == 0.0
    ensures p.x == 1.0 ==> r.x == width
    ensures p.y == -1.0 ==> r.y == 0.0
    ensures p.y == 1.0 ==> r.y == height
  {
    Point2((p.x + 1.0) * 0.5 * width, (p.y + 1.0) * 0.5 * height)
  }

  /** The result of `update` does not depend on the point updated. */
  lemma UpdateForgetsOldPosition(p: Point3, q: Point3, pos: (real, real, real))
    ensures Update(p, pos) == Update(q, pos)
    ensures Update(Update(p, pos), pos) == Update(p, pos)
  {
  }

  /** Each screen axis depends only on its own NDC axis and its own screen dimension. */
  lemma ProjectAxesIndependent(p: Point2, q: Point2, width: real, height: real, width': real, height': real)
    ensures p.x == q.x ==> Project(p, width, height).x == Project(q, width, height').x
    ensures p.y == q.y ==> Project(p, width, height).y == Project(q, width', height).y
  {
  }

  /** For a non-negative width, projection never reverses the order of two x values. */
  lemma ProjectMonotone(p: Point2, q: Point2, width: real, height: real)
    requires width >= 0.0 && p.x <= q.x
    ensures Project(p, width, height).x <= Project(q, width, height).x
  {
    var d := (q.x - p.x) * 0.5;
    assert d >= 0.0;
    assert d * width >= 0.0;
    assert Project(q, width, height).x - Project(p, width, height).x == d * width;
  }

  /** The cross product is anti-commutative. */
  lemma CrossAntiCommutative(a: Point3, b: Point3)
    ensures Cross(a, b) == Scale(Cross(b, a), -1.0)
  {
  }

  /** The cross product is orthogonal to both of its factors. */
  lemma CrossOrthogonal(a: Point3, b: Point3)
    ensures Dot(Cross(a, b), a) == 0.0
    ensures Dot(Cross(a, b), b) == 0.0
  {
  }

  /** Where `sqrt` is a square root, a normalised vector has unit length. */
  lemma NormalizeUnit(v: Point3, lib: MathLib)
    requires Normalize(v, lib).Some?
    requires Module(v, lib) * Module(v, lib) == Dot(v, v)
    ensures Dot(Normalize(v, lib).value, Normalize(v, lib).value) == 1.0
  {
    var m := Module(v, lib);
    var n := Normalize(v, lib).value;
    assert n.x * m == v.x && n.y * m == v.y && n.z * m == v.z;
    calc {
      Dot(n, n) * (m * m);
      (n.x * m) * (n.x * m) + (n.y * m) * (n.y * m) + (n.z * m) * (n.z * m);
      Dot(v, v);
      m * m;
    }
    assert m * m != 0.0;
  }
}

=== FILE: world.dfy ===
/** The `World` of the pixel demo: one bouncing box drawn over a sky-blue background, on a
    screen whose row width is fixed at 960 whatever the frame's size. */
module World {
  import opened Frames
  import opened Boxes

  const Background: Rgba := [0x48, 0xb2, 0xe8, 0xff]

  /** `World::new`: the box at (24, 16) moving one pixel right and down per update. */
  function New(): (w: BouncingBox)
    ensures w.x == 24 && w.y == 16 && w.vx == 1 && w.vy == 1
    ensures Bounded(w)
  {
    BouncingBox(24, 16, 1, 1)
  }

  /** `World::update` follows the bouncing box's rule exactly. */
  function Update(w: BouncingBox): (r: BouncingBox)
    requires NoOverflow(w)
    ensures r == Boxes.Update(w)
    ensures Bounded(w) ==> Bounded(r)
  {
    UpdateKeepsBoundedIfBounded(w);
    BouncingBox(w.x + (if Bounces(w.x, ScreenWidth) then -w.vx else w.vx),
                w.y + (if Bounces(w.y, ScreenHeight) then -w.vy else w.vy),
                if Bounces(w.x, ScreenWidth) then -w.vx else w.vx,
                if Bounces(w.y, ScreenHeight) then -w.vy else w.vy)
  }

  lemma UpdateKeepsBoundedIfBounded(w: BouncingBox)
    requires NoOverflow(w)
    ensures Bounded(w) ==> Bounded(Boxes.Update(w))
  {
    if Bounded(w) {
      UpdateKeepsBounded(w);
    }
  }

  /** The coordinates `draw` gives pixel `i`: column and row of a 960-wide screen, cast to
      `i16`. */
  function Coordinates(i: nat): (I16, I16)
  {
    (AsI16(i % ScreenWidth), AsI16(i / ScreenWidth))
  }

  predicate Drawable(w: BouncingBox, frame: seq<Byte>)
  {
    forall i :: 0 <= i < Pixels(frame) ==> CanDraw(w, Coordinates(i).0, Coordinates(i).1)
  }

  function PixelColor(w: BouncingBox, i: nat): Rgba
    requires CanDraw(w, Coordinates(i).0, Coordinates(i).1)
  {
    DrawPixel(w, Background, Coordinates(i).0, Coordinates(i).1)
  }

  /** `World::draw`: every whole pixel is the box colour inside the box's square and the
      background outside it; trailing bytes are not touched. */
  method Draw(w: BouncingBox, frame: seq<Byte>) returns (out: seq<Byte>)
    requires Drawable(w, frame)
    ensures |out| == |frame|
    ensures forall i :: 0 <= i < Pixels(frame) ==>
      out[4 * i..4 * i + 4] == if Inside(w, Coordinates(i).0, Coordinates(i).1) then BoxColor else Background
    ensures out[4 * Pixels(frame)..] == frame[4 * Pixels(frame)..]
  {
    var pixel := (i: nat) requires CanDraw(w, Coordinates(i).0, Coordinates(i).1) => PixelColor(w, i);
    out := FillFrame(frame, pixel);
    forall i | 0 <= i < Pixels(frame)
      ensures out[4 * i..4 * i + 4] == if Inside(w, Coordinates(i).0, Coordinates(i).1) then BoxColor else Background
    {
      PaintedPixel(frame, out, pixel, i);
    }
  }

  /** On a frame of at most 960 × 32768 pixels, pixel `i` is at column `i % 960` and row
      `i / 960`, with no wrap-around in the cast. */
  lemma CoordinatesExact(i: nat)
    requires i < ScreenWidth * 0x8000
    ensures Coordinates(i) == (i % ScreenWidth, i / ScreenWidth)
  {
  }
}

=== FILE: wrappers.dfy ===
/** Option and Result, the two failure-carrying shapes the engine's Rust code uses. */
module Wrappers {

  datatype Option<+T> = None | Some(value: T)

  /** Rust's `Result<T, E>`. */
  datatype Result<+T, +E> = Ok(value: T) | Err(error: E) {

    /** Rust's `map_err`: rewrites the error and keeps a success value as it is. */
    function MapErr<F>(f: E -> F): (r: Result<T, F>)
      ensures r.Ok? <==> Ok?
      ensures Ok? ==> r.value == value
      ensures Err? ==> r.error == f(error)
    {
      match this
      case Ok(v) => Ok(v)
      case Err(e) => Err(f(e))
    }
  }
}
